=== FILE: README.md ===
# A verified model of the life-science research agents' chat client and lab tools

This project models the core of a workshop repository about research agents on Amazon
Bedrock AgentCore. It does so in Dafny, as pure functions over immutable data, and proves
properties of that model. The core has five parts.

- **The agent-runtime service** of the `agentcore-chat` command.
  - It lists agent runtimes page by page, retrying transient faults with capped exponential
    backoff.
  - It validates each record into an `AgentRuntime`, keeps the READY ones, and probes each
    for its server protocol.
  - It keeps the HTTP agents, sorted by name. Every failure becomes one of the service's
    exception messages.
- **The chat command.**
  - It validates the agent the user selects (a menu number or a case-insensitive name).
  - It runs the prompt loop and the conversation loop with their exit and blank-input rules.
  - It reports errors through a table of messages and tips.
- **The agent client and the response handler.**
  - The client manages the session id, builds the JSON payload and translates errors.
  - The handler renders streamed server-sent events, JSON replies and other replies on the
    terminal: tool-use and event-loop markers, prose, and errors that end a stream.
- **The lab tools.**
  - `gather_evidence` validates a PMC id and searches for the article in the commercial
    and non-commercial open-access buckets. It then wraps the paper-qa answer as a Strands
    tool result. Both variants are modelled.
  - `generate_report` builds the citation request and formats inline citations.
  - `print_cited_response` numbers citations by first appearance.
  - `invoke_agentcore` is the notebook helper.
- **The database Lambda gateway and the two streaming lab agents.**
  - The gateway strips the target prefix and dispatches to 28 tools, each with its
    keyword defaults.
  - The agents de-duplicate tool announcements and pass event data through.

AWS calls, `json.loads`, `json.dumps(indent=2)`, the paper-qa search, the clock, UUIDs and
random jitter are all inputs to the model. The listing API is a sequence of attempts. Protocol
probes and the decoders are functions, and generated ids are parameters. Terminal output is a
sequence of writes, each with its text, its colour and whether a newline follows. Exceptions
are values in `Result`s: for each raised error the model carries the cause, and the message
text is a function of it.

`agentcore-chat/src/agentcore_chat/chat.py` and `src/workshop_tools/chat.py` are identical.
The rows below cite the second. `labs/01-agents/03-reason-and-plan/gather_evidence.py` and
`labs/01-agents/04-multi-agent-orchestration/gather_evidence.py` are also identical, and the
rows cite the first.

Shared modules:

- `Wrappers` holds `Option`, `Result` and `MapAll`.
- `PyStr` models the Python string operations the code uses (`strip`, `in`, `split`,
  `lower`, `int`, `str` of a number).
- `StrOrder` holds code-point order and the stable `sorted(key=...)`.
- `Dedup` covers first-appearance de-duplication and counting.
- `JsonValue` holds a decoded JSON value and Python truthiness.
- `JsonText` holds the string quoting of `json.dumps`, with a decoder that reads it back.

## Model

| member | source | states |
|---|---|---|
| RuntimeRecords.ParseStatus | agentcore-chat/src/agentcore_chat/agent_runtime_service.py:47-58 | a status string is accepted only as the status of that exact name |
| RuntimeRecords.ParseStatusName | agentcore-chat/src/agentcore_chat/agent_runtime_service.py:47-58 | every one of the valid statuses is recognised as itself (status parsing inverts status naming) |
| RuntimeRecords.Construct | agentcore-chat/src/agentcore_chat/agent_runtime_service.py:33-58 | a constructed runtime satisfies the validation invariant and carries the given fields and status unchanged |
| RuntimeRecords.ConstructSucceedsIff | agentcore-chat/src/agentcore_chat/agent_runtime_service.py:33-58 | construction succeeds exactly when ARN, name, id, version and status are non-empty and the status is valid; an empty ARN is reported first; an unknown status is reported as invalid |
| RuntimeRecords.ConvertErrorText | agentcore-chat/src/agentcore_chat/agent_runtime_service.py:555-558 | validation and timestamp errors are re-raised under the invalid-data prefix; any other exception keeps its own text |
| RuntimeRecords.Convert | agentcore-chat/src/agentcore_chat/agent_runtime_service.py:513-558 | the timestamp is parsed before construction; a converted record keeps the page's name, id, version and status; a construction failure is reported with the constructor's own error |
| RuntimeErrors.ContextSuffix | agentcore-chat/src/agentcore_chat/agent_runtime_service.py:694-696 | the " during ..." suffix is empty exactly when no operation context is given |
| RuntimeErrors.AwsErrorMessage | agentcore-chat/src/agentcore_chat/agent_runtime_service.py:560-714 | a client error with an unknown code gets the generic "AWS API error (code): message" text; any other SDK exception gets the "AWS SDK error" text, each with the context suffix |
| RuntimeErrors.GenericPrefix | agentcore-chat/src/agentcore_chat/agent_runtime_service.py:693-703 | codes outside the table fall back to the generic text naming code and message |
| RuntimeErrors.MissingCodeIsUnknown | agentcore-chat/src/agentcore_chat/agent_runtime_service.py:575 | a client error without a code is reported exactly as one with code "Unknown" |
| RuntimeErrors.MissingMessageIsText | agentcore-chat/src/agentcore_chat/agent_runtime_service.py:576 | a client error without a message is reported with `str(e)` in its place |
| RuntimeErrors.ContextFreeCodes | agentcore-chat/src/agentcore_chat/agent_runtime_service.py:610-614 | the unauthorized-operation and service-unavailable texts do not depend on the operation context |
| RuntimeErrors.FixedTextCodes | agentcore-chat/src/agentcore_chat/agent_runtime_service.py:578-668 | the access-denied, not-found, unauthorized, internal, unavailable and throttling texts (and the conflict text while fetching details) never quote the AWS message |
| RuntimeErrors.ProtocolContextsAgree | agentcore-chat/src/agentcore_chat/agent_runtime_service.py:639-668 | internal-server and throttling errors read the same while fetching details and while fetching the protocol |
| RuntimeErrors.ListContextLikeNone | agentcore-chat/src/agentcore_chat/agent_runtime_service.py:574-692 | for every code the table knows, the listing context gives the same text as no context |
| RuntimeFetch.WaitMs | agentcore-chat/src/agentcore_chat/agent_runtime_service.py:456-502 | the backoff before retry k of a client error is 2^(k-1) s plus up to 0.1k s jitter, capped at 60 s; a network or other SDK fault waits k s, capped at 10 s |
| RuntimeFetch.Fetch | agentcore-chat/src/agentcore_chat/agent_runtime_service.py:413-511 | the pagination loop never consumes more attempts than the oracle offers |
| RuntimeFetch.FetchAllAgents | agentcore-chat/src/agentcore_chat/agent_runtime_service.py:413-511 | the loop as written (pages outside, retries inside) produces exactly the trace of the recursive definition |
| RuntimeFetch.FetchPage | agentcore-chat/src/agentcore_chat/agent_runtime_service.py:430-506 | the retry loop of one page either ends the listing or advances to the next page with the agents, requests and waits of that page appended |
| RuntimeFetch.FetchRequests | agentcore-chat/src/agentcore_chat/agent_runtime_service.py:424-447 | every request sends the `nextToken` of the previous page (none before the first), and no page is tried more than four times |
| RuntimeFetch.FetchSleeps | agentcore-chat/src/agentcore_chat/agent_runtime_service.py:450-463 | the waits are exactly those of the retried faults, in order, the k-th retry of a page waiting the k-th backoff |
| RuntimeFetch.FetchPages | agentcore-chat/src/agentcore_chat/agent_runtime_service.py:433-446 | a successful listing is the conversion of the records of every page in order, ending at the first page without a truthy `nextToken` |
| RuntimeFetch.FetchFailureCause | agentcore-chat/src/agentcore_chat/agent_runtime_service.py:464-505 | a failed listing was caused by its last attempt: a non-retryable client error, a transient fault on the fourth try, or a record that failed conversion |
| RuntimeFetch.FetchAtStops | agentcore-chat/src/agentcore_chat/agent_runtime_service.py:433-477 | an attempt that does not continue the loop ends it with that attempt's result |
| RuntimeService.ExtractProtocol | agentcore-chat/src/agentcore_chat/agent_runtime_service.py:285-322 | a protocol is found exactly when `protocolConfiguration.serverProtocol` is present and is "HTTP" or "MCP", and it is that one |
| RuntimeService.DetailsMessage | agentcore-chat/src/agentcore_chat/agent_runtime_service.py:261-283 | an AWS error while fetching details is reported through the error table in the details context; anything else under the unexpected-details prefix |
| RuntimeService.FetchDetails | agentcore-chat/src/agentcore_chat/agent_runtime_service.py:240-283 | blank id and blank version are refused in that order; otherwise the detail call's response is returned and its failure kept as the cause |
| RuntimeService.ErrorLine | agentcore-chat/src/agentcore_chat/agent_runtime_service.py:355 | each failed probe is reported on a line naming the agent |
| RuntimeService.HttpAgents | agentcore-chat/src/agentcore_chat/agent_runtime_service.py:342-358 | the filter keeps exactly the agents whose protocol is HTTP |
| RuntimeService.ProbeErrors | agentcore-chat/src/agentcore_chat/agent_runtime_service.py:349-358 | the error list has one entry per failed probe, naming its agent and cause; it covers all agents exactly when every probe failed |
| RuntimeService.ProbeErrorsSingle | agentcore-chat/src/agentcore_chat/agent_runtime_service.py:349-358 | one agent yields one line, naming it and its probe's error, when its probe fails, and none when it succeeds |
| RuntimeService.ProbeErrorsAppend | agentcore-chat/src/agentcore_chat/agent_runtime_service.py:342-358 | the error list keeps input order (it distributes over concatenation) |
| RuntimeService.HttpAgentsAppend | agentcore-chat/src/agentcore_chat/agent_runtime_service.py:342-358 | the filter preserves input order (it distributes over concatenation) |
| RuntimeService.AllFailedNoneKept | agentcore-chat/src/agentcore_chat/agent_runtime_service.py:360-368 | when every probe failed, no agent is kept |
| RuntimeService.FilterHttp | agentcore-chat/src/agentcore_chat/agent_runtime_service.py:324-370 | the filter fails exactly when the input is non-empty and every probe failed, carrying all the errors; otherwise it returns the HTTP agents |
| RuntimeService.FilterLoop | agentcore-chat/src/agentcore_chat/agent_runtime_service.py:342-358 | the accumulating loop as written computes the kept agents and the error list of the reference definitions |
| RuntimeService.FilterHttpProtocolAgents | agentcore-chat/src/agentcore_chat/agent_runtime_service.py:324-370 | the method as written agrees with the functional filter on every input |
| RuntimeService.ReadyAgents | agentcore-chat/src/agentcore_chat/agent_runtime_service.py:149 | exactly the READY agents are kept |
| RuntimeService.ReadyAgentsSingle | agentcore-chat/src/agentcore_chat/agent_runtime_service.py:149 | one agent is kept exactly when it is READY |
| RuntimeService.ReadyAgentsAppend | agentcore-chat/src/agentcore_chat/agent_runtime_service.py:149 | the filter keeps listing order (it distributes over concatenation) |
| RuntimeService.StatusTally | agentcore-chat/src/agentcore_chat/agent_runtime_service.py:151-161 | the status counts list each occurring status once, ordered by the position of its first occurrence, with its true count, and sum to the number of agents |
| RuntimeService.NoHttpMessage | agentcore-chat/src/agentcore_chat/agent_runtime_service.py:386-411 | with no READY agent, the plain no-agents text; otherwise the count, then the names as listed (at most three, then how many more), then the fixed advice on HTTP agents |
| RuntimeService.NoHttpNames | agentcore-chat/src/agentcore_chat/agent_runtime_service.py:394-397 | the abbreviated name list agrees with the reference listing: up to three names are all listed; beyond three, the first three and how many more |
| RuntimeService.NoAgentsMessage | agentcore-chat/src/agentcore_chat/agent_runtime_service.py:151-179 | no records gives the plain no-agents text; records but none READY gives the message with the status counts; READY agents without HTTP give their count, the listed names and the HTTP advice |
| RuntimeService.FetchFailure | agentcore-chat/src/agentcore_chat/agent_runtime_service.py:185-200 | a non-retryable client error reaches the AWS error table in the listing context; exhausted retries and bad records keep their own cause |
| RuntimeService.SelectAgentsSuccess | agentcore-chat/src/agentcore_chat/agent_runtime_service.py:147-183 | a successful listing is non-empty, sorted by name, a permutation of the HTTP agents among the READY ones, and holds exactly the READY HTTP agents |
| RuntimeService.SelectAgentsErrors | agentcore-chat/src/agentcore_chat/agent_runtime_service.py:149-179 | no-agents is raised exactly when nothing is READY or no READY agent is HTTP while some probe succeeded; a runtime error exactly when every probe of the READY agents failed, carrying their errors |
| RuntimeService.SelectAgentsNoReady | agentcore-chat/src/agentcore_chat/agent_runtime_service.py:151-172 | with nothing READY, the error tells an empty registry from one without READY agents |
| RuntimeService.ListFailures | agentcore-chat/src/agentcore_chat/agent_runtime_service.py:147-200 | a non-retryable listing error goes through the AWS error table, other fetch failures stay runtime errors, and a fetched list goes through selection |
| RuntimeService.FindByName | agentcore-chat/src/agentcore_chat/agent_runtime_service.py:219-222 | the first agent with exactly that name, and none only when no agent has it |
| RuntimeService.GetAgentByName | agentcore-chat/src/agentcore_chat/agent_runtime_service.py:202-224 | a blank name is refused; listing errors pass through; a found agent is listed and has that name; none means no listed agent has it |
| StrOrder.SortBy | agentcore-chat/src/agentcore_chat/agent_runtime_service.py:182 | the result is sorted by key, is a permutation of the input, and keeps agents with equal keys in input order (stable) |
| Chat.FirstNameMatch | src/workshop_tools/chat.py:50-52 | the first agent whose name matches case-insensitively, none only when no name matches |
| Chat.SelectionTextsDiffer | src/workshop_tools/chat.py:38-55 | the empty-selection and invalid-selection messages never coincide |
| Chat.SelectByText | src/workshop_tools/chat.py:38-55 | empty input is refused with its own message; a menu number selects that agent; otherwise the first case-insensitive name match; otherwise an invalid selection that is neither a number nor a name |
| Chat.ValidateAgentSelection | src/workshop_tools/chat.py:21-55 | blank input, and only blank input, is the empty selection; an accepted agent is one of those listed |
| Chat.Menu | src/workshop_tools/chat.py:84-95 | the menu is the count line, one numbered line per agent in order, and a blank line |
| Chat.MenuLineNumbered | src/workshop_tools/chat.py:90-92 | the line of the k-th agent starts with its number k+1 |
| Chat.MenuNumberSelects | src/workshop_tools/chat.py:36-45 | typing the number shown beside an agent, with any surrounding whitespace, selects that agent |
| Chat.NameSelects | src/workshop_tools/chat.py:36-52 | typing a name in any letter case selects an agent of that name, the first one in the menu |
| Chat.Prompt | src/workshop_tools/chat.py:97-108 | an empty line is asked again silently; over the answers that remain, the loop stops at an accepted answer, echoing each refused answer's error; running out of input prints the cancellation notice |
| Chat.PromptIgnoresEmptyLines | src/workshop_tools/chat.py:100 | the loop behaves exactly as if the empty lines had not been typed |
| Chat.SelectionLoop | src/workshop_tools/chat.py:97-108 | the chosen agent is one of the listed agents and is what the last answer read designates; every earlier answer was refused with its error, and the empty-selection error only for a whitespace answer |
| Chat.PromptChoosesFirstValid | src/workshop_tools/chat.py:97-108 | an agent is chosen exactly when some answer is valid, and no answer after the first valid one is read |
| Chat.ClassifyInput | src/workshop_tools/chat.py:174-184 | the exit test comes first, then blank input is skipped; anything else is sent exactly as typed |
| Chat.ExitAnyCase | src/workshop_tools/chat.py:174 | "exit" in any letter case with surrounding whitespace ends the session |
| Chat.TurnOutput | src/workshop_tools/chat.py:183-198 | a normal answer and the two reported errors end with a blank spacing line; another exception does not |
| Chat.ConverseWithoutExit | src/workshop_tools/chat.py:168-198 | without a read that stops the loop, exactly the non-blank, non-exit lines are sent, in order, and the session does not end |
| Chat.ConverseStopsAtExit | src/workshop_tools/chat.py:168-198 | the first exit ends the session with "Goodbye" as the last line, and exactly the non-blank lines before it were sent |
| Chat.AbortKeepsChatting | src/workshop_tools/chat.py:171-198 | as written, an abort at the `You` prompt prints the loop-error pair and the next line is still sent |
| Chat.AbortEndsChat | src/workshop_tools/chat.py:194-201 | with the abort reaching the interrupt handler, it ends the chat with "Chat interrupted" as the last line, after exactly the non-blank lines typed before it |
| Chat.HandleError | src/workshop_tools/chat.py:237-324 | the headline names the entry's message and the error, then the resolve heading, then one bullet per tip; the exit status is 1 |
| Chat.UnknownErrorTypeFallsBack | src/workshop_tools/chat.py:318 | an error type missing from the table is reported exactly as an unexpected error |
| Chat.CommandErrorType | src/workshop_tools/chat.py:68-145 | every place `chat` reports an error uses a type the table has; only an unforeseen exception is "unexpected" |
| Chat.ListingFailure | src/workshop_tools/chat.py:74-81 | `NoAgentsAvailableError`, and only it, is reported as "no_agents"; every other listing error as "runtime_service" |
| AgentClient.NewClient | src/workshop_tools/agent_client.py:35-46 | a new client has no session, and its qualifier defaults to "DEFAULT" |
| AgentClient.UseSession | src/workshop_tools/agent_client.py:63-67 | a truthy argument wins, then the remembered session, then a new id; the client remembers the one used |
| AgentClient.SessionSticks | src/workshop_tools/agent_client.py:63-67 | once a call has fixed the session, a later call without an argument keeps it, whatever id would be generated |
| AgentClient.Payload | src/workshop_tools/agent_client.py:117-128 | the payload is ASCII (so encoding gives one byte per character) and has the `{"prompt": ...}` shape |
| AgentClient.PayloadCarriesMessage | src/workshop_tools/agent_client.py:117-128 | reading the payload's "prompt" back gives exactly the message typed |
| AgentClient.ClientErrorText | src/workshop_tools/agent_client.py:97-110 | the four recognised codes get their own prefix before the message; any other code gives "AWS service error (code): message" |
| AgentClient.ClientErrorTextGeneric | src/workshop_tools/agent_client.py:101-110 | the generic "AWS service error (code)" form is used exactly for codes outside the four |
| AgentClient.ClientErrorTextEndsWithMessage | src/workshop_tools/agent_client.py:97-110 | the error's message always ends the text |
| AgentClient.InvokeErrorText | src/workshop_tools/agent_client.py:97-113 | client errors go through the code table with code "" and message `str(e)` when absent; any other exception gets the unexpected-error prefix |
| AgentClient.FormatReply | src/workshop_tools/agent_client.py:84-95 | the content type defaults to event-stream; only a readable JSON body is read into text; every other body passes through unchanged |
| AgentClient.SendMessage | src/workshop_tools/agent_client.py:48-113 | the request carries the client's ARN and qualifier, the session chosen and the payload; every failure is a connection error |
| AgentClient.ConversationKeepsSession | src/workshop_tools/agent_client.py:63-67 | successive calls without a session argument run in the session the first call established |
| ResponseHandler.ToolUsageName | src/workshop_tools/response_handler.py:224-240 | a tool line is shown as the marker, one space, and the trimmed tool name |
| ResponseHandler.EventLoopTimestamp | src/workshop_tools/response_handler.py:242-258 | an event-loop line is shown as its trimmed timestamp |
| ResponseHandler.FormatEventMarker | src/workshop_tools/response_handler.py:260-275 | tool and event-loop lines are formatted; anything else is returned as it is |
| ResponseHandler.UnescapePlain | src/workshop_tools/response_handler.py:181-186 | prose without a backslash is shown unchanged |
| ResponseHandler.StartingMarkers | src/workshop_tools/response_handler.py:323-339 | a line starting with a marker is a marker line, and no line starts with both markers |
| ResponseHandler.FormatAndDisplay | src/workshop_tools/response_handler.py:151-191 | markers end the prose state and are shown in cyan with the spacing the code adds; prose is shown in green with its escapes undone, after a blank line only when it starts a new run |
| ResponseHandler.DictText | src/workshop_tools/response_handler.py:126-131 | the first truthy text field wins; otherwise `delta.text`; failing exactly when `delta` is present and not a dict |
| ResponseHandler.DisplayContent | src/workshop_tools/response_handler.py:112-149 | undecodable text and JSON strings go through the prose formatter; other JSON values print one green line and leave the state unchanged; a dict prints its first truthy text, content or message field, else the text under its delta field, else its `str()` form on a line of its own; only a dict can fail (a delta that is not a dict) |
| ResponseHandler.LinePrefixesDisjoint | src/workshop_tools/response_handler.py:81-110 | a line is never both a data line and an event line |
| ResponseHandler.ProcessLine | src/workshop_tools/response_handler.py:81-110 | blank lines and empty or "[DONE]" data are skipped; an event line shows its type unless it is a ping or heartbeat; anything else is content |
| ResponseHandler.RunStepsAppend | src/workshop_tools/response_handler.py:58-73 | the stream loop distributes over concatenation of its input, stopping at a failure |
| ResponseHandler.StepItem | src/workshop_tools/response_handler.py:58-73 | an empty line is skipped; any other is trimmed and processed; a read fault ends the loop |
| ResponseHandler.FoldAppend | src/workshop_tools/response_handler.py:58-73 | splitting the stream anywhere gives the same transcript, the second part starting from the first part's state |
| ResponseHandler.FoldStopsAtFault | src/workshop_tools/response_handler.py:58-79 | nothing after a stream exception is processed |
| ResponseHandler.FinishStream | src/workshop_tools/response_handler.py:76-79 | a completed stream ends with one empty line; a failed one with the error notice |
| ResponseHandler.HandleStreaming | src/workshop_tools/response_handler.py:40-79 | a falsy body prints the no-stream notice; a line stream is folded from a cleared state and finished; every truthy body ends with the blank line or the error notice |
| ResponseHandler.FirstStringField | src/workshop_tools/response_handler.py:306-318 | the first of the keys whose value is a string, none when there is none |
| ResponseHandler.ExtractMessageText | src/workshop_tools/response_handler.py:277-321 | a string is its own text; `result.content[0].text` wins; otherwise a string `result`; without a usable `result`, the first string message field |
| ResponseHandler.ShowJson | src/workshop_tools/response_handler.py:200-222 | one green line: the extracted text when truthy, else the pretty-printed document (`null` for JSON null) |
| ResponseHandler.StrandsReplyShown | src/workshop_tools/response_handler.py:289-300 | a Strands reply shows exactly the text of its first content entry |
| ResponseHandler.UnreadableShowsJson | src/workshop_tools/response_handler.py:216-219 | an object with no `result` and no string message field is shown as its pretty-printed JSON |
| ResponseHandler.HandleJson | src/workshop_tools/response_handler.py:193-222 | undecodable text prints the parse error and the raw text; decoded text and dicts are shown; a missing body, or text decoding to JSON null, shows exactly `null` |
| ResponseHandler.HandleResponse | src/workshop_tools/response_handler.py:15-38 | dispatch is on the media type without parameters: event streams, JSON, or the unknown-type notice followed by the body |
| ResponseHandler.ContentTypeParameters | src/workshop_tools/response_handler.py:23-38 | parameters after ';' never change how a response is dispatched |
| InvokeAgentcore.FirstNamed | labs/01-agents/01-pmc-abstract-search/invoke_agentcore.py:49-53 | the position of the first entry with exactly that name, none when no entry has it |
| InvokeAgentcore.LookupArn | labs/01-agents/01-pmc-abstract-search/invoke_agentcore.py:47-57 | the ARN of the first entry of that name; missing exactly when no entry has the name or the first one's ARN is falsy |
| InvokeAgentcore.FirstEntryDecides | labs/01-agents/01-pmc-abstract-search/invoke_agentcore.py:50-55 | a later entry with the same name is never consulted, even when it has an ARN |
| InvokeAgentcore.RenderData | labs/01-agents/01-pmc-abstract-search/invoke_agentcore.py:90-117 | dicts print their first truthy text, content or message field, else the raw data; JSON strings print verbatim, with a newline only after a tool marker; anything else, undecodable text included, prints raw |
| InvokeAgentcore.RenderLine | labs/01-agents/01-pmc-abstract-search/invoke_agentcore.py:82-88 | only a "data: " line whose payload is neither empty nor "[DONE]" prints, and then exactly one write |
| InvokeAgentcore.QuotedTextPrinted | labs/01-agents/01-pmc-abstract-search/invoke_agentcore.py:105-112 | a server that sends `json.dumps(s)` as a data line gets `s` printed verbatim |
| InvokeAgentcore.NotebookStep | labs/01-agents/01-pmc-abstract-search/invoke_agentcore.py:82-117 | each line renders independently; a read fault ends the call |
| InvokeAgentcore.OnlyDataLinesPrint | labs/01-agents/01-pmc-abstract-search/invoke_agentcore.py:82-88 | a line that is not a data line can be removed from anywhere without changing what is printed |
| InvokeAgentcore.SessionOf | labs/01-agents/01-pmc-abstract-search/invoke_agentcore.py:62-63 | a truthy session argument is used, otherwise the new UUID |
| InvokeAgentcore.Invoke | labs/01-agents/01-pmc-abstract-search/invoke_agentcore.py:16-120 | an exception from the listing call escapes after the "Looking up" line alone; a request is made exactly when the lookup finds an ARN, with the DEFAULT qualifier, the session and the prompt payload; an unknown agent prints the not-found line and stops; the output is the four lookup lines, then what the stream printed, then the closing rule and the line naming the session, the closing lines left out when the stream fails; a failed call prints only the lookup lines |
| Report.Cite | labs/01-agents/04-multi-agent-orchestration/generate_report.py:122-128 | a citation goes before final punctuation, which stays last, or at the end |
| Report.UnciteCite | labs/01-agents/04-multi-agent-orchestration/generate_report.py:122-128 | removing the citation gives back the text it was added to: nothing is lost |
| Report.CiteAll | labs/01-agents/04-multi-agent-orchestration/generate_report.py:121-128 | a citation while nothing has been written fails with Python's string IndexError, exactly then; otherwise each marker adds the title length plus three |
| Report.FormatInline | labs/01-agents/04-multi-agent-orchestration/generate_report.py:116-130 | the report is as long as the texts plus the markers, and empty exactly when the texts are |
| Report.UncitedIsConcatenation | labs/01-agents/04-multi-agent-orchestration/generate_report.py:116-130 | without citations the report is the item texts run together |
| Report.FormatFailsIff | labs/01-agents/04-multi-agent-orchestration/generate_report.py:119-128 | formatting fails exactly when some item carries a citation while all texts up to it are empty |
| Report.ToDocument | labs/01-agents/04-multi-agent-orchestration/generate_report.py:95-111 | a record becomes a citable document, titled by its source, with the answer as context and one text block per passage; a missing record or missing passages raise |
| Report.RecordOfDocument | labs/01-agents/04-multi-agent-orchestration/generate_report.py:95-111 | the document carries everything of the record that the report uses |
| Report.ParseDbRecords | labs/01-agents/04-multi-agent-orchestration/generate_report.py:91-113 | one document per record, in order; a failure exactly when some record is unusable, and then the first unusable record's error |
| Report.ReportRequest | labs/01-agents/04-multi-agent-orchestration/generate_report.py:136-162 | the evidence documents in the order of the ids, then the prompt as the last block, for the fixed model and token limit; it fails exactly when some record is unusable |
| Report.GenerateReport | labs/01-agents/04-multi-agent-orchestration/generate_report.py:133-167 | a failed request fails the call; otherwise the answer is formatted with inline citations |
| CitedResponse.Trailer | labs/01-agents/04-multi-agent-orchestration/helpers.py:57-60 | after the answer come two empty lines, the heading, and the numbered reference lines in order |
| CitedResponse.PrintCited | labs/01-agents/04-multi-agent-orchestration/helpers.py:47-61 | the reference list is the titles by first appearance; each text is followed by its markers; every printed number names its title's reference line |
| CitedResponse.CiteItem | labs/01-agents/04-multi-agent-orchestration/helpers.py:49-55 | the inner loop over one item's citations extends the list, the text and the numbers consistently |
| CitedResponse.MarkIsFirstAppearance | labs/01-agents/04-multi-agent-orchestration/helpers.py:53-60 | a printed number is one more than its title's position in the list, so repeated titles share a number and the reference line with it names the title |
| CitedResponse.UncitedBody | labs/01-agents/04-multi-agent-orchestration/helpers.py:49-55 | without citations the answer prints as its texts run together and the reference list is empty |
| CitedResponse.MarkersExtend | labs/01-agents/04-multi-agent-orchestration/helpers.py:53-55 | adding references never renumbers a title already listed |
| Dedup.FirstAppearanceOrder | labs/01-agents/04-multi-agent-orchestration/helpers.py:53-54 | the de-duplicated list keeps titles in order of first appearance |
| Dedup.SumCountsOfDistinct | agentcore-chat/src/agentcore_chat/agent_runtime_service.py:154-161 | the counts of the distinct statuses add up to the number of agents |
| GatherEvidence.DigitRunEnd | labs/01-agents/04-multi-agent-orchestration/gather_evidence_ddb.py:127 | the end of the run of ASCII digits that starts at a position |
| GatherEvidence.ValidPmcId | labs/01-agents/04-multi-agent-orchestration/gather_evidence_ddb.py:103-135 | a valid id is a string of "PMC" and one or more digits, optionally followed by one final newline |
| GatherEvidence.PatternMeansShape | labs/01-agents/04-multi-agent-orchestration/gather_evidence_ddb.py:127 | the pattern accepts exactly the PMC shape, or that shape followed by one newline |
| GatherEvidence.PmcIdValid | labs/01-agents/04-multi-agent-orchestration/gather_evidence_ddb.py:103-135 | every article number gives a valid id, with or without a trailing newline, and its digits read back as that number |
| GatherEvidence.PathCodesIgnoreMessage | labs/01-agents/04-multi-agent-orchestration/gather_evidence_ddb.py:193-201 | the missing-object, missing-bucket and access-denied texts never quote the S3 message |
| GatherEvidence.OtherCodesQuoteMessage | labs/01-agents/04-multi-agent-orchestration/gather_evidence_ddb.py:202-216 | every other code's text ends with the S3 message |
| GatherEvidence.Download | labs/01-agents/04-multi-agent-orchestration/gather_evidence_ddb.py:138-232 | the download succeeds exactly when nothing is raised; client errors go through the code table; a folder failure escapes as the unbound-local error |
| GatherEvidence.MissingReadsNotFound | labs/01-agents/04-multi-agent-orchestration/gather_evidence_ddb.py:193-198 | a missing object or bucket always reads as "not found", whatever the path |
| GatherEvidence.Locate | labs/01-agents/04-multi-agent-orchestration/gather_evidence_ddb.py:333-378 | the commercial key first; the non-commercial key only after a "not found" when commercial use is not required; available when either download succeeds; not available only when the second also reads "not found" |
| GatherEvidence.LookupFailure | labs/01-agents/04-multi-agent-orchestration/gather_evidence_ddb.py:366-378 | a search that found the article produces no failure text; "not available" gives the Open Access text, an S3 failure the access-error text quoting its message, any other exception the unexpected-error text |
| GatherEvidence.CommercialOnlyFlag | labs/01-agents/04-multi-agent-orchestration/gather_evidence_ddb.py:23 | the variable is truthy unless it is set to the empty string |
| GatherEvidence.Summaries | labs/01-agents/04-multi-agent-orchestration/gather_evidence_ddb.py:413-416 | one (chunk, summary) pair per passage, in order |
| GatherEvidence.GatherDdb | labs/01-agents/04-multi-agent-orchestration/gather_evidence_ddb.py:292-485 | an invalid id is refused before any download; success exactly when the id is valid, the article is found and paper-qa answers, returning the answer, evidence id, question, id and summaries; every failure echoes question and id; a failed search returns its failure text and a failed paper-qa call the unexpected-error text |
| GatherEvidence.DdbMissingCommercialText | labs/01-agents/04-multi-agent-orchestration/gather_evidence_ddb.py:342-355 | with the default setting, a missing commercial article is reported as an S3 access error quoting the commercial-only message |
| GatherEvidence.SourceOr | labs/01-agents/03-reason-and-plan/gather_evidence.py:260-261 | a truthy source is kept; otherwise the article's PMC URL |
| GatherEvidence.GatherLab | labs/01-agents/03-reason-and-plan/gather_evidence.py:223-437 | success exactly when the id is valid, the article is found, paper-qa answers with at least one passage and the file is removed; the result carries the first citation and the evidence; every failure echoes question, id and source; a failed search returns its failure text, an answer without passages and a failed removal the unexpected-error text |
| GatherEvidence.LabMissingBothText | labs/01-agents/03-reason-and-plan/gather_evidence.py:279-310 | an article missing under both keys is reported as not available in the Open Access Subset |
| GatherEvidence.LabFallsBack | labs/01-agents/03-reason-and-plan/gather_evidence.py:279-300 | in the lab variant a missing commercial article always leads to the non-commercial key |
| GatherEvidence.DdbDefaultStaysCommercial | labs/01-agents/04-multi-agent-orchestration/gather_evidence_ddb.py:23 | with the variable unset, the DynamoDB variant never tries the non-commercial key |
| LambdaGateway.Find | prerequisite/lambda-database/python/lambda_function.py:55-56 | the first position where the delimiter occurs, none when it does not |
| LambdaGateway.FindIsContains | prerequisite/lambda-database/python/lambda_function.py:55 | the search finds the delimiter exactly when Python's `in` does |
| LambdaGateway.StripTarget | prerequisite/lambda-database/python/lambda_function.py:54-56 | the name after the first "___", or the whole name when there is none |
| LambdaGateway.StripTargetPrefix | prerequisite/lambda-database/python/lambda_function.py:54-56 | a target name without underscores joined to a tool name gives back the tool name |
| LambdaGateway.AvailableToolsAreDispatched | prerequisite/lambda-database/python/lambda_function.py:61-231 | the list offered for an unknown tool is exactly the 28 names the chain handles, each once |
| LambdaGateway.FindTool | prerequisite/lambda-database/python/lambda_function.py:61-214 | a branch is found exactly when the name is one the chain handles, and it handles that name |
| LambdaGateway.Arguments | prerequisite/lambda-database/python/lambda_function.py:61-214 | each keyword argument takes the event's value when present, else its default |
| LambdaGateway.Dispatch | prerequisite/lambda-database/python/lambda_function.py:61-214 | a call is made exactly for the offered names, to the function of that name |
| LambdaGateway.AlphafoldDefaults | prerequisite/lambda-database/python/lambda_function.py:67-77 | an empty event gets the documented defaults of `query_alphafold` |
| LambdaGateway.SynapseDefaults | prerequisite/lambda-database/python/lambda_function.py:206-214 | an event with only `max_results` gets that value and the other defaults of `query_synapse` |
| LambdaGateway.LambdaHandler | prerequisite/lambda-database/python/lambda_function.py:40-247 | 400 exactly for an unknown tool, offering the list; 200 exactly when a known tool runs and its result is turned into the body without raising, with that body; 500 with the exception and tool name otherwise |
| LambdaGateway.UnserialisableDictFails | prerequisite/lambda-database/python/lambda_function.py:232-247 | a dict that `json.dumps` cannot serialise gives 500 with the exception and tool name |
| ToolStream.MessageChunks | labs/02-tools/01-database-tools-gateway/agent.py:105-111 | a message's content yields, in order, one reasoning chunk per entry that is not a tool result and has reasoning text, and nothing else |
| ToolStream.Step | labs/02-tools/01-database-tools-gateway/agent.py:99-114 | a changed tool use yields only its announcement and then the data; otherwise the reasoning of the message content and then the data; data clears the remembered name; a changed tool use without a name raises |
| ToolStream.Stream | labs/02-tools/01-database-tools-gateway/agent.py:97-116 | the output ends with an error chunk exactly when an exception stopped the loop, and has no other |
| ToolStream.EndedStays | labs/02-tools/01-database-tools-gateway/agent.py:115-116 | nothing after the first exception is read |
| ToolStream.FaultEnds | labs/02-tools/01-database-tools-gateway/agent.py:115-116 | an exception yields exactly one error chunk carrying its text |
| ToolStream.StreamDeduplicated | labs/02-tools/01-database-tools-gateway/agent.py:96-114 | the remembered tool name is always what the output says it is, and no tool is announced twice in a row without data between |
| ToolStream.ReannouncedAfterData | labs/02-tools/01-database-tools-gateway/agent.py:112-113 | after data, the next named tool use is announced again |
| ToolStream.DataPassesThrough | labs/02-tools/01-database-tools-gateway/agent.py:112-114 | until an exception, the data of every event is yielded once, verbatim and in order |
| ToolStream.DatabaseToolsAgent | labs/02-tools/01-database-tools-gateway/agent.py:82-116 | an empty tool search fails on `tools_found[0]`, exactly then; otherwise the yielded strings are the stream's chunks rendered |
| ToolStream.MemoryConfigOf | labs/02-tools/02-bring-your-own-tools/agent.py:73-87 | the memory id is the last "/" segment of the ARN; actor and session default to "DEFAULT", but a present value is kept; a falsy session raises |
| ToolStream.MemoryIdOfArn | labs/02-tools/02-bring-your-own-tools/agent.py:73-74 | an ARN ending in "/id" gives that id |
| ToolStream.BringYourOwnToolsAgent | labs/02-tools/02-bring-your-own-tools/agent.py:73-135 | the session check comes before the tool search; after both, it streams like the database-tools agent |
| PyStr.StripPadded | src/workshop_tools/chat.py:36 | stripping removes exactly the surrounding whitespace of a word |
| PyStr.StripEmptyIffBlank | src/workshop_tools/chat.py:179 | a string strips to empty exactly when it is all whitespace |
| PyStr.ParseIntRoundTrip | src/workshop_tools/chat.py:43 | `int` reads back the decimal text of a number, with or without a minus sign |
| PyStr.Split | labs/02-tools/02-bring-your-own-tools/agent.py:74 | the pieces hold no separator and rejoin to the original |
| JsonText.UnquoteQuote | src/workshop_tools/agent_client.py:127-128 | a JSON decoder reads `json.dumps` of any string back to that string, astral characters included |
| JsonText.QuoteAscii | src/workshop_tools/agent_client.py:127-128 | `json.dumps` output is pure ASCII |
| JsonValue.FirstTruthy | src/workshop_tools/response_handler.py:126-131 | an `or` chain of `.get`s gives the first truthy value, else the last key's value |
| Wrappers.MapAllPointwise | agentcore-chat/src/agentcore_chat/agent_runtime_service.py:439-441 | converting a list succeeds exactly when every element converts, element by element, and otherwise fails at the first failure |

## Left out

- The constructor of the runtime service checks credentials and region (`agent_runtime_service.py:80-131`). It needs live AWS clients, so it is modelled only as the `ServiceSetup` failure that `chat` reports.
- The "Unexpected error -" branch of the protocol filter cannot be reached. The detail fetch only raises `AgentRuntimeError`, so that branch is not modelled.
- Python prints the set of valid statuses in hash order, which differs between runs. The message fixes one order.
- `lastUpdatedAt` is turned into a datetime by `fromisoformat`, `fromtimestamp` or `now()`. The outcome is an input (a timestamp, a `ValueError` or another exception), and the value is kept opaque.
- RuntimeFetch.Fetch: when the attempt sequence runs out, it reports `OutOfAttempts`. That is a limit of the finite oracle, not something the program does. `ListingFailure` requires it to be absent.
- The network exception classes caught at `agent_runtime_service.py:479-505` and `225-238` are collapsed into one `Network` fault kind.
- Random jitter is an integer number of milliseconds in [0, 100] per retry, not a float.
- `str()` of arbitrary exceptions and objects is an opaque input text.
- Letter case is folded for ASCII only. `\d` in the PMC pattern matches ASCII digits only; Python also accepts other Unicode digits.
- `int()` is modelled for an optional sign and ASCII digits. Underscores, non-ASCII digits and surrounding whitespace are not modelled, because the input is stripped first.
- Colours are kept as a tag on each write. Click's ANSI styling, the ASCII logo, the selected-agent summary lines of `chat` and the welcome banner are not modelled.
- At the selection prompt, end of input and Ctrl-C are modelled as running out of answers, which prints the cancellation notice as `click.Abort` does there.
- At the `You` prompt, end of input and Ctrl-C are an `Aborted` read. As written, each later read aborts again after end of input, so the session never ends. The model only follows the finite reads it is given.
- A `KeyboardInterrupt` raised while a message is sent or rendered is not modelled: `TurnReply` has no case for it.
- UTF-8 decoding of stream lines is an input: each item is a decoded line or a fault.
- A citation title is always a string. `None` titles are not modelled.
- `format_evidence` in `helpers.py` only prints records for inspection and is not modelled. Nor are the table creation in `helpers.py` and the DynamoDB save in `gather_evidence_ddb.py:427-437`. The save's outcome never changes the result, because its exception is caught and logged.
- `PMCValidationError` is never raised by the code, so its handler is not modelled.
- The PMC id argument is a string or an opaque other value shown by its `str()`.
- Any exception inside paper-qa, or in removing the downloaded file, is a failed outcome carrying its text.
- The tool search, the gateway token and the SSM parameters of the two lab agents are inputs.
- `client.close()` in the `finally` blocks is treated as a call that does not fail. An exception from it is not modelled: the database-tools agent would propagate it (`labs/02-tools/01-database-tools-gateway/agent.py:117-118`), and the bring-your-own-tools agent prints a warning for anything but `AttributeError` (`labs/02-tools/02-bring-your-own-tools/agent.py:136-144`).
- Event data is modelled as a string.
- `print` to the Lambda log is not modelled.
- A `reasoningContent` entry without `reasoningText.text` raises `KeyError`. This is not modelled: the entry carries an optional text.
- `generate_report`'s evidence table lookup, `invoke_model` and `json.loads` of the answer are inputs. `_get_evidence_record` is not part of this model.
- The database query functions the gateway calls are not part of this model. Their outcome (a result, or the exception they raise) is an input.

## Findings

| source | as written | input that shows it | evidently intended | confidence | as-written member | corrected member |
|---|---|---|---|---|---|---|
| src/workshop_tools/chat.py:171-201 | `click.prompt` turns Ctrl-C and end of input into `click.Abort`, a `RuntimeError`, which the loop's `except Exception` reports as an unexpected error with an empty text before asking again | Ctrl-C at the `You` prompt, then "hi": the loop-error pair is printed and "hi" is sent; at end of input the pair repeats without end | the abort reaches the "Chat interrupted. Goodbye!" handler and the chat ends | high; not executed | Chat.AbortKeepsChatting | Chat.AbortEndsChat |

=== FILE: agent_client.dfy ===
/** `AgentClient.send_message` (src/workshop_tools/agent_client.py): which session id a call
    uses, the JSON payload it sends, the response it hands to the response handler, and how
    invocation failures become `AgentConnectionError` messages. The runtime invocation itself
    is an outcome supplied from outside. */
module AgentClient {
  import opened Wrappers
  import opened PyStr
  import opened JsonText
  import opened RuntimeErrors
  import opened ResponseHandler

  /** The client: the agent it talks to and the session it remembers (None until a call). */
  datatype ClientState = ClientState(agentArn: string, qualifier: string, session: Option<string>)

  const DefaultQualifier: string := "DEFAULT"

  /** `AgentClient(agent_arn, qualifier)`: no session yet. */
  function NewClient(agentArn: string, qualifier: Option<string>): (c: ClientState)
    ensures c.session.None? && c.agentArn == agentArn
    ensures c.qualifier == qualifier.GetOr(DefaultQualifier)
  {
    ClientState(agentArn, qualifier.GetOr(DefaultQualifier), None)
  }

  /** Python truthiness of an optional string. */
  predicate Given(s: Option<string>) {
    s.Some? && |s.value| > 0
  }

  /** The session a call uses: a non-empty argument replaces the remembered one, otherwise a
      remembered session is reused, otherwise `newId` (a new UUID) is taken. The client
      remembers the id it used. */
  function UseSession(c: ClientState, arg: Option<string>, newId: string): (r: (string, ClientState))
    requires |newId| > 0
    ensures |r.0| > 0
    ensures r.1 == c.(session := Some(r.0))
    ensures Given(arg) ==> r.0 == arg.value
    ensures !Given(arg) && Given(c.session) ==> r.0 == c.session.value
    ensures !Given(arg) && !Given(c.session) ==> r.0 == newId
  {
    if Given(arg) then (arg.value, c.(session := arg))
    else if !Given(c.session) then (newId, c.(session := Some(newId)))
    else (c.session.value, c)
  }

  /** Once a call has fixed the session, later calls without an argument keep it, whatever
      id would have been generated. */
  lemma SessionSticks(c: ClientState, arg: Option<string>, newId: string, newId2: string)
    requires |newId| > 0 && |newId2| > 0
    ensures var (id, c2) := UseSession(c, arg, newId);
      UseSession(c2, None, newId2) == (id, c2)
  {
  }

  const PayloadHead: string := "{\"prompt\": "
  const PayloadTail: string := "}"

  /** `json.dumps({"prompt": message})`: ASCII only, so `.encode()` gives one byte per
      character. */
  function Payload(message: string): (r: string)
    ensures IsAscii(r)
    ensures StartsWith(r, PayloadHead) && EndsWith(r, PayloadTail)
  {
    QuoteAscii(message);
    var r := PayloadHead + Quote(message) + PayloadTail;
    assert r[..|PayloadHead|] == PayloadHead;
    assert r[|r| - 1..] == PayloadTail;
    r
  }

  /** What a JSON reader finds under "prompt" in a payload of this shape. */
  function PromptOf(payload: string): Option<string> {
    if |payload| >= |PayloadHead| + |PayloadTail| && StartsWith(payload, PayloadHead)
       && EndsWith(payload, PayloadTail)
    then Unquote(payload[|PayloadHead|..|payload| - |PayloadTail|])
    else None
  }

  /** The agent receives exactly the message typed, whatever characters it holds. */
  lemma PayloadCarriesMessage(message: string)
    ensures PromptOf(Payload(message)) == Some(message)
  {
    var p := Payload(message);
    assert p[|PayloadHead|..|p| - |PayloadTail|] == Quote(message);
    UnquoteQuote(message);
  }

  /** The request `invoke_agent_runtime` receives. */
  datatype Request = Request(agentArn: string, qualifier: string, sessionId: string, payload: string)

  /** The outcome of `invoke_agent_runtime`: the `contentType` and `response` entries of its
      reply (each possibly absent), or the exception it raised. */
  datatype Invocation = Invoked(contentType: Option<string>, body: Option<Body>) | InvokeFailed(fault: SdkError)

  /** The dictionary handed to `ResponseHandler.handle_response`. */
  datatype Formatted = Formatted(contentType: string, body: Body)

  /** The two exceptions `send_message` raises. */
  datatype SendError = ConnectionError(message: string) | ProcessingError(message: string)

  const DefaultContentType: string := "text/event-stream"
  const JsonContentType: string := "application/json"
  const UnexpectedPrefix: string := "Unexpected error communicating with agent: "
  const GenericCodePrefix: string := "AWS service error ("

  predicate KnownInvokeCode(code: string) {
    || code == "AccessDeniedException" || code == "ResourceNotFoundException"
    || code == "ThrottlingException" || code == "InternalServerException"
  }

  /** The `AgentConnectionError` message for a `ClientError` with code `code` ("" when absent)
      and message `message` (`str(e)` when absent). */
  function ClientErrorText(code: string, message: string): (r: string)
    ensures code == "AccessDeniedException" ==> r == "Access denied: " + message
    ensures code == "ResourceNotFoundException" ==> r == "Agent not found: " + message
    ensures code == "ThrottlingException" ==> r == "Request throttled: " + message
    ensures code == "InternalServerException" ==> r == "Internal server error: " + message
    ensures !KnownInvokeCode(code) ==> r == GenericCodePrefix + code + "): " + message
  {
    if code == "AccessDeniedException" then "Access denied: " + message
    else if code == "ResourceNotFoundException" then "Agent not found: " + message
    else if code == "ThrottlingException" then "Request throttled: " + message
    else if code == "InternalServerException" then "Internal server error: " + message
    else GenericCodePrefix + code + "): " + message
  }

  /** A message names its code in the generic form exactly when the code is not one of the
      four the client recognises. */
  lemma ClientErrorTextGeneric(code: string, message: string)
    ensures StartsWith(ClientErrorText(code, message), GenericCodePrefix) <==> !KnownInvokeCode(code)
  {
    var r := ClientErrorText(code, message);
    if KnownInvokeCode(code) {
      assert r[1] != GenericCodePrefix[1];
    } else {
      PrefixStartsWith(GenericCodePrefix, code + "): " + message);
      assert r == GenericCodePrefix + (code + "): " + message);
    }
  }

  /** The error's own message always ends the text. */
  lemma ClientErrorTextEndsWithMessage(code: string, message: string)
    ensures EndsWith(ClientErrorText(code, message), message)
  {
    var r := ClientErrorText(code, message);
    assert r[|r| - |message|..] == message;
  }

  /** How an invocation failure is reported: client errors through the code table, every
      other exception under the generic prefix. */
  function InvokeErrorText(f: SdkError): (r: string)
    ensures f.Client? ==> r == ClientErrorText(f.err.code.GetOr(""), f.err.message.GetOr(f.err.text))
    ensures !f.Client? ==> StartsWith(r, UnexpectedPrefix)
  {
    match f
    case Client(ce) => ClientErrorText(ce.code.GetOr(""), ce.message.GetOr(ce.text))
    case Network(t) => PrefixStartsWith(UnexpectedPrefix, t); UnexpectedPrefix + t
    case OtherSdk(t) => PrefixStartsWith(UnexpectedPrefix, t); UnexpectedPrefix + t
  }

  /** The reply reshaped for the response handler: the content type defaults to event-stream,
      and only a JSON reply whose body has `read` is read into text (a failing read becomes an
      unexpected-error connection failure). Every other body passes through unchanged. */
  function FormatReply(contentType: Option<string>, body: Option<Body>): (r: Result<Formatted, SendError>)
    ensures r.Ok? ==> r.value.contentType == contentType.GetOr(DefaultContentType)
    ensures !(contentType.GetOr(DefaultContentType) == JsonContentType && body.Some? && body.value.Readable?)
      ==> r == Ok(Formatted(contentType.GetOr(DefaultContentType), body.GetOr(PyNone)))
    ensures contentType.GetOr(DefaultContentType) == JsonContentType && body.Some? && body.value.Readable? ==>
      (match body.value.content
       case Ok(text) => r == Ok(Formatted(JsonContentType, PyText(text)))
       case Err(d) => r == Err(ConnectionError(UnexpectedPrefix + d)))
  {
    var ct := contentType.GetOr(DefaultContentType);
    var b := body.GetOr(PyNone);
    if ct == JsonContentType && b.Readable? then
      match b.content
      case Ok(text) => Ok(Formatted(ct, PyText(text)))
      case Err(d) => Err(ConnectionError(UnexpectedPrefix + d))
    else Ok(Formatted(ct, b))
  }

  /** One call's effect: the client afterwards, the request made, and the result. */
  datatype Sent = Sent(client: ClientState, request: Request, result: Result<Formatted, SendError>)

  /** `send_message(message, session_id)`, where `newId` is the UUID a new session would take
      and `invoke` is what the runtime call produced. Preparing the payload cannot fail on a
      `str`, so the `ResponseProcessingError` path is never taken. */
  function SendMessage(c: ClientState, message: string, arg: Option<string>, newId: string, invoke: Invocation)
    : (r: Sent)
    requires |newId| > 0
    ensures r.request == Request(c.agentArn, c.qualifier, UseSession(c, arg, newId).0, Payload(message))
    ensures r.client == c.(session := Some(r.request.sessionId))
    ensures |r.request.sessionId| > 0
    ensures r.result.Err? ==> r.result.error.ConnectionError?
    ensures invoke.InvokeFailed? ==> r.result == Err(ConnectionError(InvokeErrorText(invoke.fault)))
    ensures invoke.Invoked? ==> r.result == FormatReply(invoke.contentType, invoke.body)
  {
    var (id, c2) := UseSession(c, arg, newId);
    var request := Request(c.agentArn, c.qualifier, id, Payload(message));
    match invoke
    case InvokeFailed(f) => Sent(c2, request, Err(ConnectionError(InvokeErrorText(f))))
    case Invoked(ct, body) => Sent(c2, request, FormatReply(ct, body))
  }

  /** Successive calls without a session argument all run in one session, the one the first
      call established. */
  lemma ConversationKeepsSession(c: ClientState, m1: string, m2: string, arg: Option<string>,
                                 newId1: string, newId2: string, i1: Invocation, i2: Invocation)
    requires |newId1| > 0 && |newId2| > 0
    ensures var s1 := SendMessage(c, m1, arg, newId1, i1);
      var s2 := SendMessage(s1.client, m2, None, newId2, i2);
      s2.request.sessionId == s1.request.sessionId && s2.client == s1.client
  {
    var s1 := SendMessage(c, m1, arg, newId1, i1);
    SessionSticks(c, arg, newId1, newId2);
  }
}

=== FILE: chat.dfy ===
/** The decisions of the interactive `chat` command (agentcore-chat/src/agentcore_chat/chat.py;
    src/workshop_tools/chat.py is a byte-identical copy): resolving the user's agent choice,
    the selection prompt loop, the chat-loop input rule with its per-turn notices, and the
    `_handle_error` table. Every `click.echo` is one plain output line. */
module Chat {
  import opened Wrappers
  import opened PyStr
  import opened RuntimeRecords
  import opened ResponseHandler
  import RuntimeService
  import opened Seqs

  /** One `click.echo(s)`: the text followed by a newline, no colour. */
  function Echo(s: string): Out {
    Out(s, Plain, true)
  }

  // ---------------------------------------------------------------------------------------
  // validate_agent_selection

  const EmptySelectionText: string := "Please enter an agent selection (number or name)."
  const InvalidSelectionPrefix: string := "Invalid selection: "

  /** `int(t)` succeeds with a value n, 1 <= n <= count: one of the numbers the menu shows. */
  predicate IsMenuNumber(t: string, count: nat) {
    ParseInt(t).Some? && 1 <= ParseInt(t).value <= count
  }

  /** `agent.name.lower() == user_input.lower()`. */
  predicate NameMatches(a: AgentRuntime, t: string) {
    Lower(a.name) == Lower(t)
  }

  /** Position of the first agent whose name matches `t` case-insensitively. */
  function FirstNameMatch(agents: seq<AgentRuntime>, t: string): (r: Option<nat>)
    ensures r.Some? ==> r.value < |agents| && NameMatches(agents[r.value], t)
    ensures r.Some? ==> forall j :: 0 <= j < r.value ==> !NameMatches(agents[j], t)
    ensures r.None? ==> forall j :: 0 <= j < |agents| ==> !NameMatches(agents[j], t)
  {
    if |agents| == 0 then None
    else if NameMatches(agents[0], t) then Some(0)
    else match FirstNameMatch(agents[1..], t)
      case None => None
      case Some(k) => Some(k + 1)
  }

  lemma SelectionTextsDiffer(t: string)
    ensures InvalidSelectionPrefix + t != EmptySelectionText
  {
    assert (InvalidSelectionPrefix + t)[0] == 'I';
    assert EmptySelectionText[0] == "Please"[0];
  }

  /** The agent the stripped answer `t` designates, or the `AgentSelectionError` message: an
      empty answer is refused, an in-range 1-based number wins over every name, then the
      first case-insensitive name match, and anything else is an invalid selection. */
  function SelectByText(t: string, agents: seq<AgentRuntime>): (r: Result<AgentRuntime, string>)
    ensures r.Ok? ==> r.value in agents
    ensures |t| == 0 <==> r == Err(EmptySelectionText)
    ensures IsMenuNumber(t, |agents|) ==> r == Ok(agents[ParseInt(t).value - 1])
    ensures r.Ok? && !IsMenuNumber(t, |agents|) ==>
      exists i :: 0 <= i < |agents| && r.value == agents[i] && NameMatches(agents[i], t)
        && forall j :: 0 <= j < i ==> !NameMatches(agents[j], t)
    ensures r.Err? && |t| > 0 ==>
      && r.error == InvalidSelectionPrefix + t
      && !IsMenuNumber(t, |agents|)
      && forall j :: 0 <= j < |agents| ==> !NameMatches(agents[j], t)
  {
    SelectionTextsDiffer(t);
    if |t| == 0 then Err(EmptySelectionText)
    else if IsMenuNumber(t, |agents|) then Ok(agents[ParseInt(t).value - 1])
    else match FirstNameMatch(agents, t)
      case Some(i) => Ok(agents[i])
      case None => Err(InvalidSelectionPrefix + t)
  }

  /** `validate_agent_selection`: the answer is stripped first, so surrounding whitespace never
      matters and a blank answer is the empty selection. */
  function ValidateAgentSelection(input: string, agents: seq<AgentRuntime>)
    : (r: Result<AgentRuntime, string>)
    ensures IsBlank(input) <==> r == Err(EmptySelectionText)
    ensures r.Ok? ==> r.value in agents
  {
    StripEmptyIffBlank(input);
    SelectByText(Strip(input), agents)
  }

  // ---------------------------------------------------------------------------------------
  // The agent menu and the selection prompt loop

  const FoundPrefix: string := "\n\U{2705} Found "
  const FoundSuffix: string := " ready agent runtime(s):"
  const SelectionCancelledText: string := "\n\U{1F44B} Agent selection cancelled. Goodbye!"

  /** The number the menu prints before the agent at position k. */
  function MenuNumber(k: nat): string {
    NatToString(k + 1)
  }

  /** ` - description` when the description is truthy. */
  function DescriptionSuffix(d: Option<string>): string {
    if d.Some? && |d.value| > 0 then " - " + d.value else ""
  }

  function MenuLine(a: AgentRuntime, k: nat): string {
    "  " + MenuNumber(k) + ". " + a.name + DescriptionSuffix(a.description)
  }

  /** The count line, one numbered line per agent, and a blank line. */
  function Menu(agents: seq<AgentRuntime>): (r: seq<Out>)
    ensures |r| == |agents| + 2
    ensures forall k :: 0 <= k < |agents| ==> r[k + 1] == Echo(MenuLine(agents[k], k))
  {
    [Echo(FoundPrefix + NatToString(|agents|) + FoundSuffix)]
    + seq(|agents|, k requires 0 <= k < |agents| => Echo(MenuLine(agents[k], k)))
    + [Blank]
  }

  lemma DigitsNotSpace(s: string)
    requires |s| > 0 && AllDigits(s)
    ensures !IsSpace(s[0]) && !IsSpace(s[|s| - 1])
  {
  }

  /** The menu line of the agent at position k begins with its number. */
  lemma MenuLineNumbered(agents: seq<AgentRuntime>, k: nat)
    requires k < |agents|
    ensures Menu(agents)[k + 1].text == MenuLine(agents[k], k)
    ensures StartsWith(MenuLine(agents[k], k), "  " + MenuNumber(k) + ". ")
  {
    var tail := agents[k].name + DescriptionSuffix(agents[k].description);
    assert MenuLine(agents[k], k) == ("  " + MenuNumber(k) + ". ") + tail;
    PrefixStartsWith("  " + MenuNumber(k) + ". ", tail);
  }

  /** Typing the number printed beside an agent, with any surrounding whitespace, selects
      exactly that agent, whatever the names of the others. */
  lemma MenuNumberSelects(agents: seq<AgentRuntime>, k: nat, pre: string, post: string)
    requires k < |agents| && IsBlank(pre) && IsBlank(post)
    ensures ValidateAgentSelection(pre + MenuNumber(k) + post, agents) == Ok(agents[k])
  {
    var n := MenuNumber(k);
    DigitsNotSpace(n);
    StripPadded(pre, n, post);
    ParseIntRoundTrip(k + 1);
    assert IsMenuNumber(Strip(pre + n + post), |agents|);
  }

  /** Typing an agent's name in any letter case, padded with whitespace, selects an agent of
      that name: the first one listed, and never one after it. Only a name that is itself
      a menu number is shadowed. */
  lemma NameSelects(agents: seq<AgentRuntime>, k: nat, pre: string, w: string, post: string)
    requires k < |agents| && IsBlank(pre) && IsBlank(post)
    requires |w| > 0 && !IsSpace(w[0]) && !IsSpace(w[|w| - 1])
    requires Lower(w) == Lower(agents[k].name)
    requires !IsMenuNumber(w, |agents|)
    ensures var r := ValidateAgentSelection(pre + w + post, agents);
      && r.Ok?
      && Lower(r.value.name) == Lower(agents[k].name)
      && exists i :: 0 <= i <= k && r.value == agents[i]
  {
    StripPadded(pre, w, post);
    assert NameMatches(agents[k], w);
    var m := FirstNameMatch(agents, w);
    assert m.Some? && m.value <= k;
  }

  /** What a prompt loop printed, and the answer accepted; `None` when the prompt was
      abandoned (the lines ran out: Ctrl-C or end of input raise `click.Abort`). */
  datatype Selection<T> = Selection(outs: seq<Out>, chosen: Option<T>)

  const FailMark: string := "\U{274C} "

  /** Reference definition: the answers `click.prompt` returns for the lines typed. Without a
      default it asks again, silently, after an empty line. */
  function Answers(lines: seq<string>): (r: seq<string>)
    ensures forall k :: 0 <= k < |r| ==> r[k] != ""
  {
    if |lines| == 0 then []
    else if lines[0] == "" then Answers(lines[1..])
    else [lines[0]] + Answers(lines[1..])
  }

  /** Asking until `validate` accepts an answer: an empty line is asked again without output,
      and every refused answer prints its error. */
  function Prompt<T>(lines: seq<string>, validate: string -> Result<T, string>): (r: Selection<T>)
    ensures r.chosen.Some? ==>
      |r.outs| < |Answers(lines)| && validate(Answers(lines)[|r.outs|]) == Ok(r.chosen.value)
    ensures r.chosen.None? ==>
      |r.outs| == |Answers(lines)| + 1 && r.outs[|Answers(lines)|] == Echo(SelectionCancelledText)
    ensures forall k :: 0 <= k < |Answers(lines)| && k < |r.outs| && (r.chosen.Some? || k < |r.outs| - 1) ==>
      validate(Answers(lines)[k]).Err? && r.outs[k] == Echo(FailMark + validate(Answers(lines)[k]).error)
    decreases |lines|
  {
    if |lines| == 0 then Selection([Echo(SelectionCancelledText)], None)
    else if lines[0] == "" then Prompt(lines[1..], validate)
    else match validate(lines[0])
      case Ok(a) => Selection([], Some(a))
      case Err(m) =>
        var rest := Prompt(lines[1..], validate);
        Selection([Echo(FailMark + m)] + rest.outs, rest.chosen)
  }

  /** Empty lines change nothing: the loop behaves as if only the answers had been typed. */
  lemma {:induction false} PromptIgnoresEmptyLines<T>(lines: seq<string>, validate: string -> Result<T, string>)
    ensures Prompt(lines, validate) == Prompt(Answers(lines), validate)
    decreases |lines|
  {
    if |lines| > 0 {
      PromptIgnoresEmptyLines(lines[1..], validate);
      if lines[0] != "" {
        var ans := Answers(lines);
        assert ans[0] == lines[0] && ans[1..] == Answers(lines[1..]);
      }
    }
  }

  /** The selection loop of `chat`: the chosen agent is one of the listed ones, and it is
      what the last answer read designates. An empty line never reaches
      `validate_agent_selection`, so the empty-selection error is echoed only for answers made
      of whitespace. */
  function SelectionLoop(lines: seq<string>, agents: seq<AgentRuntime>): (r: Selection<AgentRuntime>)
    ensures r.chosen.Some? ==> r.chosen.value in agents
    ensures r.chosen.Some? ==>
      |r.outs| < |Answers(lines)| && ValidateAgentSelection(Answers(lines)[|r.outs|], agents) == Ok(r.chosen.value)
    ensures forall k :: 0 <= k < |Answers(lines)| && k < |r.outs| && (r.chosen.Some? || k < |r.outs| - 1) ==>
      ValidateAgentSelection(Answers(lines)[k], agents).Err?
      && r.outs[k] == Echo(FailMark + ValidateAgentSelection(Answers(lines)[k], agents).error)
      && (r.outs[k] == Echo(FailMark + EmptySelectionText) ==> IsBlank(Answers(lines)[k]) && Answers(lines)[k] != "")
  {
    var r := Prompt(lines, s => ValidateAgentSelection(s, agents));
    forall k | 0 <= k < |Answers(lines)| && k < |r.outs| && (r.chosen.Some? || k < |r.outs| - 1)
      ensures r.outs[k] == Echo(FailMark + EmptySelectionText) ==> IsBlank(Answers(lines)[k])
    {
      EmptyEchoIsBlank(Answers(lines)[k], agents);
    }
    r
  }

  /** The empty-selection error is echoed only for a blank answer. */
  lemma EmptyEchoIsBlank(answer: string, agents: seq<AgentRuntime>)
    requires ValidateAgentSelection(answer, agents).Err?
    ensures Echo(FailMark + ValidateAgentSelection(answer, agents).error) == Echo(FailMark + EmptySelectionText)
      ==> IsBlank(answer)
  {
    var e := ValidateAgentSelection(answer, agents).error;
    if Echo(FailMark + e) == Echo(FailMark + EmptySelectionText) {
      assert FailMark + e == FailMark + EmptySelectionText;
      assert e == (FailMark + e)[|FailMark|..];
    }
  }

  /** The loop ends with an answer exactly when some answer is valid, and never reads past the
      first valid one. */
  lemma {:induction false} PromptChoosesFirstValid<T>(lines: seq<string>, validate: string -> Result<T, string>)
    ensures Prompt(lines, validate).chosen.Some?
      <==> exists k :: 0 <= k < |Answers(lines)| && validate(Answers(lines)[k]).Ok?
    ensures forall k :: 0 <= k < |Answers(lines)| && validate(Answers(lines)[k]).Ok? ==>
      |Prompt(lines, validate).outs| <= k
    decreases |lines|
  {
    if |lines| > 0 {
      PromptChoosesFirstValid(lines[1..], validate);
      AnswersStep(lines);
      if lines[0] != "" && validate(lines[0]).Err? {
        PromptRefusedStep(lines, validate);
        ValidAfterRefused(lines[0], Answers(lines[1..]), validate);
      }
    }
  }

  lemma AnswersStep(lines: seq<string>)
    requires |lines| > 0
    ensures lines[0] == "" ==> Answers(lines) == Answers(lines[1..])
    ensures lines[0] != "" ==> Answers(lines) == [lines[0]] + Answers(lines[1..])
  {
  }

  lemma PromptRefusedStep<T>(lines: seq<string>, validate: string -> Result<T, string>)
    requires |lines| > 0 && lines[0] != "" && validate(lines[0]).Err?
    ensures Prompt(lines, validate).chosen == Prompt(lines[1..], validate).chosen
    ensures |Prompt(lines, validate).outs| == 1 + |Prompt(lines[1..], validate).outs|
  {
  }

  /** Behind a refused answer, a valid answer at `k` is one at `k - 1` of the rest. */
  lemma ValidAfterRefused<T>(head: string, tail: seq<string>, validate: string -> Result<T, string>)
    requires validate(head).Err?
    ensures (exists k :: 0 <= k < |[head] + tail| && validate(([head] + tail)[k]).Ok?)
      <==> exists j :: 0 <= j < |tail| && validate(tail[j]).Ok?
    ensures forall k :: 0 <= k < |[head] + tail| && validate(([head] + tail)[k]).Ok? ==>
      k > 0 && validate(tail[k - 1]).Ok?
  {
    var ans := [head] + tail;
    forall k | 0 <= k < |ans| && validate(ans[k]).Ok?
      ensures k > 0 && validate(tail[k - 1]).Ok?
    {
      assert k > 0 && ans[k] == tail[k - 1];
    }
    if j :| 0 <= j < |tail| && validate(tail[j]).Ok? {
      assert ans[j + 1] == tail[j];
    }
  }

  // ---------------------------------------------------------------------------------------
  // The chat loop of _start_chat_session

  /** What one answer to the `You` prompt does. */
  datatype InputAction = EndSession | SkipInput | SendMessage(message: string)

  predicate IsExit(input: string) {
    Lower(Strip(input)) == "exit"
  }

  /** The exit test comes first, then blank input is skipped; anything else is sent as typed,
      whitespace included. */
  function ClassifyInput(input: string): (r: InputAction)
    ensures r.EndSession? <==> IsExit(input)
    ensures r.SkipInput? <==> IsBlank(input)
    ensures r.SendMessage? ==> r.message == input && !IsBlank(input) && !IsExit(input)
  {
    StripEmptyIffBlank(input);
    if IsExit(input) then EndSession
    else if |Strip(input)| == 0 then SkipInput
    else SendMessage(input)
  }

  /** "exit" in any letter case, with any surrounding whitespace, ends the session. */
  lemma ExitAnyCase(pre: string, w: string, post: string)
    requires IsBlank(pre) && IsBlank(post) && Lower(w) == "exit"
    ensures ClassifyInput(pre + w + post) == EndSession
  {
    assert |w| == 4 && Lower(w)[0] == LowerChar(w[0]) && Lower(w)[3] == LowerChar(w[3]);
    StripPadded(pre, w, post);
  }

  /** The outcome of `send_message` followed by `handle_response` for one message, supplied
      from outside: the rendered response, one of the two errors the loop reports and
      continues after, or another exception raised after some output. */
  datatype TurnReply =
    | Answered(outs: seq<Out>)
    | ConnectionFailed(detail: string)
    | ProcessingFailed(detail: string)
    | LoopFailure(partial: seq<Out>, detail: string)

  const GoodbyeText: string := "\U{1F44B} Goodbye!"
  const InterruptedText: string := "\n\U{1F44B} Chat interrupted. Goodbye!"
  const ConnectionErrorPrefix: string := "\U{274C} Connection error: "
  const ConnectionErrorSuffix: string := ". Please try again or type 'exit' to quit."
  const ProcessingErrorPrefix: string := "\U{26A0}\U{FE0F}  Response processing error: "
  const ProcessingErrorSuffix: string := ". Continuing..."
  const LoopErrorPrefix: string := "\U{274C} Unexpected error in conversation loop: "
  const LoopErrorHint: string := "Type 'exit' to quit or continue chatting."

  /** The two lines the `except Exception` of the loop prints for an exception whose `str()`
      is `detail`. */
  function LoopError(detail: string): seq<Out> {
    [Echo(LoopErrorPrefix + detail), Echo(LoopErrorHint)]
  }

  /** The lines one sent message adds: the two reported errors and a normal answer are
      followed by a blank spacing line, which another exception skips. */
  function TurnOutput(reply: TurnReply): (r: seq<Out>)
    ensures !reply.LoopFailure? <==> |r| > 0 && r[|r| - 1] == Blank
  {
    match reply
    case Answered(outs) => outs + [Blank]
    case ConnectionFailed(d) => [Echo(ConnectionErrorPrefix + d + ConnectionErrorSuffix), Blank]
    case ProcessingFailed(d) => [Echo(ProcessingErrorPrefix + d + ProcessingErrorSuffix), Blank]
    case LoopFailure(partial, d) =>
      assert LoopErrorHint != "";
      partial + LoopError(d)
  }

  /** One read of the `You` prompt: the line typed, or the `click.Abort` that `click.prompt`
      raises for Ctrl-C or the end of input. */
  datatype Read = Typed(text: string) | Aborted

  /** What the loop body makes of a read: the action for a typed line, or the abort. */
  datatype Heard = Said(action: InputAction) | Interrupted

  function Hear(x: Read): Heard {
    match x
    case Typed(t) => Said(ClassifyInput(t))
    case Aborted => Interrupted
  }

  function HearAll(typed: seq<Read>): (r: seq<Heard>)
    ensures |r| == |typed|
  {
    if |typed| == 0 then [] else [Hear(typed[0])] + HearAll(typed[1..])
  }

  /** Hearing is read by read. */
  lemma {:induction false} HearAllAt(typed: seq<Read>, k: nat)
    requires k < |typed|
    ensures HearAll(typed)[k] == Hear(typed[k])
    decreases k
  {
    if k > 0 {
      HearAllAt(typed[1..], k - 1);
    }
  }

  lemma {:induction false} HearAllAppend(a: seq<Read>, b: seq<Read>)
    ensures HearAll(a + b) == HearAll(a) + HearAll(b)
    decreases |a|
  {
    if |a| > 0 {
      assert (a + b)[1..] == a[1..] + b;
      HearAllAppend(a[1..], b);
    } else {
      assert a + b == b;
    }
  }

  /** The transcript of a session, the messages sent, and whether the loop stopped. */
  datatype Session = Session(outs: seq<Out>, sent: seq<string>, ended: bool)

  /** A read that stops the loop: "exit", and, when `abortQuits`, an abort. As written
      (`abortQuits == false`), `click.Abort` is a `RuntimeError`: the `except Exception` of the
      loop reports it with an empty text and asks again, so it never reaches the "Chat
      interrupted" handler. With `abortQuits` it does, as the re-raised `KeyboardInterrupt`
      evidently means it to. */
  predicate Stops(h: Heard, abortQuits: bool) {
    match h
    case Said(a) => a.EndSession?
    case Interrupted => abortQuits
  }

  /** The last line of a transcript, if any. */
  function LastOut(outs: seq<Out>): Option<Out> {
    if |outs| == 0 then None else Some(outs[|outs| - 1])
  }

  /** The line printed by the read that stops the loop. */
  function Farewell(h: Heard): Out {
    if h.Interrupted? then Echo(InterruptedText) else Echo(GoodbyeText)
  }

  /** The loop over what it heard; the `turn`-th message sent gets `reply(turn)`. An abort
      that does not stop the loop prints the loop-error pair with the empty `str()` of
      `click.Abort`; a blank line prints nothing. */
  function Run(hs: seq<Heard>, reply: nat -> TurnReply, turn: nat, abortQuits: bool): Session
    decreases |hs|
  {
    if |hs| == 0 then Session([], [], false)
    else if Stops(hs[0], abortQuits) then Session([Farewell(hs[0])], [], true)
    else match hs[0]
      case Interrupted =>
        var rest := Run(hs[1..], reply, turn, abortQuits);
        Session(LoopError("") + rest.outs, rest.sent, rest.ended)
      case Said(a) =>
        if a.SendMessage? then
          var rest := Run(hs[1..], reply, turn + 1, abortQuits);
          Session(TurnOutput(reply(turn)) + rest.outs, [a.message] + rest.sent, rest.ended)
        else Run(hs[1..], reply, turn, abortQuits)
  }

  /** The conversation over the reads of the `You` prompt. The model follows the reads it is
      given; after the end of input every read is an abort. */
  function Converse(typed: seq<Read>, reply: nat -> TurnReply, turn: nat, abortQuits: bool): Session {
    Run(HearAll(typed), reply, turn, abortQuits)
  }

  /** The messages a run sends, read off what it heard. */
  function Sends(hs: seq<Heard>): seq<string> {
    if |hs| == 0 then []
    else (if hs[0].Said? && hs[0].action.SendMessage? then [hs[0].action.message] else []) + Sends(hs[1..])
  }

  lemma {:induction false} RunWithoutStop(hs: seq<Heard>, reply: nat -> TurnReply, turn: nat, abortQuits: bool)
    requires forall i :: 0 <= i < |hs| ==> !Stops(hs[i], abortQuits)
    ensures Run(hs, reply, turn, abortQuits).sent == Sends(hs)
    ensures !Run(hs, reply, turn, abortQuits).ended
    decreases |hs|
  {
    if |hs| > 0 {
      var n := if hs[0].Said? && hs[0].action.SendMessage? then turn + 1 else turn;
      RunWithoutStop(hs[1..], reply, n, abortQuits);
    }
  }

  lemma {:induction false} RunStops(before: seq<Heard>, x: Heard, after: seq<Heard>,
                                    reply: nat -> TurnReply, turn: nat, abortQuits: bool)
    requires forall i :: 0 <= i < |before| ==> !Stops(before[i], abortQuits)
    requires Stops(x, abortQuits)
    ensures Run(before + [x] + after, reply, turn, abortQuits).sent == Sends(before)
    ensures Run(before + [x] + after, reply, turn, abortQuits).ended
    ensures LastOut(Run(before + [x] + after, reply, turn, abortQuits).outs) == Some(Farewell(x))
    decreases |before|
  {
    var hs := before + [x] + after;
    if |before| == 0 {
      assert hs[0] == x;
    } else {
      assert hs[0] == before[0] && hs[1..] == before[1..] + [x] + after;
      var n := if before[0].Said? && before[0].action.SendMessage? then turn + 1 else turn;
      RunStops(before[1..], x, after, reply, n, abortQuits);
    }
  }

  /** Reference definition: the lines that are neither blank nor "exit", in order. */
  function Messages(typed: seq<Read>): seq<string> {
    if |typed| == 0 then []
    else if typed[0].Aborted? || IsBlank(typed[0].text) || IsExit(typed[0].text) then Messages(typed[1..])
    else [typed[0].text] + Messages(typed[1..])
  }

  lemma {:induction false} SendsHeard(typed: seq<Read>)
    ensures Sends(HearAll(typed)) == Messages(typed)
    decreases |typed|
  {
    if |typed| > 0 {
      assert HearAll(typed)[1..] == HearAll(typed[1..]);
      SendsHeard(typed[1..]);
    }
  }

  /** A read that stops the loop: "exit", and an abort when `abortQuits`. */
  predicate StopsRead(x: Read, abortQuits: bool) {
    Stops(Hear(x), abortQuits)
  }

  predicate NoStop(typed: seq<Read>, abortQuits: bool) {
    forall i :: 0 <= i < |typed| ==> !StopsRead(typed[i], abortQuits)
  }

  /** Without a read that stops it, every non-blank line is sent, in order, and the session
      does not end. */
  lemma ConverseWithoutExit(typed: seq<Read>, reply: nat -> TurnReply, turn: nat, abortQuits: bool)
    requires NoStop(typed, abortQuits)
    ensures Converse(typed, reply, turn, abortQuits).sent == Messages(typed)
    ensures !Converse(typed, reply, turn, abortQuits).ended
  {
    NoStopHeard(typed, abortQuits);
    RunWithoutStop(HearAll(typed), reply, turn, abortQuits);
    SendsHeard(typed);
  }

  lemma HearAllSplit(before: seq<Read>, x: Read, after: seq<Read>)
    ensures HearAll(before + [x] + after) == HearAll(before) + [Hear(x)] + HearAll(after)
  {
    HearAllAppend(before + [x], after);
    HearAllAppend(before, [x]);
    assert HearAll([x]) == [Hear(x)];
  }

  /** The first read that stops the loop ends the session with its farewell line: exactly the
      non-blank lines before it were sent, and nothing after it is read. */
  lemma ConverseStopsAtExit(
    before: seq<Read>, x: Read, after: seq<Read>, reply: nat -> TurnReply, turn: nat, abortQuits: bool)
    requires NoStop(before, abortQuits) && StopsRead(x, abortQuits)
    ensures var s := Converse(before + [x] + after, reply, turn, abortQuits);
      s.sent == Messages(before) && s.ended && LastOut(s.outs) == Some(Farewell(Hear(x)))
  {
    ConverseStops(before, x, after, reply, turn, abortQuits);
    SendsHeard(before);
  }

  lemma ConverseStops(
    before: seq<Read>, x: Read, after: seq<Read>, reply: nat -> TurnReply, turn: nat, abortQuits: bool)
    requires NoStop(before, abortQuits) && StopsRead(x, abortQuits)
    ensures var s := Converse(before + [x] + after, reply, turn, abortQuits);
      s.sent == Sends(HearAll(before)) && s.ended && LastOut(s.outs) == Some(Farewell(Hear(x)))
  {
    var hb, h, ha := HearAll(before), Hear(x), HearAll(after);
    HearAllSplit(before, x, after);
    NoStopHeard(before, abortQuits);
    RunStops(hb, h, ha, reply, turn, abortQuits);
  }

  lemma NoStopHeard(typed: seq<Read>, abortQuits: bool)
    requires NoStop(typed, abortQuits)
    ensures forall i :: 0 <= i < |HearAll(typed)| ==> !Stops(HearAll(typed)[i], abortQuits)
  {
    forall i | 0 <= i < |HearAll(typed)|
      ensures !Stops(HearAll(typed)[i], abortQuits)
    {
      HearAllAt(typed, i);
      assert !StopsRead(typed[i], abortQuits);
    }
  }

  /** As written, Ctrl-C at the `You` prompt does not end the chat: it prints the loop-error
      pair with an empty text and the next line typed is still sent. */
  lemma AbortKeepsChatting(reply: nat -> TurnReply)
    ensures var s := Converse([Aborted, Typed("hi")], reply, 0, false);
      !s.ended && s.sent == ["hi"] && s.outs[..2] == LoopError("")
  {
    HearAbortThenHi();
    RunAbortThenSend("hi", reply);
    var s := Converse([Aborted, Typed("hi")], reply, 0, false);
    assert s.outs == LoopError("") + TurnOutput(reply(0));
  }

  lemma HearAbortThenHi()
    ensures HearAll([Aborted, Typed("hi")]) == [Interrupted, Said(SendMessage("hi"))]
  {
    HearPair(Aborted, Typed("hi"));
    HearHi();
  }

  lemma HearPair(x: Read, y: Read)
    ensures HearAll([x, y]) == [Hear(x), Hear(y)]
  {
  }

  lemma HearHi()
    ensures Hear(Typed("hi")) == Said(SendMessage("hi"))
  {
    ClassifyHi();
  }

  lemma ClassifyHi()
    ensures ClassifyInput("hi") == SendMessage("hi")
  {
    HiNotBlank();
    HiNotExit();
  }

  lemma HiNotBlank()
    ensures !IsBlank("hi")
  {
    assert !IsSpace("hi"[0]);
  }

  lemma HiNotExit()
    ensures !IsExit("hi")
  {
    assert Strip("hi") == "hi" by { StripPadded("", "hi", ""); }
    assert |Lower("hi")| == 2;
  }

  lemma RunAbortThenSend(m: string, reply: nat -> TurnReply)
    ensures Run([Interrupted, Said(SendMessage(m))], reply, 0, false)
      == Session(LoopError("") + TurnOutput(reply(0)), [m], false)
  {
    var hs := [Interrupted, Said(SendMessage(m))];
    assert hs[1..] == [Said(SendMessage(m))] && hs[1..][1..] == [];
    assert Run(hs[1..], reply, 0, false) == Session(TurnOutput(reply(0)), [m], false);
  }

  /** With the abort reaching the "Chat interrupted" handler, Ctrl-C or the end of input ends
      the chat with that notice, after exactly the non-blank lines typed before it. */
  lemma AbortEndsChat(before: seq<Read>, after: seq<Read>, reply: nat -> TurnReply, turn: nat)
    requires NoStop(before, true)
    ensures var s := Converse(before + [Aborted] + after, reply, turn, true);
      s.ended && s.sent == Messages(before) && LastOut(s.outs) == Some(Echo(InterruptedText))
  {
    ConverseStopsAtExit(before, Aborted, after, reply, turn, true);
  }

  // ---------------------------------------------------------------------------------------
  // _handle_error

  /** One entry of the error table: the headline and the tips printed below it. */
  datatype ErrorEntry = ErrorEntry(message: string, tips: seq<string>)

  const ErrorTable: map<string, ErrorEntry> := map[
    "runtime_service" := ErrorEntry("Agent runtime service error", [
      "Check your AWS credentials and permissions",
      "Verify your network connection",
      "Ensure Bedrock AgentCore is available in your region",
      "Try again in a few moments"]),
    "no_agents" := ErrorEntry("No agents available", [
      "Deploy agents using the Bedrock AgentCore service",
      "Wait for existing agents to reach 'READY' status",
      "Check your AWS region and account permissions",
      "Verify agents are deployed in the correct AWS region"]),
    "agent_selection" := ErrorEntry("Agent selection failed", [
      "Restart the command and select a valid agent",
      "Ensure you're selecting from the displayed options",
      "Check that the agent name matches exactly"]),
    "session_init" := ErrorEntry("Failed to initialize chat session", [
      "Agent ARN may be invalid or malformed",
      "Agent may have been deleted or modified after selection",
      "Check AWS credentials and permissions",
      "Verify network connectivity"]),
    "connection" := ErrorEntry("Failed to connect to agent", [
      "Check your AWS credentials and network connection",
      "Verify the agent is still in 'READY' status",
      "Ensure you have permission to invoke the agent",
      "Try restarting the chat session"]),
    "response_processing" := ErrorEntry("Error processing agent response", [
      "The agent response format may be unexpected",
      "Network interruption during response streaming",
      "Agent runtime encountered an internal error",
      "Try sending your message again or restart the session"]),
    "chat" := ErrorEntry("Chat session error", [
      "Try restarting the chat session",
      "Check your network connection",
      "Verify the agent is functioning correctly",
      "Contact support if the issue persists"]),
    "unexpected" := ErrorEntry("Unexpected error", [
      "This is an unexpected error that shouldn't normally occur",
      "Try restarting the application",
      "Check your system resources and network connection",
      "If the issue persists, please report this error"])
  ]

  /** `error_handlers.get(error_type, error_handlers["unexpected"])`. */
  function EntryFor(errorType: string): ErrorEntry {
    if errorType in ErrorTable then ErrorTable[errorType] else ErrorTable["unexpected"]
  }

  const ResolveHeading: string := "\n\U{1F527} To resolve:"
  const TipBullet: string := "  \U{2022} "

  /** What `_handle_error` prints, and the status `sys.exit` ends the process with. */
  datatype ErrorExit = ErrorExit(outs: seq<Out>, status: int)

  function HandleError(error: string, errorType: string): (r: ErrorExit)
    ensures r.status == 1
    ensures |r.outs| == 2 + |EntryFor(errorType).tips|
    ensures r.outs[0] == Echo(FailMark + EntryFor(errorType).message + ": " + error)
    ensures r.outs[1] == Echo(ResolveHeading)
    ensures forall k :: 0 <= k < |EntryFor(errorType).tips| ==>
      r.outs[k + 2] == Echo(TipBullet + EntryFor(errorType).tips[k])
  {
    var entry := EntryFor(errorType);
    ErrorExit(
      [Echo(FailMark + entry.message + ": " + error), Echo(ResolveHeading)]
      + seq(|entry.tips|, k requires 0 <= k < |entry.tips| => Echo(TipBullet + entry.tips[k])),
      1)
  }

  /** An error type missing from the table is reported exactly as an unexpected error, and
      every entry prints a headline and at least three tips. */
  lemma UnknownErrorTypeFallsBack(error: string, errorType: string)
    ensures errorType !in ErrorTable ==> HandleError(error, errorType) == HandleError(error, "unexpected")
    ensures errorType in ErrorTable ==>
      |HandleError(error, errorType).outs| >= 5 && |ErrorTable[errorType].message| > 0
  {
    assert "unexpected" in ErrorTable;
  }

  /** The places where `chat` hands an exception to `_handle_error`. */
  datatype CommandFailure =
    | ServiceSetup      // AgentRuntimeError from the service constructor
    | NoAgents          // NoAgentsAvailableError from listing
    | ListingFailed     // any other AgentRuntimeError from listing
    | ConnectionLost    // AgentConnectionError escaping the session
    | ProcessingBroke   // ResponseProcessingError escaping the session
    | SessionBroke      // any other ChatError escaping the session
    | SelectionBroke    // AgentSelectionError
    | Unforeseen        // any other exception

  function CommandErrorType(f: CommandFailure): (r: string)
    ensures r in ErrorTable
    ensures r == "unexpected" <==> f.Unforeseen?
  {
    match f
    case ServiceSetup => "runtime_service"
    case NoAgents => "no_agents"
    case ListingFailed => "runtime_service"
    case ConnectionLost => "connection"
    case ProcessingBroke => "response_processing"
    case SessionBroke => "chat"
    case SelectionBroke => "agent_selection"
    case Unforeseen => "unexpected"
  }

  /** How a failed listing reaches `_handle_error`: `NoAgentsAvailableError` is caught before
      its base class. `AttemptsRanOut` marks an exhausted listing oracle, not a program
      behaviour, and has no handler. */
  function ListingFailure(e: RuntimeService.ListError): (r: CommandFailure)
    requires !e.AttemptsRanOut?
    ensures r == NoAgents <==> e.NoAgentsAvailable?
    ensures CommandErrorType(r) == (if e.NoAgentsAvailable? then "no_agents" else "runtime_service")
  {
    if e.NoAgentsAvailable? then NoAgents else ListingFailed
  }
}

=== FILE: cited_response.dfy ===
/** `print_cited_response` (labs/01-agents/04-multi-agent-orchestration/helpers.py): the model's
    answer printed with numbered citations, followed by the reference list. Titles are
    numbered in order of first appearance, and a repeated title reuses its number. */
module CitedResponse {
  import opened PyStr
  import Dedup
  import Report
  import opened Seqs

  /** Every citation title of the answer, item by item, in order. */
  function AllTitles(items: seq<Report.Item>): seq<string> {
    if |items| == 0 then [] else AllTitles(items[..|items| - 1]) + items[|items| - 1].titles
  }

  /** Every title of `titles` has a number in `refs`. */
  predicate Numbered(refs: seq<string>, titles: seq<string>) {
    forall t :: t in titles ==> t in refs
  }

  /** The 1-based number of `title` in the reference list. */
  function Number(refs: seq<string>, title: string): nat
    requires title in refs
  {
    Dedup.IndexOf(refs, title) + 1
  }

  function MarkText(n: nat): string {
    " (" + NatToString(n) + ")"
  }

  /** The markers printed after one item's text. */
  function Markers(refs: seq<string>, titles: seq<string>): string
    requires Numbered(refs, titles)
  {
    if |titles| == 0 then ""
    else Markers(refs, titles[..|titles| - 1]) + MarkText(Number(refs, titles[|titles| - 1]))
  }

  /** The printed answer: each item's text followed at once by its markers, no separator. */
  function Body(items: seq<Report.Item>, refs: seq<string>): string
    requires Numbered(refs, AllTitles(items))
  {
    if |items| == 0 then ""
    else Body(items[..|items| - 1], refs) + items[|items| - 1].text + Markers(refs, items[|items| - 1].titles)
  }

  const ArticleUrl: string := "https://www.ncbi.nlm.nih.gov/pmc/articles/"
  const ReferencesHeading: string := "## References"

  function ReferenceLine(n: nat, title: string): string {
    NatToString(n) + ". " + ArticleUrl + title
  }

  /** The lines after the answer: the empty pair `print("\n")` makes, the heading, and one
      numbered line per reference. */
  function Trailer(refs: seq<string>): (r: seq<string>)
    ensures |r| == |refs| + 3
    ensures r[..3] == ["", "", ReferencesHeading]
    ensures forall i :: 0 <= i < |refs| ==> r[i + 3] == ReferenceLine(i + 1, refs[i])
  {
    if |refs| == 0 then ["", "", ReferencesHeading]
    else
      var init := refs[..|refs| - 1];
      var p := Trailer(init);
      var r := p + [ReferenceLine(|refs|, refs[|refs| - 1])];
      assert r[..3] == p[..3];
      assert forall i :: 0 <= i < |init| ==> r[i + 3] == p[i + 3] && init[i] == refs[i];
      r
  }

  /** Appending to the reference list keeps every number already given. */
  lemma {:induction false} MarkersExtend(refs: seq<string>, more: seq<string>, titles: seq<string>)
    requires Numbered(refs, titles)
    ensures Numbered(refs + more, titles)
    ensures Markers(refs + more, titles) == Markers(refs, titles)
  {
    if |titles| > 0 {
      var init := titles[..|titles| - 1];
      assert Numbered(refs, init);
      MarkersExtend(refs, more, init);
      Dedup.IndexOfAppend(refs, more, titles[|titles| - 1]);
    }
  }

  lemma {:induction false} BodyExtend(items: seq<Report.Item>, refs: seq<string>, more: seq<string>)
    requires Numbered(refs, AllTitles(items))
    ensures Numbered(refs + more, AllTitles(items))
    ensures Body(items, refs + more) == Body(items, refs)
  {
    if |items| > 0 {
      BodyExtend(items[..|items| - 1], refs, more);
      MarkersExtend(refs, more, items[|items| - 1].titles);
    }
  }

  lemma AllTitlesSnoc(done: seq<Report.Item>, item: Report.Item)
    ensures AllTitles(done + [item]) == AllTitles(done) + item.titles
  {
    assert (done + [item])[..|done|] == done;
  }

  /** Every printed number leads to the reference line of the title it stands for. */
  predicate MarksName(marks: seq<nat>, refs: seq<string>, titles: seq<string>) {
    |marks| == |titles|
    && forall k :: 0 <= k < |marks| ==> 1 <= marks[k] <= |refs| && refs[marks[k] - 1] == titles[k]
  }

  /** The reference list grown by `title` if it is new. */
  function Remember(refs: seq<string>, title: string): (r: seq<string>)
    ensures title in r && refs <= r
  {
    if title in refs then refs else refs + [title]
  }

  /** Where the loop over one item's citations stands after `j` of them. */
  predicate Partway(done: seq<Report.Item>, item: Report.Item, j: nat,
                    body: string, refs: seq<string>, marks: seq<nat>)
  {
    && j <= |item.titles|
    && refs == Dedup.Distinct(AllTitles(done) + item.titles[..j])
    && body == Body(done, refs) + item.text + Markers(refs, item.titles[..j])
    && MarksName(marks, refs, AllTitles(done) + item.titles[..j])
  }

  lemma MarksNameStep(marks: seq<nat>, refs: seq<string>, titles: seq<string>, t: string)
    requires MarksName(marks, refs, titles)
    ensures var refs' := Remember(refs, t);
      MarksName(marks + [Number(refs', t)], refs', titles + [t])
  {
    var refs' := Remember(refs, t);
    var n := Number(refs', t);
    assert refs'[n - 1] == t;
    assert forall k :: 0 <= k < |marks| ==> refs'[marks[k] - 1] == refs[marks[k] - 1];
  }

  lemma MarkersStep(refs: seq<string>, titles: seq<string>, j: nat, t: string)
    requires j < |titles| && titles[j] == t && Numbered(refs, titles[..j])
    ensures var refs' := Remember(refs, t);
      Numbered(refs', titles[..j + 1])
      && Markers(refs', titles[..j + 1]) == Markers(refs, titles[..j]) + MarkText(Number(refs', t))
  {
    var refs' := Remember(refs, t);
    var more := refs'[|refs|..];
    assert refs' == refs + more;
    MarkersExtend(refs, more, titles[..j]);
    assert titles[..j + 1][..j] == titles[..j];
  }

  lemma BodyStep(done: seq<Report.Item>, item: Report.Item, j: nat, body: string, refs: seq<string>)
    requires j < |item.titles|
    requires Numbered(refs, AllTitles(done)) && Numbered(refs, item.titles[..j])
    requires body == Body(done, refs) + item.text + Markers(refs, item.titles[..j])
    ensures var t := item.titles[j];
      var refs' := Remember(refs, t);
      Numbered(refs', AllTitles(done)) && Numbered(refs', item.titles[..j + 1])
      && body + MarkText(Number(refs', t)) == Body(done, refs') + item.text + Markers(refs', item.titles[..j + 1])
  {
    var t := item.titles[j];
    var refs' := Remember(refs, t);
    var b0, m0, mt := Body(done, refs), Markers(refs, item.titles[..j]), MarkText(Number(refs', t));
    assert Numbered(refs', AllTitles(done)) && Body(done, refs') == b0 by {
      var more := refs'[|refs|..];
      assert refs' == refs + more;
      BodyExtend(done, refs, more);
    }
    assert Numbered(refs', item.titles[..j + 1]) && Markers(refs', item.titles[..j + 1]) == m0 + mt by {
      MarkersStep(refs, item.titles, j, t);
    }
    ConcatAssoc(b0, item.text, m0, mt);
  }

  lemma ConcatAssoc(a: string, b: string, c: string, d: string)
    ensures a + b + c + d == a + b + (c + d)
  {
  }

  lemma PartwayStep(done: seq<Report.Item>, item: Report.Item, j: nat,
                    body: string, refs: seq<string>, marks: seq<nat>)
    requires Partway(done, item, j, body, refs, marks) && j < |item.titles|
    ensures var t := item.titles[j];
      var refs' := Remember(refs, t);
      Partway(done, item, j + 1, body + MarkText(Number(refs', t)), refs', marks + [Number(refs', t)])
  {
    var t := item.titles[j];
    var refs' := Remember(refs, t);
    var n := Number(refs', t);
    var p := AllTitles(done) + item.titles[..j];
    var p' := AllTitles(done) + item.titles[..j + 1];
    AppendTakeSnoc(AllTitles(done), item.titles, j);
    assert refs' == Dedup.Distinct(p') by {
      Dedup.DistinctSnoc(p, t);
    }
    assert body + MarkText(n) == Body(done, refs') + item.text + Markers(refs', item.titles[..j + 1]) by {
      assert Numbered(refs, AllTitles(done)) && Numbered(refs, item.titles[..j]) by {
        assert forall x :: x in AllTitles(done) ==> x in p;
        assert forall x :: x in item.titles[..j] ==> x in p;
      }
      BodyStep(done, item, j, body, refs);
    }
    assert MarksName(marks + [n], refs', p') by {
      MarksNameStep(marks, refs, p, t);
    }
  }

  /** The citations of one item, with the reference list and numbers so far. */
  method CiteItem(done: seq<Report.Item>, item: Report.Item, body0: string, refs0: seq<string>, marks0: seq<nat>)
    returns (body: string, refs: seq<string>, marks: seq<nat>)
    requires refs0 == Dedup.Distinct(AllTitles(done))
    requires body0 == Body(done, refs0)
    requires MarksName(marks0, refs0, AllTitles(done))
    ensures refs == Dedup.Distinct(AllTitles(done + [item]))
    ensures body == Body(done + [item], refs)
    ensures MarksName(marks, refs, AllTitles(done + [item]))
  {
    body := body0 + item.text;
    refs := refs0;
    marks := marks0;
    assert AllTitles(done) + item.titles[..0] == AllTitles(done);
    var j := 0;
    while j < |item.titles|
      invariant Partway(done, item, j, body, refs, marks)
    {
      PartwayStep(done, item, j, body, refs, marks);
      var t := item.titles[j];
      if t !in refs {
        refs := refs + [t];
      }
      var n := Number(refs, t);
      body := body + MarkText(n);
      marks := marks + [n];
      j := j + 1;
    }
    assert item.titles[..j] == item.titles;
    AllTitlesSnoc(done, item);
  }

  /** `print_cited_response`: the printed answer, the reference list, and the number printed
      for each citation in order. */
  method PrintCited(items: seq<Report.Item>) returns (body: string, refs: seq<string>, marks: seq<nat>)
    ensures refs == Dedup.Distinct(AllTitles(items))
    ensures body == Body(items, refs)
    ensures MarksName(marks, refs, AllTitles(items))
  {
    body, refs, marks := "", [], [];
    var i := 0;
    while i < |items|
      invariant 0 <= i <= |items|
      invariant refs == Dedup.Distinct(AllTitles(items[..i]))
      invariant body == Body(items[..i], refs)
      invariant MarksName(marks, refs, AllTitles(items[..i]))
    {
      body, refs, marks := CiteItem(items[..i], items[i], body, refs, marks);
      TakeSnoc(items, i);
      i := i + 1;
    }
    TakeAll(items);
  }

  /** The number printed for a citation is one more than the position of its title in the
      reference list, so a repeated title reuses its number and the reference line with that
      number names the title. */
  lemma MarkIsFirstAppearance(items: seq<Report.Item>, marks: seq<nat>, k: nat)
    requires MarksName(marks, Dedup.Distinct(AllTitles(items)), AllTitles(items))
    requires k < |marks|
    ensures marks[k] == Number(Dedup.Distinct(AllTitles(items)), AllTitles(items)[k])
    ensures Trailer(Dedup.Distinct(AllTitles(items)))[marks[k] + 2]
      == ReferenceLine(marks[k], AllTitles(items)[k])
  {
    var refs := Dedup.Distinct(AllTitles(items));
    Dedup.IndexOfUnique(refs, marks[k] - 1);
  }

  /** Without citations nothing is numbered: the answer prints as its texts run together and
      the reference list is empty. */
  lemma {:induction false} UncitedBody(items: seq<Report.Item>)
    requires Report.Uncited(items)
    ensures AllTitles(items) == []
    ensures Body(items, []) == Report.Texts(items)
  {
    if |items| > 0 {
      UncitedBody(items[..|items| - 1]);
    }
  }
}

=== FILE: dedup.dfy ===
/** Order of first appearance: the list Python builds with
    `if x not in seen: seen.append(x)`, and the tallies a dict accumulates in that order. */
module Dedup {

  predicate NoDuplicates<T(==,!new)>(s: seq<T>) {
    forall i, j :: 0 <= i < j < |s| ==> s[i] != s[j]
  }

  /** The distinct elements of `s` in order of first appearance. */
  function Distinct<T(==,!new)>(s: seq<T>): (r: seq<T>)
    ensures forall x :: x in r <==> x in s
    ensures NoDuplicates(r)
  {
    if |s| == 0 then []
    else
      var d := Distinct(s[..|s| - 1]);
      assert forall x :: x in s <==> x in s[..|s| - 1] || x == s[|s| - 1] by {
        assert s == s[..|s| - 1] + [s[|s| - 1]];
      }
      if s[|s| - 1] in d then d else d + [s[|s| - 1]]
  }

  /** `s.index(x)`. */
  function IndexOf<T(==,!new)>(s: seq<T>, x: T): (r: nat)
    requires x in s
    ensures r < |s| && s[r] == x && x !in s[..r]
  {
    if s[0] == x then 0 else 1 + IndexOf(s[1..], x)
  }

  /** The distinct elements of a prefix are a prefix of the distinct elements. */
  lemma {:induction false} DistinctOfPrefix<T(!new)>(s: seq<T>, n: nat)
    requires n <= |s|
    ensures Distinct(s[..n]) <= Distinct(s)
    decreases |s| - n
  {
    if n < |s| {
      DistinctOfPrefix(s, n + 1);
      var p := s[..n + 1];
      assert p[..|p| - 1] == s[..n];
    } else {
      assert s[..n] == s;
    }
  }

  /** Later positions in the distinct list first appear later in `s`. */
  lemma {:induction false} FirstAppearanceOrder<T(!new)>(s: seq<T>, i: nat, j: nat)
    requires i < j < |Distinct(s)|
    ensures IndexOf(s, Distinct(s)[i]) < IndexOf(s, Distinct(s)[j])
    decreases |s|
  {
    var d := Distinct(s);
    var init := s[..|s| - 1];
    var d0 := Distinct(init);
    var last := s[|s| - 1];
    assert s == init + [last];
    if j < |d0| {
      FirstAppearanceOrder(init, i, j);
      IndexOfPrefix(init, last, d0[i]);
      IndexOfPrefix(init, last, d0[j]);
    } else {
      assert d == d0 + [last] && d[j] == last && last !in init;
      IndexOfPrefix(init, last, d0[i]);
      assert IndexOf(s, last) == |init|;
    }
  }

  lemma IndexOfPrefix<T(!new)>(init: seq<T>, last: T, x: T)
    requires x in init
    ensures IndexOf(init + [last], x) == IndexOf(init, x)
  {
    var s := init + [last];
    var k := IndexOf(init, x);
    assert s[k] == x;
    assert s[..k] == init[..k];
  }

  /** One more element: the distinct list grows by it exactly when it is new. */
  lemma DistinctSnoc<T(!new)>(s: seq<T>, x: T)
    ensures Distinct(s + [x]) == if x in Distinct(s) then Distinct(s) else Distinct(s) + [x]
  {
    assert (s + [x])[..|s|] == s;
  }

  /** Appending never moves an element that is already there. */
  lemma IndexOfAppend<T(!new)>(a: seq<T>, b: seq<T>, x: T)
    requires x in a
    ensures x in a + b && IndexOf(a + b, x) == IndexOf(a, x)
  {
    var s := a + b;
    var k := IndexOf(a, x);
    assert s[k] == x;
    assert s[..k] == a[..k];
  }

  /** In a list without duplicates the position of an element is where it stands. */
  lemma IndexOfUnique<T(!new)>(s: seq<T>, i: nat)
    requires NoDuplicates(s) && i < |s|
    ensures IndexOf(s, s[i]) == i
  {
  }

  /** Number of occurrences of `x` in `s`. */
  function Count<T(==,!new)>(s: seq<T>, x: T): nat {
    if |s| == 0 then 0 else Count(s[..|s| - 1], x) + (if s[|s| - 1] == x then 1 else 0)
  }

  /** Sum of the occurrence counts in `s` of each element of `keys`. */
  function SumCounts<T(==,!new)>(keys: seq<T>, s: seq<T>): nat {
    if |keys| == 0 then 0 else SumCounts(keys[..|keys| - 1], s) + Count(s, keys[|keys| - 1])
  }

  lemma {:induction false} CountAbsent<T(!new)>(s: seq<T>, x: T)
    requires x !in s
    ensures Count(s, x) == 0
    decreases |s|
  {
    if |s| > 0 {
      assert s[..|s| - 1] <= s;
      CountAbsent(s[..|s| - 1], x);
    }
  }

  lemma {:induction false} CountPositive<T(!new)>(s: seq<T>, x: T)
    requires x in s
    ensures Count(s, x) > 0
    decreases |s|
  {
    if s[|s| - 1] != x {
      assert s == s[..|s| - 1] + [s[|s| - 1]];
      CountPositive(s[..|s| - 1], x);
    }
  }

  lemma {:induction false} SumCountsStep<T(!new)>(keys: seq<T>, s: seq<T>, y: T)
    requires NoDuplicates(keys)
    ensures SumCounts(keys, s + [y]) == SumCounts(keys, s) + (if y in keys then 1 else 0)
    decreases |keys|
  {
    if |keys| > 0 {
      var init := keys[..|keys| - 1];
      assert keys == init + [keys[|keys| - 1]];
      SumCountsStep(init, s, y);
      assert (s + [y])[..|s + [y]| - 1] == s;
    }
  }

  /** The per-element tallies of the distinct elements add up to the length. */
  lemma {:induction false} SumCountsOfDistinct<T(!new)>(s: seq<T>)
    ensures SumCounts(Distinct(s), s) == |s|
    decreases |s|
  {
    if |s| > 0 {
      var init := s[..|s| - 1];
      var y := s[|s| - 1];
      var d0 := Distinct(init);
      assert s == init + [y];
      SumCountsOfDistinct(init);
      SumCountsStep(d0, init, y);
      if y !in d0 {
        var d := d0 + [y];
        assert d[..|d| - 1] == d0;
        CountAbsent(init, y);
      }
    }
  }
}

=== FILE: gather_evidence.dfy ===
/** The evidence-gathering tools (labs/01-agents/04-multi-agent-orchestration/gather_evidence_ddb.py
    and the two identical copies of labs/01-agents/03-reason-and-plan/gather_evidence.py): the
    PMCID check, the error messages of the S3 download, the decision between the commercial and
    the non-commercial article, and the shape of the tool result. The S3 download, paper-qa,
    the DynamoDB write and `os.remove` are outcomes supplied from outside. */
module GatherEvidence {
  import opened Wrappers
  import opened PyStr

  // ---------------------------------------------------------------------------------------
  // _validate_pmc_id / _validate_pmcid

  /** The `pmc_id` argument: a string, or some other value shown by its `str`. */
  datatype IdArg = Text(s: string) | NotText(repr: string)

  /** How the argument reads inside an f-string. */
  function Display(arg: IdArg): string {
    match arg
    case Text(s) => s
    case NotText(r) => r
  }

  const PmcPrefix: string := "PMC"

  /** "PMC" followed by one or more ASCII digits and nothing else. */
  predicate PmcShape(t: string) {
    |t| > 3 && t[..3] == PmcPrefix && AllDigits(t[3..])
  }

  /** End of the run of digits that starts at `i`. */
  function DigitRunEnd(s: string, i: nat): (r: nat)
    requires i <= |s|
    ensures i <= r <= |s|
    ensures forall k :: i <= k < r ==> IsDigit(s[k])
    ensures r == |s| || !IsDigit(s[r])
    decreases |s| - i
  {
    if i == |s| || !IsDigit(s[i]) then i else DigitRunEnd(s, i + 1)
  }

  /** `re.match(r"^PMC\d+$", s)`: the digits run to the end, or to a single final newline,
      which `$` also accepts. */
  function MatchesPmcPattern(s: string): bool {
    |s| > 3 && s[..3] == PmcPrefix
    && var e := DigitRunEnd(s, 3);
       e > 3 && (e == |s| || (e == |s| - 1 && s[e] == '\n'))
  }

  /** The PMCID check: a non-empty string starting with "PMC" that matches the pattern. */
  function ValidPmcId(arg: IdArg): (r: bool)
    ensures r ==> arg.Text? && StartsWith(arg.s, PmcPrefix)
    ensures r <==> (arg.Text? && (PmcShape(arg.s)
      || (|arg.s| > 0 && arg.s[|arg.s| - 1] == '\n' && PmcShape(arg.s[..|arg.s| - 1]))))
  {
    match arg
    case NotText(_) => false
    case Text(s) =>
      PatternMeansShape(s);
      if |s| == 0 then false
      else if !StartsWith(s, PmcPrefix) then false
      else MatchesPmcPattern(s)
  }

  lemma PatternMeansShape(s: string)
    ensures MatchesPmcPattern(s) <==>
      PmcShape(s) || (|s| > 0 && s[|s| - 1] == '\n' && PmcShape(s[..|s| - 1]))
  {
    if |s| > 3 {
      var t := s[..|s| - 1];
      assert t[..3] == s[..3];
      assert forall k :: 0 <= k < |s[3..]| ==> s[3..][k] == s[k + 3];
      assert forall k :: 0 <= k < |t[3..]| ==> t[3..][k] == s[k + 3];
    }
  }

  function PmcId(n: nat): string {
    PmcPrefix + NatToString(n)
  }

  /** Every article number gives a valid id, with or without one trailing newline, and the
      digits read back as the number. */
  lemma PmcIdValid(n: nat)
    ensures ValidPmcId(Text(PmcId(n)))
    ensures ValidPmcId(Text(PmcId(n) + "\n"))
    ensures ParseInt(PmcId(n)[3..]) == Some(n)
  {
    var t := PmcId(n);
    assert t[3..] == NatToString(n);
    assert (t + "\n")[..|t + "\n"| - 1] == t;
    ParseIntRoundTrip(n);
  }

  // ---------------------------------------------------------------------------------------
  // _download_from_s3

  const Bucket: string := "pmc-oa-opendata"

  function CommercialKey(id: string): string {
    "oa_comm/txt/all/" + id + ".txt"
  }

  function NoncommercialKey(id: string): string {
    "oa_noncomm/txt/all/" + id + ".txt"
  }

  function S3Path(bucket: string, key: string): string {
    "s3://" + bucket + "/" + key
  }

  /** What the download raised: a `ClientError` (its code and message, each possibly absent,
      and its `str`), `NoCredentialsError`, an `OSError` from creating the folder or from
      saving the file, or anything else. */
  datatype S3Fault =
    | ClientFault(code: Option<string>, message: Option<string>, text: string)
    | CredentialsFault
    | FolderFault(detail: string)
    | SaveFault(detail: string)
    | OtherFault(detail: string)

  /** The download's effect: the file is there, a `PMCS3Error` with this message, or another
      exception escaping the function. */
  datatype Fetch = Fetched | S3Error(message: string) | Escaped(message: string)

  const CredentialsText: string := "S3 credentials configuration error - anonymous access failed"

  /** The `OSError` handler reads `local_path`, which is not yet bound when creating the folder
      failed, so Python raises this instead of `PMCS3Error`. */
  const UnboundLocalText: string := "cannot access local variable 'local_path' where it is not associated with a value"

  predicate IsServiceCode(code: string) {
    code == "ServiceUnavailable" || code == "SlowDown" || code == "RequestTimeout"
  }

  predicate IsInternalCode(code: string) {
    code == "InternalError" || code == "InternalServerError"
  }

  /** Codes whose message names the object or bucket instead of quoting the S3 message. */
  predicate IsPathCode(code: string) {
    code == "404" || code == "NoSuchKey" || code == "NoSuchBucket" || code == "403" || code == "AccessDenied"
  }

  /** The `PMCS3Error` message for a `ClientError` with code `code` and message `message`. */
  function ClientErrorText(bucket: string, key: string, code: string, message: string): string {
    if code == "404" || code == "NoSuchKey" then "Article not found at " + S3Path(bucket, key)
    else if code == "NoSuchBucket" then "S3 bucket '" + bucket + "' not found"
    else if code == "403" || code == "AccessDenied" then "Access denied to " + S3Path(bucket, key)
    else if IsServiceCode(code) then "S3 service temporarily unavailable: " + message
    else if IsInternalCode(code) then "S3 internal server error: " + message
    else "S3 access error (" + code + "): " + message
  }

  /** The missing-object, missing-bucket and access-denied texts never quote the S3 message. */
  lemma PathCodesIgnoreMessage(bucket: string, key: string, code: string, m1: string, m2: string)
    requires IsPathCode(code)
    ensures ClientErrorText(bucket, key, code, m1) == ClientErrorText(bucket, key, code, m2)
  {
  }

  /** Every other code's text ends with the S3 message. */
  lemma OtherCodesQuoteMessage(bucket: string, key: string, code: string, message: string)
    requires !IsPathCode(code)
    ensures EndsWith(ClientErrorText(bucket, key, code, message), message)
  {
    var r := ClientErrorText(bucket, key, code, message);
    assert r[|r| - |message|..] == message;
  }

  /** The download of `key`, given what it raised (None: it succeeded). */
  function Download(bucket: string, key: string, fault: Option<S3Fault>): (r: Fetch)
    ensures r.Fetched? <==> fault.None?
    ensures r.Escaped? <==> fault.Some? && fault.value.FolderFault?
    ensures r.Escaped? ==> r.message == UnboundLocalText
    ensures fault.Some? && fault.value.ClientFault? ==> r == S3Error(ClientErrorText(
      bucket, key, fault.value.code.GetOr("Unknown"), fault.value.message.GetOr(fault.value.text)))
  {
    match fault
    case None => Fetched
    case Some(f) =>
      match f
      case ClientFault(code, message, text) =>
        S3Error(ClientErrorText(bucket, key, code.GetOr("Unknown"), message.GetOr(text)))
      case CredentialsFault => S3Error(CredentialsText)
      case FolderFault(_) => Escaped(UnboundLocalText)
      case SaveFault(d) => S3Error("Failed to save file to disk: " + d)
      case OtherFault(d) => S3Error("Failed to download from S3: " + d)
  }

  /** `"not found" in str(e).lower()`. */
  predicate NotFound(message: string) {
    Contains(Lower(message), "not found")
  }

  lemma {:induction false} ContainsAt(s: string, k: nat, needle: string)
    requires k + |needle| <= |s| && s[k..k + |needle|] == needle
    ensures Contains(s, needle)
    decreases k
  {
    if k > 0 {
      assert s[1..][k - 1..k - 1 + |needle|] == s[k..k + |needle|];
      ContainsAt(s[1..], k - 1, needle);
    }
  }

  /** A missing object or bucket always reads as "not found", whatever the path. */
  lemma MissingReadsNotFound(bucket: string, key: string, message: string)
    ensures NotFound(ClientErrorText(bucket, key, "404", message))
    ensures NotFound(ClientErrorText(bucket, key, "NoSuchKey", message))
    ensures NotFound(ClientErrorText(bucket, key, "NoSuchBucket", message))
  {
    var a := "Article not found at " + S3Path(bucket, key);
    assert Lower(a)[8..17] == "not found";
    ContainsAt(Lower(a), 8, "not found");
    var b := "S3 bucket '" + bucket + "' not found";
    var n := |b|;
    assert Lower(b)[n - 9..n] == "not found";
    ContainsAt(Lower(b), n - 9, "not found");
  }

  // ---------------------------------------------------------------------------------------
  // The decision between the two articles

  /** Where the article search ended. */
  datatype Lookup = Available | NotAvailable | S3Failed(message: string) | Crashed(message: string)

  /** The keys requested, in order, and where the search ended. */
  datatype Located = Located(keys: seq<string>, outcome: Lookup)

  function CommercialOnlyText(id: string): string {
    "Article " + id + " not found in commercial bucket and COMMERCIAL_USE_ONLY is set to True"
  }

  /** The commercial article first; on a "not found" failure, and only when commercial use is
      not required, the non-commercial one. `fetch` says what downloading a key raises. */
  function Locate(id: string, commercialOnly: bool, fetch: string -> Option<S3Fault>): (r: Located)
    ensures 1 <= |r.keys| <= 2 && r.keys[0] == CommercialKey(id)
    ensures var c := Download(Bucket, CommercialKey(id), fetch(CommercialKey(id)));
      |r.keys| == 2 <==> c.S3Error? && NotFound(c.message) && !commercialOnly
    ensures |r.keys| == 2 ==> r.keys[1] == NoncommercialKey(id)
    ensures r.outcome.Available? <==>
      fetch(CommercialKey(id)).None? || (|r.keys| == 2 && fetch(NoncommercialKey(id)).None?)
    ensures r.outcome.NotAvailable? <==> (|r.keys| == 2
      && var n := Download(Bucket, NoncommercialKey(id), fetch(NoncommercialKey(id)));
         n.S3Error? && NotFound(n.message))
    ensures var c := Download(Bucket, CommercialKey(id), fetch(CommercialKey(id)));
      && (c.Escaped? ==> r.outcome == Crashed(c.message))
      && (c.S3Error? && !NotFound(c.message) ==> r.outcome == S3Failed(c.message))
      && (c.S3Error? && NotFound(c.message) && commercialOnly ==> r.outcome == S3Failed(CommercialOnlyText(id)))
    ensures |r.keys| == 2 ==> var n := Download(Bucket, NoncommercialKey(id), fetch(NoncommercialKey(id)));
      && (n.Escaped? ==> r.outcome == Crashed(n.message))
      && (n.S3Error? && !NotFound(n.message) ==> r.outcome == S3Failed(n.message))
  {
    var ck := CommercialKey(id);
    match Download(Bucket, ck, fetch(ck))
    case Fetched => Located([ck], Available)
    case Escaped(m) => Located([ck], Crashed(m))
    case S3Error(m) =>
      if !NotFound(m) then Located([ck], S3Failed(m))
      else if commercialOnly then Located([ck], S3Failed(CommercialOnlyText(id)))
      else
        var nk := NoncommercialKey(id);
        match Download(Bucket, nk, fetch(nk))
        case Fetched => Located([ck, nk], Available)
        case Escaped(m2) => Located([ck, nk], Crashed(m2))
        case S3Error(m2) =>
          if NotFound(m2) then Located([ck, nk], NotAvailable) else Located([ck, nk], S3Failed(m2))
  }

  // ---------------------------------------------------------------------------------------
  // The tool results

  /** One retrieved passage as paper-qa returns it: the chunk name, its summary, and the
      formatted citation of its document. */
  datatype Passage = Passage(name: string, summary: string, citation: string)

  /** What `paper-qa`'s `ask` produced, or the exception it raised. */
  datatype Answer = Answered(question: string, text: string, passages: seq<Passage>) | AskFailed(message: string)

  /** A Strands tool result: the status, the text block and the JSON block. */
  datatype ToolResult<J> = ToolResult(success: bool, text: string, data: J)

  function InvalidText(arg: IdArg): string {
    "Invalid PMCID format: " + Display(arg) + ". Expected format: PMC followed by numbers (e.g., PMC6033041)"
  }

  function NotAvailableText(id: string): string {
    "Article " + id + " is not available in the PMC Open Access Subset on AWS"
  }

  function S3FailureText(id: string, message: string): string {
    "Error accessing PMC Open Access Subset for " + id + ": " + message
  }

  function UnexpectedText(id: string, message: string): string {
    "An unexpected error occurred while processing " + id + ": " + message
  }

  /** The text of a failed search; None when the article is available. */
  function LookupFailure(id: string, o: Lookup): (r: Option<string>)
    ensures r.None? <==> o.Available?
    ensures o.NotAvailable? ==> r == Some(NotAvailableText(id))
    ensures o.S3Failed? ==> r == Some(S3FailureText(id, o.message))
    ensures o.Crashed? ==> r == Some(UnexpectedText(id, o.message))
  {
    match o
    case Available => None
    case NotAvailable => Some(NotAvailableText(id))
    case S3Failed(m) => Some(S3FailureText(id, m))
    case Crashed(m) => Some(UnexpectedText(id, m))
  }

  /** The JSON block of the DynamoDB variant. */
  datatype DdbData =
    | DdbErrorData(question: string, source: string)
    | DdbSuccessData(evidenceId: string, question: string, source: string, context: seq<(string, string)>)

  /** `os.getenv("COMMERCIAL_USE_ONLY", True)` as a condition: true when the variable is unset
      and when it holds any non-empty string, "false" and "0" included. */
  function CommercialOnlyFlag(env: Option<string>): (r: bool)
    ensures r <==> env != Some("")
  {
    env.None? || |env.value| > 0
  }

  /** The (chunk, summary) pairs the DynamoDB variant returns. */
  function Summaries(ps: seq<Passage>): (r: seq<(string, string)>)
    ensures |r| == |ps| && forall i :: 0 <= i < |ps| ==> r[i] == (ps[i].name, ps[i].summary)
  {
    seq(|ps|, i requires 0 <= i < |ps| => (ps[i].name, ps[i].summary))
  }

  /** `gather_evidence` of the DynamoDB variant: `env` is COMMERCIAL_USE_ONLY, `fetch` what each
      download raises, `answer` the paper-qa outcome and `evidenceId` the new UUID. The keys
      requested come with the result. */
  function GatherDdb(arg: IdArg, question: string, env: Option<string>, fetch: string -> Option<S3Fault>,
                     answer: Answer, evidenceId: string)
    : (r: (seq<string>, ToolResult<DdbData>))
    ensures !ValidPmcId(arg) ==> r == ([], ToolResult(false, InvalidText(arg), DdbErrorData(question, Display(arg))))
    ensures ValidPmcId(arg) ==> r.0 == Locate(arg.s, CommercialOnlyFlag(env), fetch).keys
    ensures !r.1.success ==> r.1.data == DdbErrorData(question, Display(arg))
    ensures r.1.success <==> (ValidPmcId(arg)
      && Locate(arg.s, CommercialOnlyFlag(env), fetch).outcome.Available? && answer.Answered?)
    ensures r.1.success ==> (r.1.text == answer.text
      && r.1.data == DdbSuccessData(evidenceId, answer.question, arg.s, Summaries(answer.passages)))
    ensures ValidPmcId(arg) ==> var o := Locate(arg.s, CommercialOnlyFlag(env), fetch).outcome;
      && (!o.Available? ==> r.1.text == LookupFailure(arg.s, o).value)
      && (o.Available? && answer.AskFailed? ==> r.1.text == UnexpectedText(arg.s, answer.message))
  {
    if !ValidPmcId(arg) then ([], ToolResult(false, InvalidText(arg), DdbErrorData(question, Display(arg))))
    else
      var id := arg.s;
      var loc := Locate(id, CommercialOnlyFlag(env), fetch);
      match LookupFailure(id, loc.outcome)
      case Some(t) => (loc.keys, ToolResult(false, t, DdbErrorData(question, id)))
      case None =>
        match answer
        case AskFailed(m) => (loc.keys, ToolResult(false, UnexpectedText(id, m), DdbErrorData(question, id)))
        case Answered(q, text, ps) =>
          (loc.keys, ToolResult(true, text, DdbSuccessData(evidenceId, q, id, Summaries(ps))))
  }

  /** The JSON block of the lab variant. */
  datatype LabData =
    | LabErrorData(question: string, pmcid: string, source: string)
    | LabSuccessData(question: string, pmcid: string, citation: string,
                     evidence: seq<(string, string)>, source: string)

  const ArticleUrl: string := "https://www.ncbi.nlm.nih.gov/pmc/articles/"

  /** `source or f"https://www.ncbi.nlm.nih.gov/pmc/articles/{pmcid}/"`. */
  function SourceOr(source: Option<string>, arg: IdArg): (r: string)
    ensures source.Some? && |source.value| > 0 ==> r == source.value
    ensures !(source.Some? && |source.value| > 0) ==> r == ArticleUrl + Display(arg) + "/"
  {
    if source.Some? && |source.value| > 0 then source.value else ArticleUrl + Display(arg) + "/"
  }

  /** COMMERCIAL_USE_ONLY of the lab variant. */
  const LabCommercialOnly: bool := false

  /** `gather_evidence_tool` of the lab variant: the same search with commercial use never
      required; the citation is taken from the first passage, and the downloaded file is then
      removed (`removal` is what `os.remove` raised, if anything). */
  function GatherLab(arg: IdArg, question: string, source: Option<string>, fetch: string -> Option<S3Fault>,
                     answer: Answer, removal: Option<string>)
    : (r: (seq<string>, ToolResult<LabData>))
    ensures !ValidPmcId(arg) ==> r.0 == [] && !r.1.success && r.1.text == InvalidText(arg)
    ensures ValidPmcId(arg) ==> r.0 == Locate(arg.s, LabCommercialOnly, fetch).keys
    ensures !r.1.success ==> r.1.data == LabErrorData(question, Display(arg), SourceOr(source, arg))
    ensures r.1.success <==> (ValidPmcId(arg) && Locate(arg.s, LabCommercialOnly, fetch).outcome.Available?
      && answer.Answered? && |answer.passages| > 0 && removal.None?)
    ensures r.1.success ==> r.1.text == answer.text && r.1.data == LabSuccessData(
      answer.question, arg.s, answer.passages[0].citation, Summaries(answer.passages), SourceOr(source, arg))
    ensures ValidPmcId(arg) ==> var o := Locate(arg.s, LabCommercialOnly, fetch).outcome;
      && (!o.Available? ==> r.1.text == LookupFailure(arg.s, o).value)
      && (o.Available? && answer.AskFailed? ==> r.1.text == UnexpectedText(arg.s, answer.message))
      && (o.Available? && answer.Answered? && |answer.passages| == 0 ==> r.1.text == UnexpectedText(arg.s, ListIndexError))
      && (o.Available? && answer.Answered? && |answer.passages| > 0 && removal.Some? ==>
            r.1.text == UnexpectedText(arg.s, removal.value))
  {
    var err := LabErrorData(question, Display(arg), SourceOr(source, arg));
    if !ValidPmcId(arg) then ([], ToolResult(false, InvalidText(arg), err))
    else
      var id := arg.s;
      var loc := Locate(id, LabCommercialOnly, fetch);
      match LookupFailure(id, loc.outcome)
      case Some(t) => (loc.keys, ToolResult(false, t, err))
      case None =>
        match answer
        case AskFailed(m) => (loc.keys, ToolResult(false, UnexpectedText(id, m), err))
        case Answered(q, text, ps) =>
          if |ps| == 0 then (loc.keys, ToolResult(false, UnexpectedText(id, ListIndexError), err))
          else if removal.Some? then (loc.keys, ToolResult(false, UnexpectedText(id, removal.value), err))
          else (loc.keys, ToolResult(true, text, LabSuccessData(q, id, ps[0].citation, Summaries(ps), SourceOr(source, arg))))
  }

  /** In the lab variant a missing commercial article always leads to the non-commercial key. */
  lemma LabFallsBack(id: string, fetch: string -> Option<S3Fault>, message: string)
    requires fetch(CommercialKey(id)) == Some(ClientFault(Some("NoSuchKey"), Some(message), message))
    ensures Locate(id, LabCommercialOnly, fetch).keys == [CommercialKey(id), NoncommercialKey(id)]
  {
    MissingReadsNotFound(Bucket, CommercialKey(id), message);
  }

  /** With COMMERCIAL_USE_ONLY unset, a missing commercial article is reported through the
      S3 error handler with the commercial-only text. */
  lemma DdbMissingCommercialText(id: string, question: string, fetch: string -> Option<S3Fault>,
                                 answer: Answer, evidenceId: string, message: string)
    requires ValidPmcId(Text(id))
    requires fetch(CommercialKey(id)) == Some(ClientFault(Some("NoSuchKey"), Some(message), message))
    ensures GatherDdb(Text(id), question, None, fetch, answer, evidenceId).1
      == ToolResult(false, S3FailureText(id, CommercialOnlyText(id)), DdbErrorData(question, id))
  {
    MissingReadsNotFound(Bucket, CommercialKey(id), message);
  }

  /** In the lab variant, an article missing from both buckets is reported as not available
      in the open-access subset. */
  lemma LabMissingBothText(id: string, question: string, source: Option<string>, fetch: string -> Option<S3Fault>,
                           answer: Answer, removal: Option<string>, m1: string, m2: string)
    requires ValidPmcId(Text(id))
    requires fetch(CommercialKey(id)) == Some(ClientFault(Some("NoSuchKey"), Some(m1), m1))
    requires fetch(NoncommercialKey(id)) == Some(ClientFault(Some("NoSuchKey"), Some(m2), m2))
    ensures var r := GatherLab(Text(id), question, source, fetch, answer, removal);
      !r.1.success && r.1.text == NotAvailableText(id)
  {
    MissingReadsNotFound(Bucket, CommercialKey(id), m1);
    MissingReadsNotFound(Bucket, NoncommercialKey(id), m2);
  }

  /** In the DynamoDB variant, with COMMERCIAL_USE_ONLY unset, a missing commercial article is
      final: the non-commercial key is never requested. */
  lemma DdbDefaultStaysCommercial(id: string, fetch: string -> Option<S3Fault>)
    ensures Locate(id, CommercialOnlyFlag(None), fetch).keys == [CommercialKey(id)]
  {
  }
}

=== FILE: invoke_agentcore.dfy ===
/** The notebook helper `invoke_agentcore`
    (labs/01-agents/01-pmc-abstract-search/invoke_agentcore.py): find the runtime by name on
    the first listing page, invoke it once, and print its event stream line by line. The
    listing page, the invocation reply and `json.loads` are supplied from outside. */
module InvokeAgentcore {
  import opened Wrappers
  import opened PyStr
  import opened JsonValue
  import opened JsonText
  import opened ResponseHandler
  import AgentClient

  /** One entry of the listing page: `agentRuntimeName` and `agentRuntimeArn`, each possibly
      absent. */
  datatype Entry = Entry(name: Option<string>, arn: Option<string>)

  predicate Named(e: Entry, name: string) {
    e.name.Some? && e.name.value == name
  }

  /** Position of the first entry whose name equals `name` exactly. */
  function FirstNamed(page: seq<Entry>, name: string): (r: Option<nat>)
    ensures r.Some? ==> r.value < |page| && Named(page[r.value], name)
    ensures r.Some? ==> forall j :: 0 <= j < r.value ==> !Named(page[j], name)
    ensures r.None? ==> forall j :: 0 <= j < |page| ==> !Named(page[j], name)
  {
    if |page| == 0 then None
    else if Named(page[0], name) then Some(0)
    else match FirstNamed(page[1..], name)
      case None => None
      case Some(k) => Some(k + 1)
  }

  /** The ARN the lookup settles on. The first entry of that name decides: when its ARN is
      missing or empty the agent counts as not found, even if a later entry has one. */
  function LookupArn(page: seq<Entry>, name: string): (r: Option<string>)
    ensures r.Some? ==> (|r.value| > 0
      && exists i :: 0 <= i < |page| && Named(page[i], name) && page[i].arn == r
                     && forall j :: 0 <= j < i ==> !Named(page[j], name))
    ensures r.None? <==>
      FirstNamed(page, name).None? || !AgentClient.Given(page[FirstNamed(page, name).value].arn)
  {
    match FirstNamed(page, name)
    case None => None
    case Some(i) => if AgentClient.Given(page[i].arn) then page[i].arn else None
  }

  /** A later entry with the same name is never consulted. */
  lemma FirstEntryDecides(page: seq<Entry>, name: string, i: nat, later: Entry)
    requires i < |page| && Named(page[i], name) && !AgentClient.Given(page[i].arn)
    requires forall j :: 0 <= j < i ==> !Named(page[j], name)
    ensures LookupArn(page + [later], name).None?
  {
    var p := page + [later];
    assert p[i] == page[i];
    var m := FirstNamed(p, name);
    assert m.Some? && m.value <= i;
  }

  const DataPrefix: string := "data: "
  const DoneText: string := "[DONE]"
  const NotebookKeys: seq<string> := ["text", "content", "message"]

  /** What one data payload prints: the first truthy of text/content/message of an object
      (else the payload itself), a decoded string (on its own line when it is a tool marker),
      and the raw payload for anything else, undecodable text included. */
  function RenderData(data: string, parse: string -> Decoded): (r: Out)
    ensures r.color == Plain
    ensures r.newline <==> parse(data).Parsed? && parse(data).value.JStr? && StartsWith(parse(data).value.s, ToolMarker)
    ensures parse(data).DecodeError? ==> r == Out(data, Plain, false)
    ensures parse(data).Parsed? && !parse(data).value.JObj? && !parse(data).value.JStr? ==> r == Out(data, Plain, false)
    ensures parse(data).Parsed? && parse(data).value.JStr? ==> r.text == parse(data).value.s
    ensures parse(data).Parsed? && parse(data).value.JObj? ==>
      var t := FirstTruthy(parse(data).value.fields, NotebookKeys);
      r.text == if Truthy(t) then Display(t) else data
  {
    match parse(data)
    case DecodeError(_) => Out(data, Plain, false)
    case Parsed(v) =>
      match v
      case JObj(fields, _) =>
        var t := FirstTruthy(fields, NotebookKeys);
        Out(if Truthy(t) then Display(t) else data, Plain, false)
      case JStr(s) => Out(s, Plain, StartsWith(s, ToolMarker))
      case _ => Out(data, Plain, false)
  }

  /** The payload a line carries: present only for a "data: " line whose payload, after the
      stripped prefix, is neither "" nor "[DONE]". */
  function Payload(line: string): (r: Option<string>)
    ensures !StartsWith(Strip(line), DataPrefix) ==> r.None?
    ensures r.Some? ==> (StartsWith(Strip(line), DataPrefix)
      && r.value == Strip(line)[|DataPrefix|..] && |r.value| > 0 && r.value != DoneText)
  {
    var t := Strip(line);
    if !StartsWith(t, DataPrefix) then None
    else
      var data := t[|DataPrefix|..];
      if |data| == 0 || data == DoneText then None else Some(data)
  }

  /** One line of the stream: only a "data: " line with a payload other than "" and "[DONE]"
      prints anything, and then exactly one write. */
  function RenderLine(line: string, parse: string -> Decoded): (r: seq<Out>)
    ensures |r| <= 1
    ensures !StartsWith(Strip(line), DataPrefix) ==> r == []
    ensures |r| == 1 ==> (StartsWith(Strip(line), DataPrefix)
      && var data := Strip(line)[|DataPrefix|..]; |data| > 0 && data != DoneText && r[0] == RenderData(data, parse))
  {
    match Payload(line)
    case None => []
    case Some(data) => [RenderData(data, parse)]
  }

  /** A server that sends `json.dumps(s)` as a data line gets `s` printed verbatim, given a
      decoder that reads `json.dumps` output back. */
  lemma QuotedTextPrinted(s: string, parse: string -> Decoded)
    requires parse(Quote(s)) == Parsed(JStr(s))
    ensures RenderLine(DataPrefix + Quote(s), parse) == [Out(s, Plain, StartsWith(s, ToolMarker))]
  {
    var q := Quote(s);
    var line := DataPrefix + q;
    assert line[0] == 'd' && line[|line| - 1] == '"';
    StripPadded([], line, []);
    assert [] + line + [] == line;
    assert q[0] == '"' && DoneText[0] == '[';
    DataLinePayload(q);
    PayloadRenders(line, parse);
    DecodedTextRenders(q, s, parse);
  }

  /** A payload that decodes to a JSON string prints that string. */
  lemma DecodedTextRenders(data: string, s: string, parse: string -> Decoded)
    requires parse(data) == Parsed(JStr(s))
    ensures RenderData(data, parse) == Out(s, Plain, StartsWith(s, ToolMarker))
  {
  }

  lemma PayloadRenders(line: string, parse: string -> Decoded)
    requires Payload(line).Some?
    ensures RenderLine(line, parse) == [RenderData(Payload(line).value, parse)]
  {
  }

  /** An unpadded data line with a payload other than "" and "[DONE]" carries that payload. */
  lemma DataLinePayload(data: string)
    requires |data| > 0 && data != DoneText && Strip(DataPrefix + data) == DataPrefix + data
    ensures Payload(DataPrefix + data) == Some(data)
  {
    DataLineStarts(data);
    DataLineRest(data);
  }

  lemma DataLineStarts(data: string)
    ensures StartsWith(DataPrefix + data, DataPrefix)
  {
    PrefixStartsWith(DataPrefix, data);
  }

  lemma DataLineRest(data: string)
    ensures (DataPrefix + data)[|DataPrefix|..] == data
  {
    assert (DataPrefix + data)[|DataPrefix|..] == data;
  }

  /** One iteration of the stream loop: a line renders, a fault is the exception that ends
      the call. No state carries from line to line. */
  function NotebookStep(item: StreamItem, w: bool, parse: string -> Decoded): (r: Result<Step, string>)
    ensures item.StreamFault? ==> r == Err(item.detail)
    ensures item.Line? ==> r == Ok(Step(RenderLine(item.text, parse), w))
  {
    match item
    case StreamFault(d) => Err(d)
    case Line(t) => Ok(Step(RenderLine(t, parse), w))
  }

  function RenderStream(items: seq<StreamItem>, parse: string -> Decoded): Run {
    RunSteps((item: StreamItem, w: bool) => NotebookStep(item, w, parse), items, false)
  }

  /** A line that is not a data line can be removed from anywhere in the stream without
      changing what is printed. */
  lemma OnlyDataLinesPrint(a: seq<StreamItem>, x: string, b: seq<StreamItem>, parse: string -> Decoded)
    requires !StartsWith(Strip(x), DataPrefix)
    ensures RenderStream(a + [Line(x)] + b, parse) == RenderStream(a + b, parse)
  {
    var step := (item: StreamItem, w: bool) => NotebookStep(item, w, parse);
    assert a + [Line(x)] + b == a + ([Line(x)] + b);
    RunStepsAppend(step, a, [Line(x)] + b, false);
    RunStepsAppend(step, a, b, false);
    var ra := RunSteps(step, a, false);
    if ra.failure.None? {
      SilentStepRuns(step, Line(x), b, ra.wasText);
    }
  }

  /** What a call printed, the request it made (if it got that far), and the exception that
      escaped it, if any. */
  datatype Notebook = Notebook(outs: seq<Out>, request: Option<AgentClient.Request>, raised: Option<string>)

  function Say(s: string): Out {
    Out(s, Plain, true)
  }

  const Rule: string := "================================================================================"
  const LookingUpPrefix: string := "\U{1F50D} Looking up agent: "
  const FoundAgentPrefix: string := "\U{2705} Found agent: "
  const SendingPrefix: string := "\U{1F4AC} Sending prompt: "
  const CompletePrefix: string := "\U{2705} Response complete (session: "

  function NotFoundText(name: string): string {
    "\U{274C} Agent '" + name + "' not found"
  }

  /** The lines printed once the agent is found, up to the opening rule. */
  function Preamble(name: string, arn: string, prompt: string): seq<Out> {
    [Say(LookingUpPrefix + name), Say(FoundAgentPrefix + arn + "\n"), Say(SendingPrefix + prompt + "\n"), Say(Rule)]
  }

  /** The closing rule and the completion line naming the session. */
  function Closing(id: string): seq<Out> {
    [Say("\n" + Rule), Say(CompletePrefix + id + ")")]
  }

  /** The session id the call uses: the argument when truthy, else the new UUID `newId`. */
  function SessionOf(arg: Option<string>, newId: string): (r: string)
    requires |newId| > 0
    ensures |r| > 0
    ensures AgentClient.Given(arg) ==> r == arg.value
    ensures !AgentClient.Given(arg) ==> r == newId
  {
    if AgentClient.Given(arg) then arg.value else newId
  }

  /** `invoke_agentcore(name, prompt, session_id)`: `listing` is the first listing page (or
      the exception the listing call raised), `reply` the `response` entry of the invocation
      (or the exception it raised). Only a stream offering `iter_lines` is read. */
  function Invoke(name: string, prompt: string, sessionArg: Option<string>, newId: string,
                  listing: Result<seq<Entry>, string>, reply: Result<Option<Body>, string>,
                  parse: string -> Decoded)
    : (r: Notebook)
    requires |newId| > 0
    ensures |r.outs| >= 1 && r.outs[0] == Say(LookingUpPrefix + name)
    ensures listing.Err? ==> r == Notebook([Say(LookingUpPrefix + name)], None, Some(listing.error))
    ensures r.request.Some? <==> listing.Ok? && LookupArn(listing.value, name).Some?
    ensures listing.Ok? && LookupArn(listing.value, name).None? ==>
      r == Notebook([Say(LookingUpPrefix + name), Say(NotFoundText(name))], None, None)
    ensures r.request.Some? ==> r.request.value == AgentClient.Request(
      LookupArn(listing.value, name).value, AgentClient.DefaultQualifier, SessionOf(sessionArg, newId),
      AgentClient.Payload(prompt))
    ensures r.request.Some? && r.raised.None? ==>
      r.outs[|r.outs| - 1] == Say(CompletePrefix + SessionOf(sessionArg, newId) + ")")
    ensures listing.Ok? && LookupArn(listing.value, name).Some? ==>
      var before := Preamble(name, LookupArn(listing.value, name).value, prompt);
      var tail := Closing(SessionOf(sessionArg, newId));
      && (reply.Err? ==> r.outs == before && r.raised == Some(reply.error))
      && (reply.Ok? && reply.value.Some? && reply.value.value.LineStream? ==>
            var run := RenderStream(reply.value.value.items, parse);
            && r.raised == run.failure
            && r.outs == before + run.outs + (if run.failure.None? then tail else []))
      && (reply.Ok? && !(reply.value.Some? && reply.value.value.LineStream?) ==>
            r.outs == before + tail && r.raised.None?)
  {
    var head := [Say(LookingUpPrefix + name)];
    match listing
    case Err(e) => Notebook(head, None, Some(e))
    case Ok(page) =>
      match LookupArn(page, name)
      case None => Notebook(head + [Say(NotFoundText(name))], None, None)
      case Some(arn) =>
        var id := SessionOf(sessionArg, newId);
        var request := AgentClient.Request(arn, AgentClient.DefaultQualifier, id, AgentClient.Payload(prompt));
        var before := Preamble(name, arn, prompt);
        var tail := Closing(id);
        match reply
        case Err(d) => Notebook(before, Some(request), Some(d))
        case Ok(body) =>
          if body.Some? && body.value.LineStream? then
            var run := RenderStream(body.value.items, parse);
            if run.failure.Some? then Notebook(before + run.outs, Some(request), run.failure)
            else Notebook(before + run.outs + tail, Some(request), None)
          else Notebook(before + tail, Some(request), None)
  }
}

=== FILE: json_text.dfy ===
/** The one piece of JSON text the client writes itself: a string literal as Python's
    `json.dumps` emits it with its default `ensure_ascii=True`, together with a reference
    decoder for string literals that reads it back. */
module JsonText {
  import opened Wrappers

  /** Lower-case hexadecimal digit, as `'{0:04x}'` formats. */
  function HexDigit(d: nat): (c: char)
    requires d < 16
    ensures '0' <= c <= '9' || 'a' <= c <= 'f'
  {
    if d < 10 then ('0' as int + d) as char else ('a' as int + d - 10) as char
  }

  /** Value of a hexadecimal digit in either case, as the decoder accepts it. */
  function HexValue(c: char): (r: Option<nat>)
    ensures r.Some? ==> r.value < 16
  {
    if '0' <= c <= '9' then Some(c as int - '0' as int)
    else if 'a' <= c <= 'f' then Some(c as int - 'a' as int + 10)
    else if 'A' <= c <= 'F' then Some(c as int - 'A' as int + 10)
    else None
  }

  lemma HexDigitValue(d: nat)
    requires d < 16
    ensures HexValue(HexDigit(d)) == Some(d)
  {
  }

  /** Four lower-case hexadecimal digits of a 16-bit code unit. */
  function Hex4(n: nat): (r: string)
    requires n < 0x10000
    ensures |r| == 4
  {
    var q1 := n / 16;
    var q2 := q1 / 16;
    [HexDigit(q2 / 16), HexDigit(q2 % 16), HexDigit(q1 % 16), HexDigit(n % 16)]
  }

  /** The code unit written by four hexadecimal digits, if they are all digits. */
  function ParseHex4(s: string): (r: Option<nat>)
    requires |s| == 4
    ensures r.Some? ==> r.value < 0x10000
  {
    match (HexValue(s[0]), HexValue(s[1]), HexValue(s[2]), HexValue(s[3]))
    case (Some(a), Some(b), Some(c), Some(d)) => Some(((a * 16 + b) * 16 + c) * 16 + d)
    case _ => None
  }

  lemma Hex4RoundTrip(n: nat)
    requires n < 0x10000
    ensures ParseHex4(Hex4(n)) == Some(n)
  {
    var q1 := n / 16;
    var q2 := q1 / 16;
    HexDigitValue(q2 / 16);
    HexDigitValue(q2 % 16);
    HexDigitValue(q1 % 16);
    HexDigitValue(n % 16);
    assert q2 == (q2 / 16) * 16 + q2 % 16;
    assert q1 == q2 * 16 + q1 % 16;
    assert n == q1 * 16 + n % 16;
  }

  /** Characters written as themselves: printable ASCII other than the quote and the backslash. */
  predicate Plain(c: char) {
    ' ' <= c <= '~' && c != '"' && c != '\\'
  }

  /** `\uXXXX` for one UTF-16 code unit. */
  function UEscape(n: nat): (r: string)
    requires n < 0x10000
    ensures |r| == 6
  {
    "\\u" + Hex4(n)
  }

  /** How one character appears inside the literal: the two-character escapes Python's table
      lists, printable ASCII as itself, and every other character as `\uXXXX`, astral ones as a
      surrogate pair. */
  function EscapeChar(c: char): (r: string)
    ensures |r| > 0
    ensures |r| == 1 <==> Plain(c)
    ensures |r| == 1 ==> r == [c]
  {
    if c == '"' then "\\\""
    else if c == '\\' then "\\\\"
    else if c == '\n' then "\\n"
    else if c == '\r' then "\\r"
    else if c == '\t' then "\\t"
    else if c == '\U{8}' then "\\b"
    else if c == '\U{C}' then "\\f"
    else if ' ' <= c <= '~' then [c]
    else if c as int < 0x10000 then UEscape(c as int)
    else AstralEscape(c)
  }

  /** The UTF-16 surrogate pair of an astral character. */
  function High(c: char): nat
    requires c as int >= 0x10000
  {
    0xD800 + (c as int - 0x10000) / 1024
  }

  function Low(c: char): nat
    requires c as int >= 0x10000
  {
    0xDC00 + (c as int - 0x10000) % 1024
  }

  /** The surrogate pair `json.dumps` writes for an astral character. */
  function AstralEscape(c: char): (r: string)
    requires c as int >= 0x10000
    ensures |r| == 12
  {
    SurrogateRange(c);
    UEscape(High(c)) + UEscape(Low(c))
  }

  lemma SurrogateRange(c: char)
    requires c as int >= 0x10000
    ensures IsHighSurrogate(High(c)) && IsLowSurrogate(Low(c))
    ensures 0x10000 + (High(c) - 0xD800) * 1024 + (Low(c) - 0xDC00) == c as int
  {
  }

  function EscapeBody(s: string): string {
    if |s| == 0 then "" else EscapeChar(s[0]) + EscapeBody(s[1..])
  }

  /** `json.dumps(s)` for a string `s`. */
  function Quote(s: string): (r: string)
    ensures |r| >= 2 && r[0] == '"' && r[|r| - 1] == '"'
  {
    "\"" + EscapeBody(s) + "\""
  }

  predicate IsAscii(s: string) {
    forall i :: 0 <= i < |s| ==> s[i] as int < 128
  }

  lemma {:induction false} EscapeBodyAscii(s: string)
    ensures IsAscii(EscapeBody(s))
    decreases |s|
  {
    if |s| > 0 {
      EscapeBodyAscii(s[1..]);
      EscapeCharAscii(s[0]);
      AsciiAppend(EscapeChar(s[0]), EscapeBody(s[1..]));
    }
  }

  lemma EscapeCharAscii(c: char)
    ensures IsAscii(EscapeChar(c))
  {
    if c as int >= 0x10000 {
      SurrogateRange(c);
      UEscapeAscii(High(c));
      UEscapeAscii(Low(c));
      AsciiAppend(UEscape(High(c)), UEscape(Low(c)));
      assert EscapeChar(c) == AstralEscape(c);
    } else {
      UEscapeAscii(c as int);
    }
  }

  lemma UEscapeAscii(n: nat)
    requires n < 0x10000
    ensures IsAscii(UEscape(n))
  {
  }

  lemma AsciiAppend(a: string, b: string)
    requires IsAscii(a) && IsAscii(b)
    ensures IsAscii(a + b)
  {
  }

  /** The literal is pure ASCII, so its UTF-8 encoding is one byte per character. */
  lemma QuoteAscii(s: string)
    ensures IsAscii(Quote(s))
  {
    EscapeBodyAscii(s);
  }

  /** The character of a two-character escape `\x`, for the letters JSON defines. */
  function ShortEscape(x: char): Option<char> {
    if x == '"' then Some('"')
    else if x == '\\' then Some('\\')
    else if x == '/' then Some('/')
    else if x == 'b' then Some('\U{8}')
    else if x == 'f' then Some('\U{C}')
    else if x == 'n' then Some('\n')
    else if x == 'r' then Some('\r')
    else if x == 't' then Some('\t')
    else None
  }

  predicate IsHighSurrogate(n: nat) { 0xD800 <= n < 0xDC00 }

  predicate IsLowSurrogate(n: nat) { 0xDC00 <= n < 0xE000 }

  /** Reads the body of a string literal (the text between the quotes) back into characters.
      A raw quote or control character, an unknown escape, bad hex digits or a lone surrogate
      is rejected; Python would keep a lone surrogate, which no `char` can hold. */
  function UnescapeBody(t: string): (r: Option<string>)
    decreases |t|
  {
    if |t| == 0 then Some("")
    else if t[0] == '"' || t[0] < ' ' then None
    else if t[0] != '\\' then Prepend(t[0], UnescapeBody(t[1..]))
    else if |t| < 2 then None
    else if t[1] != 'u' then
      match ShortEscape(t[1])
      case None => None
      case Some(c) => Prepend(c, UnescapeBody(t[2..]))
    else if |t| < 6 then None
    else match ParseHex4(t[2..6])
      case None => None
      case Some(v) =>
        if IsLowSurrogate(v) then None
        else if !IsHighSurrogate(v) then Prepend(v as char, UnescapeBody(t[6..]))
        else if |t| < 12 || t[6..8] != "\\u" then None
        else match ParseHex4(t[8..12])
          case None => None
          case Some(w) =>
            if !IsLowSurrogate(w) then None
            else Prepend((0x10000 + (v - 0xD800) * 1024 + (w - 0xDC00)) as char, UnescapeBody(t[12..]))
  }

  function Prepend(c: char, r: Option<string>): Option<string> {
    match r
    case None => None
    case Some(s) => Some([c] + s)
  }

  /** The reference reading of a whole literal. */
  function Unquote(q: string): Option<string> {
    if |q| >= 2 && q[0] == '"' && q[|q| - 1] == '"' then UnescapeBody(q[1..|q| - 1]) else None
  }

  lemma UnescapeBmp(n: nat, rest: string)
    requires n < 0x10000 && !IsHighSurrogate(n) && !IsLowSurrogate(n)
    ensures UnescapeBody(UEscape(n) + rest) == Prepend(n as char, UnescapeBody(rest))
  {
    var t := UEscape(n) + rest;
    Hex4RoundTrip(n);
    assert t[2..6] == Hex4(n);
    assert t[6..] == rest;
  }

  lemma UnescapeAstral(c: char, rest: string)
    requires c as int >= 0x10000
    ensures UnescapeBody(AstralEscape(c) + rest) == Prepend(c, UnescapeBody(rest))
  {
    SurrogateRange(c);
    UnescapePair(High(c), Low(c), AstralEscape(c), rest);
    assert (0x10000 + (High(c) - 0xD800) * 1024 + (Low(c) - 0xDC00)) as char == c;
  }

  lemma UnescapePair(hi: nat, lo: nat, pair: string, rest: string)
    requires IsHighSurrogate(hi) && IsLowSurrogate(lo)
    requires pair == UEscape(hi) + UEscape(lo)
    ensures 0x10000 <= 0x10000 + (hi - 0xD800) * 1024 + (lo - 0xDC00) < 0x110000
    ensures UnescapeBody(pair + rest)
      == Prepend((0x10000 + (hi - 0xD800) * 1024 + (lo - 0xDC00)) as char, UnescapeBody(rest))
  {
    Hex4RoundTrip(hi);
    Hex4RoundTrip(lo);
    PairSlices(hi, lo, rest);
  }

  lemma PairSlices(hi: nat, lo: nat, rest: string)
    requires hi < 0x10000 && lo < 0x10000
    ensures var t := UEscape(hi) + UEscape(lo) + rest;
      && t[0] == '\\' && t[1] == 'u'
      && t[2..6] == Hex4(hi) && t[6..8] == "\\u" && t[8..12] == Hex4(lo) && t[12..] == rest
  {
  }

  /** One escaped character is read back as that character, whatever follows it. */
  lemma UnescapeChar(c: char, rest: string)
    ensures UnescapeBody(EscapeChar(c) + rest) == Prepend(c, UnescapeBody(rest))
  {
    var t := EscapeChar(c) + rest;
    if Plain(c) {
      assert t[1..] == rest;
    } else if c == '"' || c == '\\' || c == '\n' || c == '\r' || c == '\t' || c == '\U{8}' || c == '\U{C}' {
      assert t[2..] == rest;
    } else if c as int < 0x10000 {
      UnescapeBmp(c as int, rest);
    } else {
      assert EscapeChar(c) == AstralEscape(c);
      UnescapeAstral(c, rest);
    }
  }

  lemma {:induction false} UnescapeEscapeBody(s: string)
    ensures UnescapeBody(EscapeBody(s)) == Some(s)
    decreases |s|
  {
    if |s| > 0 {
      UnescapeEscapeBody(s[1..]);
      UnescapeChar(s[0], EscapeBody(s[1..]));
      assert [s[0]] + s[1..] == s;
    }
  }

  /** Decoding what `json.dumps` wrote gives back the original string. */
  lemma UnquoteQuote(s: string)
    ensures Unquote(Quote(s)) == Some(s)
  {
    var q := Quote(s);
    assert q[1..|q| - 1] == EscapeBody(s);
    UnescapeEscapeBody(s);
  }
}

=== FILE: json_value.dfy ===
/** The Python values `json.loads` produces, reduced to what the modelled code inspects:
    their type, their truthiness, their `str()` rendering and, for objects, their fields.
    Parsing itself is not modelled: callers receive an already classified `Decoded` value. */
module JsonValue {

  /** A decoded JSON value. Numbers carry their `str()` text and whether they are zero;
      arrays and objects carry the `str()` text Python would print for them. */
  datatype JValue =
    | JNull
    | JBool(b: bool)
    | JNum(isZero: bool, text: string)
    | JStr(s: string)
    | JArr(items: seq<JValue>, text: string)
    | JObj(fields: map<string, JValue>, text: string)

  /** Outcome of `json.loads` on a string: a value, or a `JSONDecodeError` with its message. */
  datatype Decoded = Parsed(value: JValue) | DecodeError(detail: string)

  /** Python truthiness: None, False, zero, and empty strings, lists and dicts are falsy. */
  predicate Truthy(v: JValue) {
    match v
    case JNull => false
    case JBool(b) => b
    case JNum(z, _) => !z
    case JStr(s) => |s| > 0
    case JArr(items, _) => |items| > 0
    case JObj(fields, _) => |fields| > 0
  }

  /** `str(v)`: a string is itself, None and booleans use Python's spellings. */
  function Display(v: JValue): (r: string)
    ensures v.JStr? ==> r == v.s
  {
    match v
    case JNull => "None"
    case JBool(b) => if b then "True" else "False"
    case JNum(_, t) => t
    case JStr(s) => s
    case JArr(_, t) => t
    case JObj(_, t) => t
  }

  /** The text of a number is an `int`'s when it is only digits and signs; otherwise the
      number is a `float`. */
  predicate IsIntText(t: string) {
    forall i :: 0 <= i < |t| ==> '0' <= t[i] <= '9' || t[i] == '-'
  }

  /** `type(v).__name__`, as attribute errors name it. */
  function TypeName(v: JValue): string {
    match v
    case JNull => "NoneType"
    case JBool(_) => "bool"
    case JNum(_, t) => if IsIntText(t) then "int" else "float"
    case JStr(_) => "str"
    case JArr(_, _) => "list"
    case JObj(_, _) => "dict"
  }

  /** `d.get(key)` on a decoded object: the field, or None when absent. */
  function Get(fields: map<string, JValue>, key: string): (r: JValue)
    ensures key !in fields ==> r == JNull
    ensures key in fields ==> r == fields[key]
  {
    if key in fields then fields[key] else JNull
  }

  /** Python's `a or b`: `a` when it is truthy, otherwise `b`. */
  function Or(a: JValue, b: JValue): (r: JValue)
    ensures Truthy(r) <==> Truthy(a) || Truthy(b)
    ensures Truthy(a) ==> r == a
  {
    if Truthy(a) then a else b
  }

  /** No key before position `i` names a truthy field. */
  ghost predicate NoneTruthyBefore(fields: map<string, JValue>, keys: seq<string>, i: int) {
    forall j :: 0 <= j < i && j < |keys| ==> !Truthy(Get(fields, keys[j]))
  }

  /** `d.get(k1) or d.get(k2) or ...`: the first truthy field among `keys`, else the last one looked up. */
  function FirstTruthy(fields: map<string, JValue>, keys: seq<string>): (r: JValue)
    requires |keys| > 0
    ensures Truthy(r) <==> exists i :: 0 <= i < |keys| && Truthy(Get(fields, keys[i]))
    ensures Truthy(r) ==> exists i :: 0 <= i < |keys| && r == Get(fields, keys[i]) && NoneTruthyBefore(fields, keys, i)
    ensures !Truthy(r) ==> r == Get(fields, keys[|keys| - 1])
  {
    if |keys| == 1 then Get(fields, keys[0])
    else
      var rest := FirstTruthy(fields, keys[1..]);
      assert forall i :: 0 <= i < |keys| - 1 ==> keys[1..][i] == keys[i + 1];
      if Truthy(Get(fields, keys[0])) then Get(fields, keys[0])
      else
        assert Truthy(rest) ==> exists i :: 0 <= i < |keys| && rest == Get(fields, keys[i]) && NoneTruthyBefore(fields, keys, i) by {
          if Truthy(rest) {
            var i :| 0 <= i < |keys| - 1 && rest == Get(fields, keys[1..][i]) && NoneTruthyBefore(fields, keys[1..], i);
            assert NoneTruthyBefore(fields, keys, i + 1) by {
              forall j | 0 <= j < i + 1 ensures !Truthy(Get(fields, keys[j])) {
                if j > 0 { assert keys[j] == keys[1..][j - 1]; }
              }
            }
          }
        }
        rest
  }
}

=== FILE: lambda_gateway.dfy ===
/** The database gateway's Lambda handler (prerequisite/lambda-database/python/lambda_function.py):
    the tool name with the gateway's target prefix removed, the dispatch of each of the 28
    database tools with its keyword arguments and their defaults, and the status code and
    body of the response. The database functions themselves, `json.dumps` of their results and
    `str` of other values are outcomes supplied from outside. */
module LambdaGateway {
  import opened Wrappers
  import opened PyStr
  import opened JsonText
  import Dedup

  // ---------------------------------------------------------------------------------------
  // The tool name

  /** `needle` occurs in `s` starting at `k`. */
  predicate OccursAt(s: string, k: nat, needle: string) {
    k + |needle| <= |s| && s[k..k + |needle|] == needle
  }

  /** `s.index(needle)` when `needle in s`: the first position where it occurs. */
  function Find(s: string, needle: string): (r: Option<nat>)
    ensures r.Some? ==> OccursAt(s, r.value, needle)
    ensures r.Some? ==> forall k :: 0 <= k < r.value ==> !OccursAt(s, k, needle)
    ensures r.None? ==> forall k :: 0 <= k <= |s| ==> !OccursAt(s, k, needle)
    decreases |s|
  {
    if |s| < |needle| then None
    else if s[..|needle|] == needle then Some(0)
    else
      match Find(s[1..], needle)
      case None =>
        ShiftAll(s, needle);
        None
      case Some(k) =>
        ShiftAll(s, needle);
        Some(k + 1)
  }

  /** An occurrence past the first character is an occurrence in the tail, one place earlier. */
  lemma Shift(s: string, k: nat, needle: string)
    requires 1 <= k && |s| > 0
    ensures OccursAt(s, k, needle) <==> OccursAt(s[1..], k - 1, needle)
  {
    if k + |needle| <= |s| {
      assert s[1..][k - 1..k - 1 + |needle|] == s[k..k + |needle|];
    }
  }

  lemma ShiftAll(s: string, needle: string)
    requires |s| > 0
    ensures forall k: nat {:trigger OccursAt(s, k, needle)} :: 1 <= k ==> (OccursAt(s, k, needle) <==> OccursAt(s[1..], k - 1, needle))
  {
    forall k: nat | 1 <= k
      ensures OccursAt(s, k, needle) <==> OccursAt(s[1..], k - 1, needle)
    {
      Shift(s, k, needle);
    }
  }

  /** `Find` answers Python's `needle in s`. */
  lemma {:induction false} FindIsContains(s: string, needle: string)
    ensures Find(s, needle).Some? <==> Contains(s, needle)
    decreases |s|
  {
    if |s| > 0 {
      FindIsContains(s[1..], needle);
    }
  }

  const Delimiter: string := "___"

  /** The tool name after the first "___", or the whole name when there is none. */
  function StripTarget(name: string): (r: string)
    ensures !Contains(name, Delimiter) ==> r == name
    ensures Contains(name, Delimiter) ==> exists k :: (0 <= k <= |name| - 3
      && name == name[..k] + Delimiter + r && forall j :: 0 <= j < k ==> !OccursAt(name, j, Delimiter))
  {
    FindIsContains(name, Delimiter);
    match Find(name, Delimiter)
    case None => name
    case Some(k) =>
      assert name == name[..k] + Delimiter + name[k + 3..];
      name[k + 3..]
  }

  /** A gateway target name without underscores, joined to the tool's own name, gives back the
      tool's own name, underscores and all. */
  lemma StripTargetPrefix(target: string, tool: string)
    requires '_' !in target
    ensures StripTarget(target + Delimiter + tool) == tool
  {
    var s := target + Delimiter + tool;
    var p := |target|;
    assert s[p..p + 3] == Delimiter;
    assert OccursAt(s, p, Delimiter);
    forall j | 0 <= j < p
      ensures !OccursAt(s, j, Delimiter)
    {
      assert s[j] == target[j];
    }
    FindIsContains(s, Delimiter);
    var k := Find(s, Delimiter).value;
    assert k == p;
    assert s[p + 3..] == tool;
  }

  // ---------------------------------------------------------------------------------------
  // Dispatch

  /** The default of a keyword argument: `event.get(key)` gives None, the others their value. */
  datatype Default =
    | NoDefault
    | IntDefault(i: int)
    | StrDefault(s: string)
    | BoolDefault(b: bool)
    | ListDefault(items: seq<string>)

  /** One keyword argument, read from the event key of the same name. */
  datatype Param = Param(key: string, default: Default)

  datatype Tool = Tool(name: string, params: seq<Param>)

  function P(key: string): Param {
    Param(key, NoDefault)
  }

  function PromptAnd(name: string, key: string): Tool {
    Tool(name, [P("prompt"), P(key)])
  }

  const Uniprot: Tool := Tool("query_uniprot", [P("prompt"), P("endpoint"), Param("max_results", IntDefault(5))])

  const Alphafold: Tool := Tool("query_alphafold", [
    P("uniprot_id"), Param("endpoint", StrDefault("prediction")), P("residue_range"),
    Param("download", BoolDefault(false)), P("output_dir"), Param("file_format", StrDefault("pdb")),
    Param("model_version", StrDefault("v4")), Param("model_number", IntDefault(1))])

  const PdbIdentifiers: Tool := Tool("query_pdb_identifiers", [
    P("identifiers"), Param("return_type", StrDefault("entry")), Param("download", BoolDefault(false)),
    P("attributes")])

  const Gnomad: Tool := Tool("query_gnomad", [P("prompt"), P("gene_symbol"), P("variant_id")])

  const Synapse: Tool := Tool("query_synapse", [
    P("prompt"), P("query_term"), Param("return_fields", ListDefault(["name", "node_type", "description"])),
    Param("max_results", IntDefault(20)), Param("query_type", StrDefault("file")),
    Param("verbose", BoolDefault(true))])

  /** The dispatch chain, in its order. */
  const Tools: seq<Tool> := [
    Uniprot,
    Alphafold,
    PromptAnd("query_interpro", "endpoint"),
    PromptAnd("query_pdb", "query"),
    PdbIdentifiers,
    PromptAnd("query_stringdb", "endpoint"),
    PromptAnd("query_paleobiology", "endpoint"),
    PromptAnd("query_jaspar", "endpoint"),
    PromptAnd("query_worms", "endpoint"),
    PromptAnd("query_cbioportal", "endpoint"),
    PromptAnd("query_clinvar", "search_term"),
    PromptAnd("query_geo", "search_term"),
    PromptAnd("query_dbsnp", "search_term"),
    PromptAnd("query_ucsc", "endpoint"),
    PromptAnd("query_ensembl", "endpoint"),
    PromptAnd("query_opentarget", "query"),
    PromptAnd("query_monarch", "endpoint"),
    PromptAnd("query_openfda", "endpoint"),
    PromptAnd("query_clinicaltrials", "endpoint"),
    PromptAnd("query_gwas_catalog", "endpoint"),
    Gnomad,
    PromptAnd("query_reactome", "endpoint"),
    PromptAnd("query_regulomedb", "endpoint"),
    PromptAnd("query_pride", "endpoint"),
    PromptAnd("query_gtopdb", "endpoint"),
    PromptAnd("query_mpd", "endpoint"),
    PromptAnd("query_emdb", "endpoint"),
    Synapse
  ]

  /** The list the unknown-tool response offers. */
  const AvailableTools: seq<string> := [
    "query_uniprot", "query_alphafold", "query_interpro", "query_pdb",
    "query_pdb_identifiers", "query_stringdb",
    "query_paleobiology", "query_jaspar", "query_worms", "query_cbioportal",
    "query_clinvar", "query_geo", "query_dbsnp", "query_ucsc", "query_ensembl",
    "query_opentarget", "query_monarch", "query_openfda", "query_clinicaltrials",
    "query_gwas_catalog", "query_gnomad", "query_reactome", "query_regulomedb",
    "query_pride", "query_gtopdb", "query_mpd", "query_emdb",
    "query_synapse"
  ]

  function ToolNames(tools: seq<Tool>): (r: seq<string>)
    ensures |r| == |tools| && forall i :: 0 <= i < |tools| ==> r[i] == tools[i].name
  {
    seq(|tools|, i requires 0 <= i < |tools| => tools[i].name)
  }

  /** The offered list is exactly the 28 names the chain handles, each once. */
  lemma AvailableToolsAreDispatched()
    ensures AvailableTools == ToolNames(Tools)
    ensures |AvailableTools| == 28
  {
    assert AvailableTools == ToolNames(Tools);
  }

  /** The first tool of the chain with this name. */
  function FindTool(tools: seq<Tool>, name: string): (r: Option<Tool>)
    ensures r.Some? <==> name in ToolNames(tools)
    ensures r.Some? ==> r.value in tools && r.value.name == name
  {
    if |tools| == 0 then None
    else if tools[0].name == name then Some(tools[0])
    else
      assert ToolNames(tools) == [tools[0].name] + ToolNames(tools[1..]);
      FindTool(tools[1..], name)
  }

  lemma FindToolAt(tools: seq<Tool>, i: nat)
    requires i < |tools| && forall j :: 0 <= j < i ==> tools[j].name != tools[i].name
    ensures FindTool(tools, tools[i].name) == Some(tools[i])
  {
    if i > 0 {
      FindToolAt(tools[1..], i - 1);
    }
  }

  /** The value a keyword argument receives: the event's value, or the default. */
  datatype Arg<V> = Passed(value: V) | Defaulted(default: Default)

  /** One call of a database function: its name and its keyword arguments in order. */
  datatype Call<V> = Call(tool: string, args: seq<(string, Arg<V>)>)

  /** `event.get(key, default)` for every parameter. */
  function Arguments<V>(params: seq<Param>, event: map<string, V>): (r: seq<(string, Arg<V>)>)
    ensures |r| == |params|
    ensures forall i :: 0 <= i < |params| ==> (r[i].0 == params[i].key
      && (params[i].key in event ==> r[i].1 == Passed(event[params[i].key]))
      && (params[i].key !in event ==> r[i].1 == Defaulted(params[i].default)))
  {
    seq(|params|, i requires 0 <= i < |params| =>
      var key := params[i].key;
      (key, if key in event then Passed(event[key]) else Defaulted(params[i].default)))
  }

  /** The call the chain makes for `name`, None when no branch matches. */
  function Dispatch<V>(name: string, event: map<string, V>): (r: Option<Call<V>>)
    ensures r.Some? <==> name in AvailableTools
    ensures r.Some? ==> r.value.tool == name
  {
    AvailableToolsAreDispatched();
    match FindTool(Tools, name)
    case None => None
    case Some(t) => Some(Call(t.name, Arguments(t.params, event)))
  }

  /** An empty event gets the documented defaults of `query_alphafold`. */
  lemma AlphafoldDefaults<V>()
    ensures Dispatch<V>("query_alphafold", map[]) == Some(Call("query_alphafold", [
      ("uniprot_id", Defaulted(NoDefault)), ("endpoint", Defaulted(StrDefault("prediction"))),
      ("residue_range", Defaulted(NoDefault)), ("download", Defaulted(BoolDefault(false))),
      ("output_dir", Defaulted(NoDefault)), ("file_format", Defaulted(StrDefault("pdb"))),
      ("model_version", Defaulted(StrDefault("v4"))), ("model_number", Defaulted(IntDefault(1)))]))
  {
    FindToolAt(Tools, 1);
    AlphafoldArguments<V>();
  }

  lemma AlphafoldArguments<V>()
    ensures Arguments<V>(Alphafold.params, map[]) == [
      ("uniprot_id", Defaulted(NoDefault)), ("endpoint", Defaulted(StrDefault("prediction"))),
      ("residue_range", Defaulted(NoDefault)), ("download", Defaulted(BoolDefault(false))),
      ("output_dir", Defaulted(NoDefault)), ("file_format", Defaulted(StrDefault("pdb"))),
      ("model_version", Defaulted(StrDefault("v4"))), ("model_number", Defaulted(IntDefault(1)))]
  {
  }

  /** An empty event gets the documented defaults of `query_synapse`; a supplied value wins. */
  lemma SynapseDefaults<V>(n: V)
    ensures Dispatch<V>("query_synapse", map["max_results" := n]) == Some(Call("query_synapse", [
      ("prompt", Defaulted(NoDefault)), ("query_term", Defaulted(NoDefault)),
      ("return_fields", Defaulted(ListDefault(["name", "node_type", "description"]))),
      ("max_results", Passed(n)), ("query_type", Defaulted(StrDefault("file"))),
      ("verbose", Defaulted(BoolDefault(true)))]))
  {
    SynapseFound();
    SynapseArguments(n);
  }

  lemma SynapseFound()
    ensures FindTool(Tools, "query_synapse") == Some(Synapse)
  {
    FindToolAt(Tools, 27);
  }

  lemma SynapseArguments<V>(n: V)
    ensures Arguments(Synapse.params, map["max_results" := n]) == [
      ("prompt", Defaulted(NoDefault)), ("query_term", Defaulted(NoDefault)),
      ("return_fields", Defaulted(ListDefault(["name", "node_type", "description"]))),
      ("max_results", Passed(n)), ("query_type", Defaulted(StrDefault("file"))),
      ("verbose", Defaulted(BoolDefault(true)))]
  {
    var m := map["max_results" := n];
    assert "prompt" !in m && "query_term" !in m && "return_fields" !in m;
    assert "query_type" !in m && "verbose" !in m;
  }

  // ---------------------------------------------------------------------------------------
  // The response

  /** What the database function did, and what turning its result into the body gave: a
      returned dict goes through `json.dumps`, anything else through `str`; either may raise
      (a dict holding a `datetime` is not JSON serializable), as may the function itself. An
      `Err` carries the `str()` of the exception, raised inside the handler's `try`. */
  datatype Outcome = ReturnedDict(json: Result<string, string>) | ReturnedOther(text: Result<string, string>) | Failed(message: string)

  /** The body a run produced, or the exception that stopped it. */
  function BodyOf(o: Outcome): Result<string, string> {
    match o
    case ReturnedDict(j) => j
    case ReturnedOther(t) => t
    case Failed(m) => Err(m)
  }

  datatype Response = Response(statusCode: nat, body: string)

  function UnknownToolBody(name: string): string {
    "{\"error\": " + Quote("Unknown tool: " + name) + ", \"available_tools\": ["
      + Join(seq(|AvailableTools|, i requires 0 <= i < |AvailableTools| => Quote(AvailableTools[i])), ", ")
      + "]}"
  }

  function InternalErrorBody(message: string, toolName: string): string {
    "{\"error\": " + Quote("Internal server error: " + message) + ", \"tool_name\": " + Quote(toolName) + "}"
  }

  const UnknownName: string := "unknown"

  /** `lambda_handler`: `toolField` is the `bedrockAgentCoreToolName` entry of the client
      context, or the exception reading it raised; `run` is what the called function did. */
  function LambdaHandler<V>(toolField: Result<string, string>, event: map<string, V>, run: Call<V> -> Outcome)
    : (r: Response)
    ensures r.statusCode == 200 || r.statusCode == 400 || r.statusCode == 500
    ensures toolField.Err? ==> r == Response(500, InternalErrorBody(toolField.error, UnknownName))
    ensures toolField.Ok? ==> var name := StripTarget(toolField.value);
      && (r.statusCode == 400 <==> name !in AvailableTools)
      && (r.statusCode == 400 ==> r.body == UnknownToolBody(name))
      && (r.statusCode == 200 <==> name in AvailableTools && BodyOf(run(Dispatch(name, event).value)).Ok?)
      && (r.statusCode == 200 ==> r.body == BodyOf(run(Dispatch(name, event).value)).value)
      && (r.statusCode == 500 ==> r.body == InternalErrorBody(BodyOf(run(Dispatch(name, event).value)).error, name))
  {
    match toolField
    case Err(m) => Response(500, InternalErrorBody(m, UnknownName))
    case Ok(raw) =>
      var name := StripTarget(raw);
      match Dispatch(name, event)
      case None => Response(400, UnknownToolBody(name))
      case Some(call) =>
        match BodyOf(run(call))
        case Ok(b) => Response(200, b)
        case Err(m) => Response(500, InternalErrorBody(m, name))
  }

  /** A known tool whose dict cannot be serialised answers 500 with the `TypeError` text and
      the tool name, not 200. */
  lemma UnserialisableDictFails<V>(raw: string, event: map<string, V>, run: Call<V> -> Outcome, message: string)
    requires StripTarget(raw) in AvailableTools
    requires run(Dispatch(StripTarget(raw), event).value) == ReturnedDict(Err(message))
    ensures LambdaHandler(Ok(raw), event, run) == Response(500, InternalErrorBody(message, StripTarget(raw)))
  {
  }
}

=== FILE: py_str.dfy ===
/** The handful of Python `str` operations the modelled code relies on, written over
    `seq<char>`: strip, startswith, the `in` substring test, replace, lower, split, join,
    and the decimal conversions behind f-strings and `int()`. */
module PyStr {
  import opened Wrappers
  import Seqs

  /** The message of the `IndexError` that indexing past the end of a list raises. */
  const ListIndexError: string := "list index out of range"

  /** The message of the `IndexError` that indexing past the end of a string raises. */
  const StrIndexError: string := "string index out of range"

  /** The characters Python's `str.isspace()` (and so argument-less `strip()`) treats as whitespace. */
  predicate IsSpace(c: char) {
    || c == ' '
    || ('\t' <= c <= '\r')
    || ('\U{1C}' <= c <= '\U{1F}')
    || c == '\U{85}' || c == '\U{A0}' || c == '\U{1680}'
    || ('\U{2000}' <= c <= '\U{200A}')
    || c == '\U{2028}' || c == '\U{2029}' || c == '\U{202F}' || c == '\U{205F}' || c == '\U{3000}'
  }

  /** Every character is whitespace, so `s.strip()` is empty and `not s.strip()` holds. */
  predicate IsBlank(s: string) {
    forall i :: 0 <= i < |s| ==> IsSpace(s[i])
  }

  /** `s.lstrip()`: the suffix left after dropping leading whitespace. */
  function LStrip(s: string): (r: string)
    ensures |r| <= |s| && r == s[|s| - |r|..]
    ensures |r| == 0 || !IsSpace(r[0])
    ensures IsBlank(s[..|s| - |r|])
  {
    if |s| > 0 && IsSpace(s[0]) then LStrip(s[1..]) else s
  }

  /** `s.rstrip()`: the prefix left after dropping trailing whitespace. */
  function RStrip(s: string): (r: string)
    ensures |r| <= |s| && r == s[..|r|]
    ensures |r| == 0 || !IsSpace(r[|r| - 1])
    ensures IsBlank(s[|r|..])
  {
    if |s| > 0 && IsSpace(s[|s| - 1]) then RStrip(s[..|s| - 1]) else s
  }

  /** `s.strip()`. */
  function Strip(s: string): (r: string)
    ensures |r| <= |s|
    ensures |r| == 0 || (!IsSpace(r[0]) && !IsSpace(r[|r| - 1]))
  {
    RStrip(LStrip(s))
  }

  /** `s.strip()` is empty exactly when `s` is all whitespace. */
  lemma StripEmptyIffBlank(s: string)
    ensures Strip(s) == [] <==> IsBlank(s)
  {
    var l := LStrip(s);
    if Strip(s) == [] {
      assert IsBlank(l[0..]);
      assert |l| == 0;
      assert s[..|s|] == s;
    }
  }

  /** Stripping twice is stripping once. */
  lemma StripIdempotent(s: string)
    ensures Strip(Strip(s)) == Strip(s)
  {
  }

  lemma {:induction false} LStripBlankPrefix(pre: string, s: string)
    requires IsBlank(pre)
    ensures LStrip(pre + s) == LStrip(s)
  {
    if |pre| == 0 {
      assert pre + s == s;
    } else {
      assert (pre + s)[1..] == pre[1..] + s;
      LStripBlankPrefix(pre[1..], s);
    }
  }

  lemma {:induction false} RStripBlankSuffix(s: string, post: string)
    requires IsBlank(post)
    ensures RStrip(s + post) == RStrip(s)
  {
    if |post| == 0 {
      assert s + post == s;
    } else {
      assert (s + post)[..|s + post| - 1] == s + post[..|post| - 1];
      RStripBlankSuffix(s, post[..|post| - 1]);
    }
  }

  /** Whitespace around a word with non-blank ends is exactly what `strip()` removes. */
  lemma StripPadded(pre: string, w: string, post: string)
    requires IsBlank(pre) && IsBlank(post)
    requires |w| == 0 || (!IsSpace(w[0]) && !IsSpace(w[|w| - 1]))
    ensures Strip(pre + w + post) == w
  {
    var s := pre + w + post;
    assert s == pre + (w + post);
    LStripBlankPrefix(pre, w + post);
    if |w| == 0 {
      assert w + post == post + [];
      LStripBlankPrefix(post, []);
      assert LStrip(s) == [];
    } else {
      assert (w + post)[0] == w[0];
      assert LStrip(s) == w + post;
      RStripBlankSuffix(w, post);
      assert RStrip(w) == w;
    }
  }

  predicate StartsWith(s: string, prefix: string) {
    |prefix| <= |s| && s[..|prefix|] == prefix
  }

  /** A string starts with any of its prefixes. */
  lemma PrefixStartsWith(a: string, b: string)
    ensures StartsWith(a + b, a)
  {
    assert (a + b)[..|a|] == a;
  }

  predicate EndsWith(s: string, suffix: string) {
    |suffix| <= |s| && s[|s| - |suffix|..] == suffix
  }

  /** A string ends with any of its suffixes. */
  lemma SuffixEndsWith(a: string, b: string)
    ensures EndsWith(a + b, b)
  {
    assert (a + b)[|a|..] == b;
  }

  /** Python's `needle in s` for strings. */
  predicate Contains(s: string, needle: string)
    decreases |s|
  {
    StartsWith(s, needle) || (|s| > 0 && Contains(s[1..], needle))
  }

  /** A prefix occurrence is an occurrence. */
  lemma ContainsPrefix(s: string, t: string, needle: string)
    requires Contains(s, needle)
    ensures Contains(s + t, needle)
    decreases |s|
  {
    if StartsWith(s, needle) {
      assert (s + t)[..|needle|] == s[..|needle|];
    } else {
      assert (s + t)[1..] == s[1..] + t;
      ContainsPrefix(s[1..], t, needle);
    }
  }

  /** `s.replace(pattern, replacement)`: left-to-right, non-overlapping. */
  function ReplaceAll(s: string, pattern: string, replacement: string): (r: string)
    requires |pattern| > 0
    ensures !Contains(s, pattern) ==> r == s
    decreases |s|
  {
    if |s| < |pattern| then s
    else if s[..|pattern|] == pattern then replacement + ReplaceAll(s[|pattern|..], pattern, replacement)
    else [s[0]] + ReplaceAll(s[1..], pattern, replacement)
  }

  /** ASCII case mapping of `str.lower()`. */
  function LowerChar(c: char): char {
    if 'A' <= c <= 'Z' then (c as int + 32) as char else c
  }

  function Lower(s: string): string {
    seq(|s|, i requires 0 <= i < |s| => LowerChar(s[i]))
  }

  /** Position of the first `c` in `s`, as `s.index(c)` finds it. */
  function IndexOf(s: string, c: char): (r: Option<nat>)
    ensures r.Some? ==> r.value < |s| && s[r.value] == c && c !in s[..r.value]
    ensures r.None? ==> c !in s
  {
    if |s| == 0 then None
    else if s[0] == c then Some(0)
    else match IndexOf(s[1..], c)
      case None => None
      case Some(i) => Some(i + 1)
  }

  /** `s.split(c, 1)[1]` when `c` occurs: everything after the first `c`. */
  function AfterFirst(s: string, c: char): string
    requires c in s
  {
    var i := IndexOf(s, c).value;
    s[i + 1..]
  }

  /** The first occurrence of `c` in `p` is still the first one once text is appended. */
  lemma {:induction false} IndexOfAppend(p: string, rest: string, c: char)
    requires c in p
    ensures IndexOf(p + rest, c) == IndexOf(p, c)
    ensures AfterFirst(p + rest, c) == AfterFirst(p, c) + rest
    decreases |p|
  {
    assert (p + rest)[0] == p[0];
    if p[0] != c {
      assert p == [p[0]] + p[1..];
      assert (p + rest)[1..] == p[1..] + rest;
      IndexOfAppend(p[1..], rest, c);
    }
    var i := IndexOf(p, c).value;
    assert (p + rest)[i + 1..] == p[i + 1..] + rest;
  }

  /** `IndexOf` finds the position `k` when `s[k]` is the first `c`. */
  lemma {:induction false} IndexOfAt(s: string, c: char, k: nat)
    requires k < |s| && s[k] == c && c !in s[..k]
    ensures IndexOf(s, c) == Some(k)
    decreases k
  {
    if k > 0 {
      assert s[..k][0] == s[0];
      assert s[1..][k - 1] == c;
      assert s[1..][..k - 1] == s[..k][1..];
      IndexOfAt(s[1..], c, k - 1);
    }
  }

  /** Splitting at the first `c` of `head + [c] + rest`, where `head` has no `c`, leaves `rest`. */
  lemma AfterFirstHead(head: string, c: char, rest: string)
    requires c !in head
    ensures c in head + [c] + rest
    ensures AfterFirst(head + [c] + rest, c) == rest
  {
    var s := head + [c] + rest;
    assert s[..|head|] == head;
    IndexOfAt(s, c, |head|);
    assert s[|head| + 1..] == rest;
  }

  /** A string that contains `needle` contains its first character. */
  lemma {:induction false} ContainsHead(s: string, needle: string)
    requires |needle| > 0 && Contains(s, needle)
    ensures needle[0] in s
    decreases |s|
  {
    if !StartsWith(s, needle) {
      ContainsHead(s[1..], needle);
      assert s == [s[0]] + s[1..];
    } else {
      assert s[0] == needle[0];
    }
  }

  /** `s.split(c)` for a one-character separator: the pieces between occurrences of `c`,
      which `c.join` puts back together. */
  function Split(s: string, c: char): (r: seq<string>)
    ensures |r| > 0
    ensures forall k :: 0 <= k < |r| ==> c !in r[k]
    ensures Join(r, [c]) == s
    decreases |s|
  {
    match IndexOf(s, c)
    case None => [s]
    case Some(i) =>
      var rest := Split(s[i + 1..], c);
      assert s == s[..i] + [c] + s[i + 1..];
      [s[..i]] + rest
  }

  /** `s.split(c)[0]`: everything before the first `c`, or all of `s`. */
  function BeforeFirst(s: string, c: char): (r: string)
    ensures c !in r && StartsWith(s, r)
    ensures c !in s ==> r == s
    ensures c in s ==> |r| < |s| && s[|r|] == c
  {
    match IndexOf(s, c)
    case None => s
    case Some(i) => s[..i]
  }

  /** `s.split(c)[-1]`: the text after the last `c`, or all of `s` when there is none. */
  function LastSegment(s: string, c: char): (r: string)
    ensures c !in r
    ensures |r| <= |s| && r == s[|s| - |r|..]
    ensures |r| < |s| ==> s[|s| - |r| - 1] == c
  {
    if |s| == 0 then s
    else if s[|s| - 1] == c then []
    else
      var init := s[..|s| - 1];
      var q := LastSegment(init, c);
      var r := q + [s[|s| - 1]];
      assert c !in r;
      assert s[|s| - |r|..] == init[|init| - |q|..] + [s[|s| - 1]];
      assert |r| < |s| ==> s[|s| - |r| - 1] == init[|init| - |q| - 1];
      r
  }

  /** `sep.join(parts)`. */
  function Join(parts: seq<string>, sep: string): string {
    if |parts| == 0 then ""
    else if |parts| == 1 then parts[0]
    else parts[0] + sep + Join(parts[1..], sep)
  }

  predicate IsDigit(c: char) {
    '0' <= c <= '9'
  }

  predicate AllDigits(s: string) {
    forall i :: 0 <= i < |s| ==> IsDigit(s[i])
  }

  function DigitChar(d: nat): char
    requires d < 10
  {
    ('0' as int + d) as char
  }

  /** Decimal rendering of a natural number, as an f-string prints an `int`. */
  function NatToString(n: nat): (r: string)
    ensures |r| > 0 && AllDigits(r)
  {
    if n < 10 then [DigitChar(n)] else NatToString(n / 10) + [DigitChar(n % 10)]
  }

  function DigitsValue(s: string): nat
    requires AllDigits(s)
  {
    if |s| == 0 then 0 else DigitsValue(s[..|s| - 1]) * 10 + (s[|s| - 1] as int - '0' as int)
  }

  /** `int(s)` for an already stripped string: an optional sign and one or more ASCII digits. */
  function ParseInt(s: string): Option<int> {
    if |s| > 0 && (s[0] == '+' || s[0] == '-') then
      if |s| > 1 && AllDigits(s[1..]) then
        Some(if s[0] == '-' then -(DigitsValue(s[1..]) as int) else DigitsValue(s[1..]))
      else None
    else if |s| > 0 && AllDigits(s) then Some(DigitsValue(s))
    else None
  }

  lemma {:induction false} DigitsOfNat(n: nat)
    ensures DigitsValue(NatToString(n)) == n
  {
    var r := NatToString(n);
    if n >= 10 {
      DigitsOfNat(n / 10);
      assert r[..|r| - 1] == NatToString(n / 10);
    }
  }

  /** `int()` reads back what an f-string printed, with or without a minus sign. */
  lemma ParseIntRoundTrip(n: nat)
    ensures ParseInt(NatToString(n)) == Some(n)
    ensures ParseInt("-" + NatToString(n)) == Some(-(n as int))
  {
    DigitsOfNat(n);
    var t := NatToString(n);
    assert ("-" + t)[1..] == t;
  }

  /** The first three items joined by `sep`, followed by " (and k more)" when k > 0 were left out. */
  function Abbreviate(items: seq<string>, sep: string): string {
    if |items| <= 3 then Join(items, sep)
    else Join(items[..3], sep) + " (and " + NatToString(|items| - 3) + " more)"
  }

  /** A list longer than three shows exactly its first three items, then the count of the
      others. */
  lemma AbbreviateLong(items: seq<string>, sep: string)
    requires |items| > 3
    ensures Abbreviate(items, sep)
         == items[0] + sep + items[1] + sep + items[2] + " (and " + NatToString(|items| - 3) + " more)"
  {
    assert items[..3] == [items[0], items[1], items[2]];
    JoinThree(items[0], items[1], items[2], sep);
  }

  lemma JoinThree(a: string, b: string, c: string, sep: string)
    ensures Join([a, b, c], sep) == a + sep + b + sep + c
  {
    assert [a, b, c][1..] == [b, c];
    assert [b, c][1..] == [c];
    assert Join([c], sep) == c;
    assert Join([b, c], sep) == b + sep + c;
    assert Join([a, b, c], sep) == a + sep + (b + sep + c);
    Seqs.AppendAssoc(a + sep, b + sep, c);
  }
}

=== FILE: report.dfy ===
/** The report writer (labs/01-agents/04-multi-agent-orchestration/generate_report.py): the
    evidence records turned into citable documents, the model request built around them,
    and the inline citation formatting of the model's answer. The evidence table, the model
    call and JSON decoding are supplied from outside. */
module Report {
  import opened Wrappers
  import opened PyStr

  // ---------------------------------------------------------------------------------------
  // format_inline_citations

  /** One content item of the model's answer: its text and the `document_title` of each of
      its citations, in order. */
  datatype Item = Item(text: string, titles: seq<string>)

  /** The characters a citation is slipped in front of. */
  predicate IsPunct(c: char) {
    c == '.' || c == ',' || c == '?' || c == '!'
  }

  function Marker(title: string): string {
    " (" + title + ")"
  }

  /** One citation appended to non-empty `output`: before a final punctuation mark, which
      stays last, or at the end. */
  function Cite(output: string, title: string): (r: string)
    requires |output| > 0
    ensures |r| == |output| + |title| + 3
    ensures r[|r| - 1] == if IsPunct(output[|output| - 1]) then output[|output| - 1] else ')'
    ensures IsPunct(output[|output| - 1]) ==>
      r == output[..|output| - 1] + Marker(title) + [output[|output| - 1]]
    ensures !IsPunct(output[|output| - 1]) ==> r == output + Marker(title)
  {
    var last := output[|output| - 1];
    if IsPunct(last) then output[..|output| - 1] + Marker(title) + [last]
    else output + Marker(title)
  }

  /** Taking a citation back out, given the title it named. */
  function Uncite(r: string, title: string): string
    requires |r| > |Marker(title)|
  {
    var last := r[|r| - 1];
    if IsPunct(last) then r[..|r| - 1 - |Marker(title)|] + [last]
    else r[..|r| - |Marker(title)|]
  }

  /** Nothing of the text is lost: removing the citation gives back the text it was added to. */
  lemma UnciteCite(output: string, title: string)
    requires |output| > 0
    ensures Uncite(Cite(output, title), title) == output
  {
    var r := Cite(output, title);
    var last := output[|output| - 1];
    if IsPunct(last) {
      assert r[..|r| - 1 - |Marker(title)|] == output[..|output| - 1];
      assert output == output[..|output| - 1] + [last];
    } else {
      assert r[..|r| - |Marker(title)|] == output;
    }
  }

  /** The citations of one item, in order; a citation while nothing has been written fails. */
  function CiteAll(output: string, titles: seq<string>): (r: Result<string, string>)
    ensures r.Err? <==> |titles| > 0 && |output| == 0
    ensures r.Err? ==> r.error == StrIndexError
    ensures r.Ok? ==> |r.value| == |output| + TitlesLength(titles)
    ensures |titles| == 0 ==> r == Ok(output)
    decreases |titles|
  {
    if |titles| == 0 then Ok(output)
    else if |output| == 0 then Err(StrIndexError)
    else
      var r := CiteAll(Cite(output, titles[0]), titles[1..]);
      assert TitlesLength(titles) == |titles[0]| + 3 + TitlesLength(titles[1..]);
      r
  }

  /** What the markers of `titles` add: `len(title) + 3` each. */
  function TitlesLength(titles: seq<string>): nat {
    if |titles| == 0 then 0 else |titles[0]| + 3 + TitlesLength(titles[1..])
  }

  /** The texts of the items, concatenated. */
  function Texts(items: seq<Item>): string {
    if |items| == 0 then "" else Texts(items[..|items| - 1]) + items[|items| - 1].text
  }

  /** What all the markers add together. */
  function CitationsLength(items: seq<Item>): nat {
    if |items| == 0 then 0 else CitationsLength(items[..|items| - 1]) + TitlesLength(items[|items| - 1].titles)
  }

  /** `format_inline_citations` over the answer's content items. */
  function FormatInline(items: seq<Item>): (r: Result<string, string>)
    ensures r.Ok? ==> |r.value| == |Texts(items)| + CitationsLength(items)
    ensures r.Ok? ==> (|r.value| == 0 <==> |Texts(items)| == 0)
  {
    if |items| == 0 then Ok("")
    else match FormatInline(items[..|items| - 1])
      case Err(e) => Err(e)
      case Ok(prev) => CiteAll(prev + items[|items| - 1].text, items[|items| - 1].titles)
  }

  predicate Uncited(items: seq<Item>) {
    forall i :: 0 <= i < |items| ==> |items[i].titles| == 0
  }

  /** Without citations the report is the item texts run together. */
  lemma {:induction false} UncitedIsConcatenation(items: seq<Item>)
    requires Uncited(items)
    ensures FormatInline(items) == Ok(Texts(items))
  {
    if |items| > 0 {
      UncitedIsConcatenation(items[..|items| - 1]);
    }
  }

  /** Item `i` carries a citation while the texts up to and including it are all empty. */
  predicate CitesBeforeText(items: seq<Item>, i: nat)
    requires i < |items|
  {
    |items[i].titles| > 0 && |Texts(items[..i + 1])| == 0
  }

  lemma CitesBeforeTextPrefix(items: seq<Item>, i: nat)
    requires i < |items| - 1
    ensures CitesBeforeText(items, i) == CitesBeforeText(items[..|items| - 1], i)
  {
    assert items[..|items| - 1][..i + 1] == items[..i + 1];
  }

  /** The formatting fails exactly when some item carries a citation while nothing has been
      written yet. */
  lemma {:induction false} FormatFailsIff(items: seq<Item>)
    ensures FormatInline(items).Err? <==> exists i :: 0 <= i < |items| && CitesBeforeText(items, i)
  {
    if |items| > 0 {
      var n := |items|;
      var init := items[..n - 1];
      FormatFailsIff(init);
      FormatStep(items);
      if FormatInline(items).Err? {
        if FormatInline(init).Err? {
          var i :| 0 <= i < n - 1 && CitesBeforeText(init, i);
          CitesBeforeTextPrefix(items, i);
        }
      } else {
        forall i | 0 <= i < n ensures !CitesBeforeText(items, i) {
          if i < n - 1 {
            CitesBeforeTextPrefix(items, i);
          }
        }
      }
    }
  }

  /** Adding an item makes the formatting fail exactly when it failed already or the new
      item cites while every text so far is empty. */
  lemma FormatStep(items: seq<Item>)
    requires |items| > 0
    ensures FormatInline(items).Err?
      <==> FormatInline(items[..|items| - 1]).Err? || CitesBeforeText(items, |items| - 1)
  {
    assert items[..|items|] == items;
  }

  // ---------------------------------------------------------------------------------------
  // parse_db_records and the request of generate_report

  /** An evidence record as the table returns it: its passages (None when the attribute is
      missing), its source and its answer. */
  datatype Record = Record(context: Option<seq<string>>, source: Option<string>, answer: Option<string>)

  /** A content block of the request: a text block, or a citable document made of text blocks. */
  datatype Block =
    | TextBlock(text: string)
    | Document(passages: seq<Block>, title: Option<string>, context: Option<string>, citations: bool)

  const NoneGetText: string := "'NoneType' object has no attribute 'get'"
  const NoneIterText: string := "'NoneType' object is not iterable"

  /** One record as a document: a text block per passage, titled by its source, with the
      answer as context and citations enabled. */
  function ToDocument(r: Option<Record>): (d: Result<Block, string>)
    ensures r.None? ==> d == Err(NoneGetText)
    ensures r.Some? && r.value.context.None? ==> d == Err(NoneIterText)
    ensures d.Ok? ==> (d.value.Document? && d.value.citations
      && d.value.title == r.value.source && d.value.context == r.value.answer
      && |d.value.passages| == |r.value.context.value|
      && forall j :: 0 <= j < |d.value.passages| ==> d.value.passages[j] == TextBlock(r.value.context.value[j]))
  {
    match r
    case None => Err(NoneGetText)
    case Some(rec) =>
      match rec.context
      case None => Err(NoneIterText)
      case Some(ps) =>
        Ok(Document(seq(|ps|, j requires 0 <= j < |ps| => TextBlock(ps[j])), rec.source, rec.answer, true))
  }

  /** Reading a document back: its passages' texts, title and context. */
  function RecordOf(d: Block): Record {
    match d
    case TextBlock(t) => Record(None, None, Some(t))
    case Document(ps, title, context, _) =>
      Record(Some(seq(|ps|, j requires 0 <= j < |ps| => if ps[j].TextBlock? then ps[j].text else "")), title, context)
  }

  /** The document carries everything of the record that the report uses. */
  lemma RecordOfDocument(r: Record)
    requires r.context.Some?
    ensures ToDocument(Some(r)).Ok? && RecordOf(ToDocument(Some(r)).value) == r
  {
    var d := ToDocument(Some(r)).value;
    assert RecordOf(d).context.value == r.context.value;
  }

  /** `parse_db_records`: the records in order, the first unusable one failing the call. */
  function ParseDbRecords(records: seq<Option<Record>>): (r: Result<seq<Block>, string>)
    ensures r.Ok? ==> (|r.value| == |records|
      && forall i :: 0 <= i < |records| ==> ToDocument(records[i]) == Ok(r.value[i]))
    ensures r.Err? ==> exists i :: 0 <= i < |records| && ToDocument(records[i]).Err?
    ensures r.Ok? <==> forall i :: 0 <= i < |records| ==> ToDocument(records[i]).Ok?
    ensures r.Err? ==>
      exists i :: 0 <= i < |records| && ToDocument(records[i]) == Err(r.error) && forall j :: 0 <= j < i ==> ToDocument(records[j]).Ok?
  {
    MapAllPointwise(ToDocument, records);
    MapAll(ToDocument, records)
  }

  const AnthropicVersion: string := "bedrock-2023-05-31"
  const MaxTokens: nat := 10000
  const ModelId: string := "us.anthropic.claude-sonnet-4-20250514-v1:0"

  /** The body sent to `invoke_model`: one user message holding `content`. */
  datatype ModelRequest = ModelRequest(modelId: string, version: string, maxTokens: nat, content: seq<Block>)

  /** The request `generate_report` sends: the evidence documents in the order of
      `evidence_ids`, then the prompt as the one text block; `lookup` is the evidence table. */
  function ReportRequest(prompt: string, evidenceIds: seq<string>, lookup: string -> Option<Record>)
    : (r: Result<ModelRequest, string>)
    ensures r.Ok? ==> r.value.modelId == ModelId && r.value.maxTokens == MaxTokens
    ensures r.Ok? ==> (|r.value.content| == |evidenceIds| + 1
      && r.value.content[|evidenceIds|] == TextBlock(prompt)
      && forall i :: 0 <= i < |evidenceIds| ==> Ok(r.value.content[i]) == ToDocument(lookup(evidenceIds[i])))
    ensures r.Err? <==> exists i :: 0 <= i < |evidenceIds| && ToDocument(lookup(evidenceIds[i])).Err?
  {
    var records := seq(|evidenceIds|, i requires 0 <= i < |evidenceIds| => lookup(evidenceIds[i]));
    match ParseDbRecords(records)
    case Err(e) => Err(e)
    case Ok(docs) => Ok(ModelRequest(ModelId, AnthropicVersion, MaxTokens, docs + [TextBlock(prompt)]))
  }

  /** `generate_report`: the request, and the answer `reply` formatted with inline citations. */
  function GenerateReport(prompt: string, evidenceIds: seq<string>, lookup: string -> Option<Record>,
                          reply: seq<Item>)
    : (r: Result<string, string>)
    ensures ReportRequest(prompt, evidenceIds, lookup).Err? ==> r.Err?
    ensures ReportRequest(prompt, evidenceIds, lookup).Ok? ==> r == FormatInline(reply)
  {
    match ReportRequest(prompt, evidenceIds, lookup)
    case Err(e) => Err(e)
    case Ok(_) => FormatInline(reply)
  }
}

=== FILE: response_handler.dfy ===
/** `ResponseHandler` (src/workshop_tools/response_handler.py): renders an agent response as a
    transcript of terminal writes. The streaming path is a fold over lines carrying one flag,
    "the last write was prose". `json.loads` is the classifying oracle `parse`, and
    `json.dumps(.., indent=2)` is the oracle `dumps`. */
module ResponseHandler {
  import opened Wrappers
  import opened PyStr
  import opened JsonValue

  /** The colour a write asks for; `Plain` is an uncoloured `click.echo`. */
  datatype Color = Plain | Green | Cyan

  /** One terminal write: its text, colour, and whether a newline follows. */
  datatype Out = Out(text: string, color: Color, newline: bool)

  /** `click.echo()`. */
  const Blank: Out := Out("", Plain, true)

  const ToolHead: string := "\U{1F527} Using tool"
  const ToolMarker: string := ToolHead + ":"
  const LoopHead: string := "start_event_loop"
  const LoopMarker: string := LoopHead + ":"
  const EventLoopMarker: string := "\U{1F504} Event loop"
  const ToolPrefix: string := "\U{1F527} Using tool: "

  /** `_is_strands_event_marker`: one of the three markers occurs anywhere in the line. */
  predicate IsMarker(text: string) {
    Contains(text, ToolMarker) || Contains(text, LoopMarker) || Contains(text, EventLoopMarker)
  }

  /** `_format_tool_usage`. */
  function FormatToolUsage(line: string): string {
    if ':' in line then ToolPrefix + Strip(AfterFirst(line, ':')) else line
  }

  /** `_format_event_loop_marker`. */
  function FormatEventLoopMarker(line: string): string {
    if ':' in line then Strip(AfterFirst(line, ':')) else line
  }

  /** A tool line is shown as the marker, one space, and the trimmed tool name. */
  lemma ToolUsageName(rest: string)
    ensures FormatToolUsage(ToolMarker + rest) == ToolPrefix + Strip(rest)
  {
    assert ToolMarker + rest == ToolHead + [':'] + rest;
    AfterFirstHead(ToolHead, ':', rest);
  }

  /** An event-loop line is shown as its trimmed timestamp. */
  lemma EventLoopTimestamp(rest: string)
    ensures FormatEventLoopMarker(LoopMarker + rest) == Strip(rest)
  {
    assert LoopMarker + rest == LoopHead + [':'] + rest;
    AfterFirstHead(LoopHead, ':', rest);
  }

  /** `_format_event_marker`, which nothing calls: a tool or event-loop line is formatted,
      anything else is returned as it is. */
  function FormatEventMarker(content: string): (r: string)
    ensures StartsWith(content, ToolMarker) ==> r == ToolPrefix + Strip(content[|ToolMarker|..])
    ensures StartsWith(content, LoopMarker) ==> r == Strip(content[|LoopMarker|..])
    ensures !StartsWith(content, ToolMarker) && !StartsWith(content, LoopMarker) ==> r == content
  {
    StartingMarkers(content);
    if StartsWith(content, ToolMarker) then
      assert content == ToolMarker + content[|ToolMarker|..];
      ToolUsageName(content[|ToolMarker|..]);
      FormatToolUsage(content)
    else if StartsWith(content, LoopMarker) then
      assert content == LoopMarker + content[|LoopMarker|..];
      EventLoopTimestamp(content[|LoopMarker|..]);
      FormatEventLoopMarker(content)
    else content
  }

  /** The three replacements applied to prose, in their order. */
  function Unescape(text: string): string {
    ReplaceAll(ReplaceAll(ReplaceAll(text, "\\n", "\n"), "\\\"", "\""), "\\'", "'")
  }

  /** Prose without a backslash is shown unchanged. */
  lemma UnescapePlain(text: string)
    requires '\\' !in text
    ensures Unescape(text) == text
  {
    if Contains(text, "\\n") { ContainsHead(text, "\\n"); }
    if Contains(text, "\\\"") { ContainsHead(text, "\\\""); }
    if Contains(text, "\\'") { ContainsHead(text, "\\'"); }
  }

  /** A line that starts with a marker is a marker line, and no line starts with both. */
  lemma StartingMarkers(text: string)
    ensures StartsWith(text, ToolMarker) ==> IsMarker(text)
    ensures StartsWith(text, LoopMarker) ==> IsMarker(text) && !StartsWith(text, ToolMarker)
  {
    if StartsWith(text, LoopMarker) {
      assert text[0] == LoopMarker[0] == 's';
      assert ToolMarker[0] == '\U{1F527}';
    }
  }

  /** The writes of one step and the flag after it. */
  datatype Step = Step(outs: seq<Out>, wasText: bool)

  /** `_format_and_display_text`. */
  function FormatAndDisplay(text: string, wasText: bool): (r: Step)
    ensures r.wasText <==> !IsMarker(text)
    ensures !IsMarker(text) ==> r.outs == (if wasText then [] else [Blank]) + [Out(Unescape(text), Green, false)]
    ensures IsMarker(text) ==> |r.outs| > 0 && r.outs[|r.outs| - 1].color == Cyan && r.outs[|r.outs| - 1].newline
    ensures StartsWith(text, ToolMarker) ==>
      r.outs == (if wasText then [Blank] else []) + [Out(ToolPrefix + Strip(text[|ToolMarker|..]), Cyan, true)]
    ensures StartsWith(text, LoopMarker) ==> r.outs == [Blank, Out(Strip(text[|LoopMarker|..]), Cyan, true)]
    ensures IsMarker(text) && !StartsWith(text, ToolMarker) && !StartsWith(text, LoopMarker) ==> r.outs == [Out(text, Cyan, true)]
  {
    StartingMarkers(text);
    if IsMarker(text) then
      if StartsWith(text, ToolMarker) then
        assert text == ToolMarker + text[|ToolMarker|..];
        ToolUsageName(text[|ToolMarker|..]);
        Step((if wasText then [Blank] else []) + [Out(FormatToolUsage(text), Cyan, true)], false)
      else if StartsWith(text, LoopMarker) then
        assert text == LoopMarker + text[|LoopMarker|..];
        EventLoopTimestamp(text[|LoopMarker|..]);
        Step([Blank, Out(FormatEventLoopMarker(text), Cyan, true)], false)
      else Step([Out(text, Cyan, true)], false)
    else Step((if wasText then [] else [Blank]) + [Out(Unescape(text), Green, false)], true)
  }

  const TextKeys: seq<string> := ["text", "content", "message"]

  /** The value of `d.get("text") or d.get("content") or d.get("message") or
      d.get("delta", {}).get("text")`, or the `AttributeError` text when the last operand is
      reached and `delta` is present but not a dict. */
  function DictText(fields: map<string, JValue>): (r: Result<JValue, string>)
    ensures r.Err? <==> !Truthy(FirstTruthy(fields, TextKeys)) && "delta" in fields && !fields["delta"].JObj?
    ensures Truthy(FirstTruthy(fields, TextKeys)) ==> r == Ok(FirstTruthy(fields, TextKeys))
    ensures r.Ok? && !Truthy(FirstTruthy(fields, TextKeys)) ==>
      r.value == if "delta" in fields then Get(fields["delta"].fields, "text") else JNull
  {
    var first := FirstTruthy(fields, TextKeys);
    if Truthy(first) then Ok(first)
    else if "delta" !in fields then Ok(JNull)
    else match fields["delta"]
      case JObj(inner, _) => Ok(Get(inner, "text"))
      case other => Err("'" + TypeName(other) + "' object has no attribute 'get'")
  }

  /** `_display_content`: an object shows its text field without a newline (or its `str()`
      on a line of its own), a string goes to the marker/prose classification, other JSON
      values show their `str()`, and text that is not JSON is classified as it is. */
  function DisplayContent(content: string, wasText: bool, parse: string -> Decoded): (r: Result<Step, string>)
    ensures parse(content).DecodeError? ==> r == Ok(FormatAndDisplay(content, wasText))
    ensures parse(content).Parsed? && parse(content).value.JStr? ==> r == Ok(FormatAndDisplay(parse(content).value.s, wasText))
    ensures r.Err? ==> parse(content).Parsed? && parse(content).value.JObj?
    ensures parse(content).Parsed? && !parse(content).value.JStr? && r.Ok? ==>
      r.value.wasText == wasText && |r.value.outs| == 1 && r.value.outs[0].color == Green
    ensures parse(content).Parsed? && parse(content).value.JObj? ==>
      var v := parse(content).value;
      var first := FirstTruthy(v.fields, TextKeys);
      && (Truthy(first) ==> r == Ok(Step([Out(Display(first), Green, false)], wasText)))
      && (DictText(v.fields).Err? ==> r == Err(DictText(v.fields).error))
      && (DictText(v.fields).Ok? ==> r == Ok(Step(
            if Truthy(DictText(v.fields).value) then [Out(Display(DictText(v.fields).value), Green, false)]
            else [Out(v.text, Green, true)], wasText)))
    ensures parse(content).Parsed? && !parse(content).value.JObj? && !parse(content).value.JStr? ==>
      r == Ok(Step([Out(Display(parse(content).value), Green, false)], wasText))
  {
    match parse(content)
    case DecodeError(_) => Ok(FormatAndDisplay(content, wasText))
    case Parsed(v) =>
      match v
      case JStr(s) => Ok(FormatAndDisplay(s, wasText))
      case JObj(fields, repr) =>
        (match DictText(fields)
         case Err(e) => Err(e)
         case Ok(t) =>
           Ok(Step(if Truthy(t) then [Out(Display(t), Green, false)] else [Out(repr, Green, true)], wasText)))
      case _ => Ok(Step([Out(Display(v), Green, false)], wasText))
  }

  /** No line starts with both "data: " and "event: ". */
  lemma LinePrefixesDisjoint(line: string)
    ensures StartsWith(line, "event: ") ==> !StartsWith(line, "data: ")
  {
    if StartsWith(line, "event: ") {
      assert line[0] == 'e';
      assert "data: "[0] == 'd';
    }
  }

  /** `_process_stream_line`: blank lines and empty or "[DONE]" data are skipped; an event
      line shows its type unless it is a keep-alive; anything else is content. */
  function ProcessLine(line: string, wasText: bool, parse: string -> Decoded): (r: Result<Step, string>)
    ensures IsBlank(line) ==> r == Ok(Step([], wasText))
    ensures StartsWith(line, "data: ") && (IsBlank(line[6..]) || Strip(line[6..]) == "[DONE]") ==> r == Ok(Step([], wasText))
    ensures StartsWith(line, "data: ") && !IsBlank(line) ==> r == if IsBlank(line[6..]) || Strip(line[6..]) == "[DONE]" then Ok(Step([], wasText)) else DisplayContent(line[6..], wasText, parse)
    ensures StartsWith(line, "event: ") && !IsBlank(line) ==>
      r == Ok(Step(if line[7..] == "ping" || line[7..] == "heartbeat" then [] else [Out("\U{1F504} " + line[7..], Cyan, true)], wasText))
    ensures !IsBlank(line) && !StartsWith(line, "data: ") && !StartsWith(line, "event: ") ==> r == DisplayContent(line, wasText, parse)
  {
    LinePrefixesDisjoint(line);
    if IsBlank(line) then Ok(Step([], wasText))
    else if StartsWith(line, "data: ") then
      var data := line[6..];
      if IsBlank(data) || Strip(data) == "[DONE]" then Ok(Step([], wasText))
      else DisplayContent(data, wasText, parse)
    else if StartsWith(line, "event: ") then
      var eventType := line[7..];
      if eventType == "ping" || eventType == "heartbeat" then Ok(Step([], wasText))
      else Ok(Step([Out("\U{1F504} " + eventType, Cyan, true)], wasText))
    else DisplayContent(line, wasText, parse)
  }

  /** What iterating a stream yields: a decoded line, or an exception (a read failure or
      bytes that are not UTF-8). */
  datatype StreamItem = Line(text: string) | StreamFault(detail: string)

  /** The writes so far, the flag, and the exception that stopped the loop, if any. */
  datatype Run = Run(outs: seq<Out>, wasText: bool, failure: Option<string>)

  /** A loop over `items` that threads the flag through `step` and stops at the first
      exception. */
  function RunSteps<I>(step: (I, bool) -> Result<Step, string>, items: seq<I>, wasText: bool): (r: Run)
    ensures r.failure.None? && |items| > 0 ==> step(items[0], wasText).Ok?
    decreases |items|
  {
    if |items| == 0 then Run([], wasText, None)
    else match step(items[0], wasText)
      case Err(d) => Run([], wasText, Some(d))
      case Ok(s) =>
        var rest := RunSteps(step, items[1..], s.wasText);
        Run(s.outs + rest.outs, rest.wasText, rest.failure)
  }

  /** The loop distributes over concatenation of its input. */
  lemma {:induction false} RunStepsAppend<I>(step: (I, bool) -> Result<Step, string>, a: seq<I>, b: seq<I>, wasText: bool)
    ensures var ra := RunSteps(step, a, wasText);
      RunSteps(step, a + b, wasText)
        == if ra.failure.Some? then ra
           else var rb := RunSteps(step, b, ra.wasText); Run(ra.outs + rb.outs, rb.wasText, rb.failure)
    decreases |a|
  {
    if |a| == 0 {
      assert a + b == b;
      assert [] + RunSteps(step, b, wasText).outs == RunSteps(step, b, wasText).outs;
    } else {
      assert (a + b)[0] == a[0];
      assert (a + b)[1..] == a[1..] + b;
      var s := step(a[0], wasText);
      if s.Ok? {
        RunStepsAppend(step, a[1..], b, s.value.wasText);
        var r1 := RunSteps(step, a[1..], s.value.wasText);
        if r1.failure.None? {
          var rb := RunSteps(step, b, r1.wasText);
          assert s.value.outs + (r1.outs + rb.outs) == (s.value.outs + r1.outs) + rb.outs;
        }
      }
    }
  }

  /** A leading item that prints nothing and keeps the flag can be dropped. */
  lemma SilentStepRuns<I>(step: (I, bool) -> Result<Step, string>, x: I, b: seq<I>, wasText: bool)
    requires step(x, wasText) == Ok(Step([], wasText))
    ensures RunSteps(step, [x] + b, wasText) == RunSteps(step, b, wasText)
  {
    assert ([x] + b)[0] == x;
    assert ([x] + b)[1..] == b;
    assert [] + RunSteps(step, b, wasText).outs == RunSteps(step, b, wasText).outs;
  }

  /** One iteration: an empty line is skipped, any other is trimmed and processed, and a
      fault is the exception that ends the loop. */
  function StepItem(item: StreamItem, wasText: bool, parse: string -> Decoded): (r: Result<Step, string>)
    ensures item.StreamFault? ==> r == Err(item.detail)
    ensures item.Line? && |item.text| == 0 ==> r == Ok(Step([], wasText))
    ensures item.Line? && |item.text| > 0 ==> r == ProcessLine(Strip(item.text), wasText, parse)
  {
    match item
    case StreamFault(d) => Err(d)
    case Line(t) => if |t| == 0 then Ok(Step([], wasText)) else ProcessLine(Strip(t), wasText, parse)
  }

  /** The loop over the stream. */
  function Fold(items: seq<StreamItem>, wasText: bool, parse: string -> Decoded): Run {
    RunSteps((item: StreamItem, w: bool) => StepItem(item, w, parse), items, wasText)
  }

  /** Splitting the input anywhere gives the same transcript: the fold over `a + b` is the
      fold over `a` followed, from its final flag, by the fold over `b`, unless `a` failed. */
  lemma FoldAppend(a: seq<StreamItem>, b: seq<StreamItem>, wasText: bool, parse: string -> Decoded)
    ensures var ra := Fold(a, wasText, parse);
      Fold(a + b, wasText, parse)
        == if ra.failure.Some? then ra
           else var rb := Fold(b, ra.wasText, parse); Run(ra.outs + rb.outs, rb.wasText, rb.failure)
  {
    RunStepsAppend((item: StreamItem, w: bool) => StepItem(item, w, parse), a, b, wasText);
  }

  /** A stream that yields a fault stops there: nothing after it is processed. */
  lemma FoldStopsAtFault(a: seq<StreamItem>, d: string, b: seq<StreamItem>, wasText: bool, parse: string -> Decoded)
    ensures var ra := Fold(a, wasText, parse);
      Fold(a + [StreamFault(d)] + b, wasText, parse)
        == if ra.failure.Some? then ra else Run(ra.outs, ra.wasText, Some(d))
  {
    var step := (item: StreamItem, w: bool) => StepItem(item, w, parse);
    assert a + [StreamFault(d)] + b == a + ([StreamFault(d)] + b);
    RunStepsAppend(step, a, [StreamFault(d)] + b, wasText);
    var ra := Fold(a, wasText, parse);
    assert RunSteps(step, [StreamFault(d)] + b, ra.wasText) == Run([], ra.wasText, Some(d));
    assert ra.outs + [] == ra.outs;
  }

  /** The notice for an exception that ends the stream. */
  function StreamError(detail: string): (o: Out)
    ensures StartsWith(o.text, StreamErrorPrefix) && o.color == Plain && o.newline
  {
    PrefixStartsWith(StreamErrorPrefix, detail);
    Out(StreamErrorPrefix + detail, Plain, true)
  }

  const NoStreamText: string := "\U{26A0}\U{FE0F}  No response stream received"
  const StreamErrorPrefix: string := "\U{274C} Error processing streaming response: "

  /** After the loop: one empty line when it completed, the error notice when it stopped. */
  function FinishStream(r: Run): (outs: seq<Out>)
    ensures r.failure.None? ==> outs == r.outs + [Blank]
    ensures r.failure.Some? ==> outs == r.outs + [StreamError(r.failure.value)]
  {
    r.outs + (if r.failure.None? then [Blank] else [StreamError(r.failure.value)])
  }

  /** The Python object under `response["response"]`: None, a string, an already decoded JSON
      value, an object with `iter_lines`, or an object with only `read` (which yields its text
      or raises). Objects carry their class name and `str()`. */
  datatype Body =
    | PyNone
    | PyText(s: string)
    | PyData(v: JValue)
    | LineStream(items: seq<StreamItem>, cls: string, repr: string)
    | Readable(content: Result<string, string>, cls: string, repr: string)

  predicate BodyTruthy(b: Body) {
    match b
    case PyNone => false
    case PyText(s) => |s| > 0
    case PyData(v) => Truthy(v)
    case _ => true
  }

  function BodyStr(b: Body): string {
    match b
    case PyNone => "None"
    case PyText(s) => s
    case PyData(v) => Display(v)
    case LineStream(_, _, repr) => repr
    case Readable(_, _, repr) => repr
  }

  /** A raw body split on "\n" into trimmed lines; the loop's own emptiness test and trimming
      then match the `if line:` test of the raw-body branch. */
  function RawLines(text: string): (r: seq<StreamItem>)
    ensures |r| == |Split(text, '\n')|
  {
    var pieces := Split(text, '\n');
    seq(|pieces|, k requires 0 <= k < |pieces| => Line(Strip(pieces[k])))
  }

  /** `_handle_streaming_response`, starting with the flag cleared. */
  function HandleStreaming(body: Body, parse: string -> Decoded): (r: seq<Out>)
    ensures !BodyTruthy(body) ==> r == [Out(NoStreamText, Plain, true)]
    ensures body.LineStream? ==> r == FinishStream(Fold(body.items, false, parse))
    ensures BodyTruthy(body) ==> |r| > 0 && (r[|r| - 1] == Blank || StartsWith(r[|r| - 1].text, StreamErrorPrefix))
  {
    if !BodyTruthy(body) then [Out(NoStreamText, Plain, true)]
    else match body
      case LineStream(items, _, _) => FinishStream(Fold(items, false, parse))
      case Readable(content, _, _) =>
        (match content
         case Err(d) => [StreamError(d)]
         case Ok(text) => FinishStream(Fold(RawLines(text), false, parse)))
      case PyText(_) => [StreamError("'str' object has no attribute 'read'")]
      case PyData(v) => [StreamError("'" + TypeName(v) + "' object has no attribute 'read'")]
      case PyNone => [Out(NoStreamText, Plain, true)]
  }

  /** The first of `keys` present with a string value, or None. */
  function FirstStringField(fields: map<string, JValue>, keys: seq<string>): (r: JValue)
    ensures r == JNull || r.JStr?
    ensures r.JStr? ==> exists k :: 0 <= k < |keys| && keys[k] in fields && fields[keys[k]] == r
                                    && forall j :: 0 <= j < k ==> !Get(fields, keys[j]).JStr?
    ensures r == JNull ==> forall k :: 0 <= k < |keys| ==> !Get(fields, keys[k]).JStr?
  {
    if |keys| == 0 then JNull
    else if keys[0] in fields && fields[keys[0]].JStr? then fields[keys[0]]
    else
      var rest := FirstStringField(fields, keys[1..]);
      assert forall k :: 0 <= k < |keys| - 1 ==> keys[1..][k] == keys[k + 1];
      if rest.JStr? then
        var k :| 0 <= k < |keys[1..]| && keys[1..][k] in fields && fields[keys[1..][k]] == rest
                 && forall j :: 0 <= j < k ==> !Get(fields, keys[1..][j]).JStr?;
        assert keys[k + 1] in fields && fields[keys[k + 1]] == rest;
        rest
      else rest
  }

  const MessageKeys: seq<string> := ["message", "text", "content", "response"]

  /** The text inside `result.content[0].text` when that path exists. */
  function ContentText(result: JValue): Option<JValue> {
    if result.JObj? && "content" in result.fields && result.fields["content"].JArr?
       && |result.fields["content"].items| > 0 && result.fields["content"].items[0].JObj?
       && "text" in result.fields["content"].items[0].fields
    then Some(result.fields["content"].items[0].fields["text"])
    else None
  }

  /** `_extract_message_text`: Strands' `result.content[0].text`, else a string `result`, else
      the first string among message/text/content/response, else a string document; None
      (here `JNull`) when nothing applies. */
  function ExtractMessageText(v: JValue): (r: JValue)
    ensures v.JStr? ==> r == v
    ensures !v.JObj? && !v.JStr? ==> r == JNull
    ensures v.JObj? && "result" in v.fields && ContentText(v.fields["result"]).Some? ==> r == ContentText(v.fields["result"]).value
    ensures v.JObj? && !("result" in v.fields && (ContentText(v.fields["result"]).Some? || v.fields["result"].JStr?))
      ==> r == FirstStringField(v.fields, MessageKeys)
    ensures v.JObj? && "result" in v.fields && ContentText(v.fields["result"]).None? && v.fields["result"].JStr? ==> r == v.fields["result"]
  {
    if v.JObj? && "result" in v.fields && ContentText(v.fields["result"]).Some? then ContentText(v.fields["result"]).value
    else if v.JObj? && "result" in v.fields && v.fields["result"].JStr? then v.fields["result"]
    else if v.JObj? then FirstStringField(v.fields, MessageKeys)
    else if v.JStr? then v
    else JNull
  }

  /** `json.dumps(v, indent=2)`: `null` for None, and the oracle `dumps` for anything else. */
  function Dump(v: JValue, dumps: JValue -> string): string {
    if v.JNull? then "null" else dumps(v)
  }

  /** The document's extracted text on a line, else its pretty-printed JSON. */
  function ShowJson(v: JValue, dumps: JValue -> string): (r: seq<Out>)
    ensures |r| == 1 && r[0].color == Green && r[0].newline
    ensures Truthy(ExtractMessageText(v)) ==> r[0].text == Display(ExtractMessageText(v))
    ensures !Truthy(ExtractMessageText(v)) ==> r[0].text == Dump(v, dumps)
  {
    var m := ExtractMessageText(v);
    if Truthy(m) then [Out(Display(m), Green, true)] else [Out(Dump(v, dumps), Green, true)]
  }

  /** A Strands reply is shown as the text of its first content block, whatever other fields
      the document carries; a document with no usable `result` and no string message field is
      shown as its pretty-printed JSON. */
  lemma StrandsReplyShown(fields: map<string, JValue>, result: JValue, t: string, text: string,
                          dumps: JValue -> string)
    requires ContentText(result) == Some(JStr(t)) && t != ""
    ensures ShowJson(JObj(fields["result" := result], text), dumps) == [Out(t, Green, true)]
  {
    var v := JObj(fields["result" := result], text);
    assert ExtractMessageText(v) == JStr(t);
  }

  lemma UnreadableShowsJson(fields: map<string, JValue>, text: string, dumps: JValue -> string)
    requires "result" !in fields
    requires forall k :: 0 <= k < |MessageKeys| && MessageKeys[k] in fields ==> !fields[MessageKeys[k]].JStr?
    ensures ShowJson(JObj(fields, text), dumps) == [Out(dumps(JObj(fields, text)), Green, true)]
  {
    var v := JObj(fields, text);
    assert forall k :: 0 <= k < |MessageKeys| ==> !Get(fields, MessageKeys[k]).JStr?;
    assert ExtractMessageText(v) == JNull;
  }

  const JsonParseErrorPrefix: string := "\U{274C} Error parsing JSON response: "
  const JsonProcessErrorPrefix: string := "\U{274C} Error processing JSON response: "

  /** `_handle_json_response`: a string is decoded first (a decode error shows a notice and the
      raw text); other objects are used as they are, and one that is not JSON data cannot be
      pretty-printed. */
  function HandleJson(body: Body, parse: string -> Decoded, dumps: JValue -> string): (r: seq<Out>)
    ensures body.PyText? && parse(body.s).DecodeError? ==>
      r == [Out(JsonParseErrorPrefix + parse(body.s).detail, Plain, true), Out(body.s, Green, true)]
    ensures body.PyText? && parse(body.s).Parsed? ==> r == ShowJson(parse(body.s).value, dumps)
    ensures body.PyData? ==> r == ShowJson(body.v, dumps)
    ensures body.PyNone? ==> r == [Out("null", Green, true)]
    ensures body.PyText? && parse(body.s) == Parsed(JNull) ==> r == [Out("null", Green, true)]
    ensures 1 <= |r| <= 2
  {
    match body
    case PyText(s) =>
      (match parse(s)
       case DecodeError(d) => [Out(JsonParseErrorPrefix + d, Plain, true), Out(s, Green, true)]
       case Parsed(v) => ShowJson(v, dumps))
    case PyNone => ShowJson(JNull, dumps)
    case PyData(v) => ShowJson(v, dumps)
    case LineStream(_, cls, _) =>
      [Out(JsonProcessErrorPrefix + "Object of type " + cls + " is not JSON serializable", Plain, true)]
    case Readable(_, cls, _) =>
      [Out(JsonProcessErrorPrefix + "Object of type " + cls + " is not JSON serializable", Plain, true)]
  }

  const UnknownTypePrefix: string := "\U{26A0}\U{FE0F}  Unknown content type: "

  /** The media type without parameters: the text before the first ';', trimmed. */
  function BaseContentType(contentType: string): string {
    Strip(BeforeFirst(contentType, ';'))
  }

  /** `handle_response` on a response whose content type is `contentType` ("" when absent) and
      whose `response` entry is `body` (None when absent). The flag starts cleared, so no
      state carries over between responses. */
  function HandleResponse(contentType: string, body: Option<Body>, parse: string -> Decoded,
                          dumps: JValue -> string): (r: seq<Out>)
    ensures BaseContentType(contentType) == "text/event-stream" ==> r == HandleStreaming(body.GetOr(PyNone), parse)
    ensures BaseContentType(contentType) == "application/json" ==> r == HandleJson(body.GetOr(PyNone), parse, dumps)
    ensures BaseContentType(contentType) != "text/event-stream" && BaseContentType(contentType) != "application/json" ==>
      r == [Out(UnknownTypePrefix + contentType, Plain, true)] + (if body.Some? then [Out(BodyStr(body.value), Plain, true)] else [])
  {
    var base := BaseContentType(contentType);
    if base == "text/event-stream" then HandleStreaming(body.GetOr(PyNone), parse)
    else if base == "application/json" then HandleJson(body.GetOr(PyNone), parse, dumps)
    else [Out(UnknownTypePrefix + contentType, Plain, true)] + (if body.Some? then [Out(BodyStr(body.value), Plain, true)] else [])
  }

  /** Parameters after ';' never change how a response is dispatched. */
  lemma ContentTypeParameters(base: string, params: string)
    requires ';' !in base
    ensures BaseContentType(base + ";" + params) == Strip(base)
  {
    var ct := base + ";" + params;
    assert ct[..|base|] == base;
    IndexOfAt(ct, ';', |base|);
  }
}

=== FILE: runtime_errors.dfy ===
/** SDK failures and the user-facing message `_handle_aws_error` raises for each
    (agentcore-chat/src/agentcore_chat/agent_runtime_service.py). */
module RuntimeErrors {
  import opened Wrappers
  import opened PyStr

  /** A `ClientError`: the `Error.Code` and `Error.Message` entries of its response, each
      possibly absent, and `str(e)`. */
  datatype ClientErr = ClientErr(code: Option<string>, message: Option<string>, text: string)

  /** What the SDK can raise. The four connection and timeout classes are `BotoCoreError`
      subclasses and form `Network`; every other `BotoCoreError` is `OtherSdk`. */
  datatype SdkError = Client(err: ClientErr) | Network(text: string) | OtherSdk(text: string)

  const Bullet: string := "  \U{2022} "

  /** Codes whose message never depends on the operation context. */
  predicate ContextFree(code: string) {
    code == "UnauthorizedOperation" || code == "ServiceUnavailableException"
  }

  /** Codes the table knows; every other code gets the generic text. */
  predicate KnownCode(code: string) {
    || code == "AccessDeniedException" || code == "UnauthorizedOperation"
    || code == "ResourceNotFoundException" || code == "ValidationException"
    || code == "InternalServerException" || code == "ServiceUnavailableException"
    || code == "ThrottlingException" || code == "InvalidParameterException"
    || code == "ConflictException"
  }

  /** The operation contexts callers pass; the service passes only the first two, and
      `protocol_fetch` exists in the table alone. */
  datatype Context = ListAgents | GetAgentRuntime | ProtocolFetch

  function ContextName(c: Context): string {
    match c
    case ListAgents => "list_agents"
    case GetAgentRuntime => "get_agent_runtime"
    case ProtocolFetch => "protocol_fetch"
  }

  /** `f" during {operation_context}" if operation_context else ""`. */
  function ContextSuffix(context: Option<Context>): (r: string)
    ensures r == "" <==> context.None?
  {
    if context.Some? then " during " + ContextName(context.value) else ""
  }

  /** Fixed texts of the table, one per (code, context) cell that quotes nothing. */
  const AccessDeniedDetailsText: string :=
    "AWS credentials don't have permission to get agent runtime details. "
    + "This permission is required to filter agents by protocol configuration.\n\n"
    + "Please ensure your AWS credentials have the following permission:\n"
    + Bullet + "bedrock-agentcore:GetAgentRuntime\n\n"
    + "To resolve this issue:\n"
    + "  1. Contact your AWS administrator to grant the GetAgentRuntime permission\n"
    + "  2. Update your IAM policy to include: bedrock-agentcore:GetAgentRuntime\n"
    + "  3. Verify your credentials have access to the specific agent runtimes\n\n"
    + "Without this permission, the CLI cannot determine which agents use HTTP protocol."
  const AccessDeniedProtocolText: string :=
    "Failed to fetch protocol configurations due to insufficient permissions. "
    + "The CLI requires GetAgentRuntime permission to filter agents by protocol.\n\n"
    + "Required permissions:\n"
    + Bullet + "bedrock-agentcore:ListAgentRuntimes (to list agents)\n"
    + Bullet + "bedrock-agentcore:GetAgentRuntime (to check protocol configurations)\n\n"
    + "Please contact your AWS administrator to grant these permissions."
  const AccessDeniedText: string :=
    "AWS credentials don't have permission to access agent runtimes. "
    + "Please ensure your AWS credentials have the following permissions:\n"
    + Bullet + "bedrock-agentcore:ListAgentRuntimes\n"
    + Bullet + "bedrock-agentcore:GetAgentRuntime\n\n"
    + "Contact your AWS administrator to grant these permissions."
  const UnauthorizedText: string :=
    "Your AWS account is not authorized to use Bedrock AgentCore. "
    + "Please ensure your account has access to the service and that "
    + "Bedrock AgentCore is available in your current AWS region."
  const NotFoundDetailsText: string :=
    "One or more agent runtimes could not be found when fetching protocol details. "
    + "This may occur if agents were deleted after being listed, or if there are "
    + "permission issues accessing specific agent runtimes.\n\n"
    + "Please try again, or check that the agents still exist in your AWS account."
  const NotFoundText: string :=
    "The requested AWS resource was not found. This may indicate "
    + "the service is not available in your region or the resource was deleted."
  const InternalProtocolText: string :=
    "AWS Bedrock AgentCore service is experiencing internal issues while "
    + "fetching agent protocol configurations. This is a temporary problem.\n\n"
    + "Please try again in a few minutes. If the issue persists, some agents "
    + "may be temporarily unavailable for protocol filtering."
  const InternalText: string :=
    "AWS Bedrock AgentCore service is experiencing internal issues. "
    + "This is a temporary problem - please try again in a few minutes."
  const UnavailableText: string :=
    "AWS Bedrock AgentCore service is temporarily unavailable. "
    + "Please try again in a few minutes."
  const ThrottledProtocolText: string :=
    "Request rate limit exceeded while fetching agent protocol configurations. "
    + "The CLI makes multiple API calls to determine agent protocols.\n\n"
    + "Please wait a moment and try again. Consider reducing the number of "
    + "concurrent operations if this issue persists."
  const ThrottledText: string :=
    "Request rate limit exceeded for AWS API calls. "
    + "Please wait a moment and try again."
  const ConflictDetailsText: string :=
    "Conflict occurred while fetching agent runtime details. "
    + "The agent runtime may be in a transitional state.\n\n"
    + "Please wait a moment and try again."

  /** The message of a `ClientError` in the given operation context: its code defaults to
      "Unknown" and its message to `str(e)`. */
  function ClientErrorMessage(e: ClientErr, context: Option<Context>): string {
    CodeMessage(e.code.GetOr("Unknown"), e.message.GetOr(e.text), context)
  }

  /** The table of `_handle_aws_error`, by code, message and context. */
  function CodeMessage(code: string, msg: string, context: Option<Context>): string {
    var get := context == Some(GetAgentRuntime);
    var protocol := context == Some(GetAgentRuntime) || context == Some(ProtocolFetch);
    if code == "AccessDeniedException" then
      if get then AccessDeniedDetailsText
      else if context == Some(ProtocolFetch) then AccessDeniedProtocolText
      else AccessDeniedText
    else if code == "UnauthorizedOperation" then UnauthorizedText
    else if code == "ResourceNotFoundException" then
      if get then NotFoundDetailsText else NotFoundText
    else if code == "ValidationException" then
      if get then
        "Invalid agent runtime ID or version when fetching protocol details: " + msg + "\n\n"
        + "This may indicate corrupted agent data. Please try listing agents again."
      else
        "Invalid request parameters sent to AWS API: " + msg
    else if code == "InternalServerException" then
      if protocol then InternalProtocolText else InternalText
    else if code == "ServiceUnavailableException" then UnavailableText
    else if code == "ThrottlingException" then
      if protocol then ThrottledProtocolText else ThrottledText
    else if code == "InvalidParameterException" then
      if get then
        "Invalid parameters when fetching agent runtime details: " + msg + "\n\n"
        + "This may indicate an issue with agent runtime IDs or versions. "
        + "Please try listing agents again."
      else
        "Invalid parameters in AWS API request: " + msg
    else if code == "ConflictException" then
      if get then ConflictDetailsText else "Conflict in AWS API request: " + msg
    else
      GenericClientMessage(code, msg, context)
  }

  /** The fallback text for a code the table does not know. */
  function GenericClientMessage(code: string, msg: string, context: Option<Context>): string {
    "AWS API error" + ContextSuffix(context) + " (" + code + "): " + msg + GenericTail
  }

  const GenericTail: string :=
    "\n\n"
    + "If this error persists, please check:\n"
    + Bullet + "Your AWS credentials and permissions\n"
    + Bullet + "AWS service status in your region\n"
    + Bullet + "Network connectivity to AWS services"

  const SdkTail: string := ". Please check your AWS configuration and network connectivity."

  /** The message of the `AgentRuntimeError` that `_handle_aws_error` always raises. */
  function AwsErrorMessage(e: SdkError, context: Option<Context>): (r: string)
    ensures e.Client? && !KnownCode(e.err.code.GetOr("Unknown")) ==>
      StartsWith(r, "AWS API error" + ContextSuffix(context) + " (" + e.err.code.GetOr("Unknown") + "): "
                    + e.err.message.GetOr(e.err.text))
    ensures !e.Client? ==> StartsWith(r, "AWS SDK error" + ContextSuffix(context) + ": " + e.text)
  {
    match e
    case Client(ce) =>
      GenericPrefix(ce, context);
      ClientErrorMessage(ce, context)
    case Network(t) =>
      PrefixStartsWith("AWS SDK error" + ContextSuffix(context) + ": " + t, SdkTail);
      SdkMessage(t, context)
    case OtherSdk(t) =>
      PrefixStartsWith("AWS SDK error" + ContextSuffix(context) + ": " + t, SdkTail);
      SdkMessage(t, context)
  }

  lemma GenericPrefix(ce: ClientErr, context: Option<Context>)
    ensures !KnownCode(ce.code.GetOr("Unknown")) ==>
      StartsWith(ClientErrorMessage(ce, context),
                 "AWS API error" + ContextSuffix(context) + " (" + ce.code.GetOr("Unknown") + "): "
                 + ce.message.GetOr(ce.text))
  {
    if !KnownCode(ce.code.GetOr("Unknown")) {
      var head := "AWS API error" + ContextSuffix(context) + " (" + ce.code.GetOr("Unknown") + "): "
                  + ce.message.GetOr(ce.text);
      assert ClientErrorMessage(ce, context) == head + GenericTail;
      PrefixStartsWith(head, GenericTail);
    }
  }

  function SdkMessage(text: string, context: Option<Context>): string {
    "AWS SDK error" + ContextSuffix(context) + ": " + text + SdkTail
  }

  /** An absent code is treated as the code "Unknown". */
  lemma MissingCodeIsUnknown(m: Option<string>, t: string, context: Option<Context>)
    ensures AwsErrorMessage(Client(ClientErr(None, m, t)), context)
         == AwsErrorMessage(Client(ClientErr(Some("Unknown"), m, t)), context)
  {
  }

  /** An absent message is replaced by `str(e)`. */
  lemma MissingMessageIsText(c: Option<string>, t: string, context: Option<Context>)
    ensures AwsErrorMessage(Client(ClientErr(c, None, t)), context)
         == AwsErrorMessage(Client(ClientErr(c, Some(t), t)), context)
  {
  }

  /** Unauthorized-operation and service-unavailable texts ignore the context. */
  lemma ContextFreeCodes(e: ClientErr, c1: Option<Context>, c2: Option<Context>)
    requires ContextFree(e.code.GetOr("Unknown"))
    ensures ClientErrorMessage(e, c1) == ClientErrorMessage(e, c2)
  {
  }

  /** For the permission, not-found, internal, throttling and unavailable codes (and the
      conflict code while fetching details) the text is fixed: the error's own message and
      `str(e)` never appear. */
  lemma FixedTextCodes(c: string, m1: Option<string>, t1: string, m2: Option<string>, t2: string,
                       context: Option<Context>)
    requires || c == "AccessDeniedException" || c == "UnauthorizedOperation"
             || c == "ResourceNotFoundException" || c == "InternalServerException"
             || c == "ServiceUnavailableException" || c == "ThrottlingException"
             || (c == "ConflictException" && context == Some(GetAgentRuntime))
    ensures ClientErrorMessage(ClientErr(Some(c), m1, t1), context)
         == ClientErrorMessage(ClientErr(Some(c), m2, t2), context)
  {
  }

  /** The protocol-fetch context shares the detail-fetch texts for internal and throttling
      errors. */
  lemma ProtocolContextsAgree(e: ClientErr)
    requires e.code == Some("InternalServerException") || e.code == Some("ThrottlingException")
    ensures ClientErrorMessage(e, Some(ProtocolFetch)) == ClientErrorMessage(e, Some(GetAgentRuntime))
  {
    if e.code == Some("InternalServerException") {
      assert ClientErrorMessage(e, Some(ProtocolFetch)) == ClientErrorMessage(e, Some(GetAgentRuntime));
    }
  }

  /** Listing uses the same texts as a call without context, except in the generic fallback,
      which names the context. */
  lemma ListContextLikeNone(e: ClientErr)
    requires KnownCode(e.code.GetOr("Unknown"))
    ensures ClientErrorMessage(e, Some(ListAgents)) == ClientErrorMessage(e, None)
  {
  }
}

=== FILE: runtime_fetch.dfy ===
/** `_fetch_all_agents` (agentcore-chat/src/agentcore_chat/agent_runtime_service.py): paginated
    listing with bounded retries. The registry is an oracle: the sequence of outcomes its
    successive `list_agent_runtimes` calls produce. Waits are integer milliseconds and are
    recorded rather than slept. */
module RuntimeFetch {
  import opened Wrappers
  import opened RuntimeRecords
  import opened RuntimeErrors

  /** Retries allowed per page after the first attempt. */
  const MaxRetries: nat := 3

  /** The draw of `random.uniform(0, 0.1 * k)` for the k-th retry, scaled: the jitter is
      `k * u` milliseconds with `0 <= u <= 100`. */
  type JitterUnit = u: nat | u <= 100

  /** One call of the oracle: a page (its records and its `nextToken`, absent or not), or a
      raised SDK error with the jitter drawn if it is retried. */
  datatype Attempt =
    | Page(records: seq<RawRecord>, nextToken: Option<string>)
    | Raised(fault: SdkError, jitter: JitterUnit)

  /** `if next_token:` */
  predicate Truthy(token: Option<string>) {
    token.Some? && token.value != ""
  }

  /** Client error codes retried with exponential backoff. */
  predicate RetryableCode(code: string) {
    code == "ThrottlingException" || code == "InternalServerException" || code == "ServiceUnavailableException"
  }

  /** Faults that are retried while retries remain. A client error without a code has the code
      "" here and is not retried. */
  predicate Transient(f: SdkError) {
    !f.Client? || RetryableCode(f.err.code.GetOr(""))
  }

  function Pow2(n: nat): (r: nat)
    ensures r >= 1
  {
    if n == 0 then 1 else 2 * Pow2(n - 1)
  }

  /** The wait before retry number `k`: exponential with jitter, capped at 60 s, for client
      errors; linear, capped at 10 s, for connection and other SDK errors. */
  function WaitMs(f: SdkError, k: nat, u: JitterUnit): (w: nat)
    requires 1 <= k <= MaxRetries
    ensures f.Client? ==> w <= 60000 && w == Min(1000 * Pow2(k - 1) + k * u, 60000)
    ensures f.Client? ==> Min(1000 * Pow2(k - 1), 60000) <= w <= Min(1000 * Pow2(k - 1) + 100 * k, 60000)
    ensures !f.Client? ==> w == Min(1000 * k, 10000) && w <= 10000
  {
    if f.Client? then Min(1000 * Pow2(k - 1) + k * u, 60000) else Min(1000 * k, 10000)
  }

  function Min(a: nat, b: nat): nat {
    if a <= b then a else b
  }

  /** Why listing failed inside the pagination loop. */
  datatype FetchError =
    | Exhausted(fault: SdkError)      // an AgentRuntimeError raised once retries run out
    | NotRetryable(clientErr: ClientErr)  // the ClientError re-raised unchanged
    | BadRecord(recordErr: ConvertError)  // a record that did not convert

  datatype FetchOutcome = Fetched(agents: seq<AgentRuntime>) | FetchFailed(error: FetchError) | OutOfAttempts

  /** The outcome, the index just past the last attempt consumed, the `nextToken` sent with
      each request (None when the parameter is left out) and the waits, in order. */
  datatype Trace = Trace(outcome: FetchOutcome, used: nat, requests: seq<Option<string>>, sleeps: seq<nat>)

  /** The message of the error raised when retries run out on a transient fault. */
  function ExhaustedMessage(f: SdkError): string {
    match f
    case Client(e) =>
      if e.code == Some("ThrottlingException") then "Request rate limit exceeded. Please try again later."
      else "AWS service is temporarily unavailable. Please try again later."
    case Network(_) =>
      "Network connectivity issues persist. Please check your internet connection and AWS service status."
    case OtherSdk(t) => "AWS SDK error: " + t
  }

  /** Prefixes agents, requests and waits observed before `rest`. */
  function Glue(agents: seq<AgentRuntime>, requests: seq<Option<string>>, sleeps: seq<nat>, rest: Trace): Trace {
    Trace(
      match rest.outcome
      case Fetched(b) => Fetched(agents + b)
      case o => o,
      rest.used, requests + rest.requests, sleeps + rest.sleeps)
  }

  lemma GlueGlue(x1: seq<AgentRuntime>, r1: seq<Option<string>>, s1: seq<nat>,
                 x2: seq<AgentRuntime>, r2: seq<Option<string>>, s2: seq<nat>, t: Trace)
    ensures Glue(x1, r1, s1, Glue(x2, r2, s2, t)) == Glue(x1 + x2, r1 + r2, s1 + s2, t)
  {
    assert r1 + (r2 + t.requests) == (r1 + r2) + t.requests;
    assert s1 + (s2 + t.sleeps) == (s1 + s2) + t.sleeps;
    if t.outcome.Fetched? {
      assert x1 + (x2 + t.outcome.agents) == (x1 + x2) + t.outcome.agents;
    }
  }

  /** The loop from attempt `i`, with `retry` retries already spent on the current page and
      `token` the token to send. */
  function Fetch(a: seq<Attempt>, i: nat, retry: nat, token: Option<string>): (t: Trace)
    requires i <= |a|
    ensures i <= t.used <= |a|
    decreases |a| - i
  {
    if i == |a| then Trace(OutOfAttempts, i, [], [])
    else match a[i]
      case Page(recs, nt) =>
        (match ConvertAll(recs)
         case Err(e) => Trace(FetchFailed(BadRecord(e)), i + 1, [token], [])
         case Ok(agents) =>
           if Truthy(nt) then Glue(agents, [token], [], Fetch(a, i + 1, 0, nt))
           else Trace(Fetched(agents), i + 1, [token], []))
      case Raised(f, u) =>
        if !Transient(f) then Trace(FetchFailed(NotRetryable(f.err)), i + 1, [token], [])
        else if retry < MaxRetries then
          Glue([], [token], [WaitMs(f, retry + 1, u)], Fetch(a, i + 1, retry + 1, token))
        else Trace(FetchFailed(Exhausted(f)), i + 1, [token], [])
  }

  /** Unfolds one successful page whose token asks for more. */
  lemma FetchPageStep(a: seq<Attempt>, i: nat, retry: nat, token: Option<string>)
    requires i < |a| && a[i].Page? && ConvertAll(a[i].records).Ok? && Truthy(a[i].nextToken)
    ensures Fetch(a, i, retry, token)
         == Glue(ConvertAll(a[i].records).value, [token], [], Fetch(a, i + 1, 0, a[i].nextToken))
  {
  }

  /** Unfolds one fault that is retried. */
  lemma FetchRetryStep(a: seq<Attempt>, i: nat, retry: nat, token: Option<string>)
    requires i < |a| && a[i].Raised? && Transient(a[i].fault) && retry < MaxRetries
    ensures Fetch(a, i, retry, token)
         == Glue([], [token], [WaitMs(a[i].fault, retry + 1, a[i].jitter)], Fetch(a, i + 1, retry + 1, token))
  {
  }

  /** Prefixing a trace that ends after one request. */
  lemma GlueLast(agents: seq<AgentRuntime>, requests: seq<Option<string>>, sleeps: seq<nat>,
                 o: FetchOutcome, used: nat, token: Option<string>)
    ensures Glue(agents, requests, sleeps, Trace(o, used, [token], []))
         == Trace(if o.Fetched? then Fetched(agents + o.agents) else o, used, requests + [token], sleeps)
  {
    assert sleeps + [] == sleeps;
  }

  /** The loop's accumulators after a page whose token asks for more. */
  lemma AdvancePage(a: seq<Attempt>, i: nat, retry: nat, token: Option<string>,
                    agents: seq<AgentRuntime>, requests: seq<Option<string>>, sleeps: seq<nat>)
    requires i < |a| && a[i].Page? && ConvertAll(a[i].records).Ok? && Truthy(a[i].nextToken)
    ensures Glue(agents, requests, sleeps, Fetch(a, i, retry, token))
         == Glue(agents + ConvertAll(a[i].records).value, requests + [token], sleeps, Fetch(a, i + 1, 0, a[i].nextToken))
  {
    FetchPageStep(a, i, retry, token);
    GlueGlue(agents, requests, sleeps, ConvertAll(a[i].records).value, [token], [], Fetch(a, i + 1, 0, a[i].nextToken));
    assert sleeps + [] == sleeps;
  }

  /** The loop's accumulators after a fault that is retried. */
  lemma AdvanceRetry(a: seq<Attempt>, i: nat, retry: nat, token: Option<string>,
                     agents: seq<AgentRuntime>, requests: seq<Option<string>>, sleeps: seq<nat>)
    requires i < |a| && a[i].Raised? && Transient(a[i].fault) && retry < MaxRetries
    ensures Glue(agents, requests, sleeps, Fetch(a, i, retry, token))
         == Glue(agents, requests + [token], sleeps + [WaitMs(a[i].fault, retry + 1, a[i].jitter)],
                 Fetch(a, i + 1, retry + 1, token))
  {
    var w := WaitMs(a[i].fault, retry + 1, a[i].jitter);
    FetchRetryStep(a, i, retry, token);
    GlueGlue(agents, requests, sleeps, [], [token], [w], Fetch(a, i + 1, retry + 1, token));
    assert agents + [] == agents;
  }

  /** The retry loop for one page, from attempt `start` with `token`: it stops at a page that
      hands over a token to follow, or with the listing's final trace. The source's bound
      `retry <= MaxRetries` is the loop invariant here, since every way out is a return. */
  method FetchPage(a: seq<Attempt>, start: nat, token: Option<string>,
                   agents0: seq<AgentRuntime>, requests0: seq<Option<string>>, sleeps0: seq<nat>)
    returns (done: Option<Trace>, agents: seq<AgentRuntime>, requests: seq<Option<string>>,
             sleeps: seq<nat>, pos: nat, next: Option<string>)
    requires start <= |a|
    ensures done.Some? ==> done.value == Glue(agents0, requests0, sleeps0, Fetch(a, start, 0, token))
    ensures done.None? ==>
      start < pos <= |a|
      && Glue(agents0, requests0, sleeps0, Fetch(a, start, 0, token)) == Glue(agents, requests, sleeps, Fetch(a, pos, 0, next))
  {
    agents, requests, sleeps, pos, next := agents0, requests0, sleeps0, start, token;
    var retry := 0;
    while true
      invariant start <= pos <= |a| && retry <= MaxRetries
      invariant Glue(agents0, requests0, sleeps0, Fetch(a, start, 0, token)) == Glue(agents, requests, sleeps, Fetch(a, pos, retry, token))
      decreases |a| - pos
    {
      if pos == |a| {
        assert Fetch(a, pos, retry, token) == Trace(OutOfAttempts, pos, [], []);
        assert requests + [] == requests && sleeps + [] == sleeps;
        return Some(Trace(OutOfAttempts, pos, requests, sleeps)), agents, requests, sleeps, pos, next;
      }
      var attempt := a[pos];
      if attempt.Page? {
        var converted := ConvertAll(attempt.records);
        if converted.Err? {
          GlueLast(agents, requests, sleeps, FetchFailed(BadRecord(converted.error)), pos + 1, token);
          done := Some(Trace(FetchFailed(BadRecord(converted.error)), pos + 1, requests + [token], sleeps));
          return;
        }
        if !Truthy(attempt.nextToken) {
          GlueLast(agents, requests, sleeps, Fetched(converted.value), pos + 1, token);
          done := Some(Trace(Fetched(agents + converted.value), pos + 1, requests + [token], sleeps));
          return;
        }
        AdvancePage(a, pos, retry, token, agents, requests, sleeps);
        agents := agents + converted.value;
        requests := requests + [token];
        next := attempt.nextToken;
        pos := pos + 1;
        return None, agents, requests, sleeps, pos, next;
      } else {
        var f := attempt.fault;
        if !Transient(f) {
          GlueLast(agents, requests, sleeps, FetchFailed(NotRetryable(f.err)), pos + 1, token);
          done := Some(Trace(FetchFailed(NotRetryable(f.err)), pos + 1, requests + [token], sleeps));
          return;
        }
        if retry == MaxRetries {
          GlueLast(agents, requests, sleeps, FetchFailed(Exhausted(f)), pos + 1, token);
          done := Some(Trace(FetchFailed(Exhausted(f)), pos + 1, requests + [token], sleeps));
          return;
        }
        var w := WaitMs(f, retry + 1, attempt.jitter);
        AdvanceRetry(a, pos, retry, token, agents, requests, sleeps);
        requests := requests + [token];
        sleeps := sleeps + [w];
        retry := retry + 1;
        pos := pos + 1;
      }
    }
  }

  /** The loop as written: an outer loop over pages around the retry loop of each page. */
  method FetchAllAgents(a: seq<Attempt>) returns (t: Trace)
    ensures t == Fetch(a, 0, 0, None)
  {
    var agents: seq<AgentRuntime> := [];
    var token: Option<string> := None;
    var requests: seq<Option<string>> := [];
    var sleeps: seq<nat> := [];
    var pos := 0;
    assert Glue(agents, requests, sleeps, Fetch(a, 0, 0, None)) == Fetch(a, 0, 0, None) by {
      var f := Fetch(a, 0, 0, None);
      assert [] + f.requests == f.requests && [] + f.sleeps == f.sleeps;
      if f.outcome.Fetched? {
        assert [] + f.outcome.agents == f.outcome.agents;
      }
    }
    while true
      invariant pos <= |a|
      invariant Fetch(a, 0, 0, None) == Glue(agents, requests, sleeps, Fetch(a, pos, 0, token))
      decreases |a| - pos
    {
      var done;
      done, agents, requests, sleeps, pos, token := FetchPage(a, pos, token, agents, requests, sleeps);
      if done.Some? {
        return done.value;
      }
    }
  }

  // Index-based descriptions of the states the loop passes through.

  /** Number of consecutive faults immediately before attempt `j`: the retries spent on the
      page being fetched when attempt `j` is made. */
  function RunBefore(a: seq<Attempt>, j: nat): nat
    requires j <= |a|
  {
    if j == 0 || a[j - 1].Page? then 0 else 1 + RunBefore(a, j - 1)
  }

  /** The `nextToken` of the last page before attempt `j`, or None before the first page. */
  function TokenBefore(a: seq<Attempt>, j: nat): Option<string>
    requires j <= |a|
  {
    if j == 0 then None
    else if a[j - 1].Page? then a[j - 1].nextToken
    else TokenBefore(a, j - 1)
  }

  /** Attempt `k` is a fault that is followed by a wait and another try. */
  predicate Retried(a: seq<Attempt>, k: nat)
    requires k < |a|
  {
    a[k].Raised? && Transient(a[k].fault) && RunBefore(a, k) < MaxRetries
  }

  /** The waits taken by attempts `i` to `j - 1`, the k-th retry of a page waiting `WaitMs(.., k, ..)`. */
  function WaitsBetween(a: seq<Attempt>, i: nat, j: nat): seq<nat>
    requires i <= j <= |a|
    decreases j - i
  {
    if i == j then []
    else (if Retried(a, i) then [WaitMs(a[i].fault, RunBefore(a, i) + 1, a[i].jitter)] else [])
         + WaitsBetween(a, i + 1, j)
  }

  /** The records of the pages among attempts `i` to `j - 1`, in order. */
  function RecordsBetween(a: seq<Attempt>, i: nat, j: nat): seq<RawRecord>
    requires i <= j <= |a|
    decreases j - i
  {
    if i == j then []
    else (if a[i].Page? then a[i].records else []) + RecordsBetween(a, i + 1, j)
  }

  /** The state in which the loop reaches attempt `i`. */
  function FetchAt(a: seq<Attempt>, i: nat): Trace
    requires i <= |a|
  {
    Fetch(a, i, RunBefore(a, i), TokenBefore(a, i))
  }

  /** Attempt `i` continues the loop: a page with more to come, or a retried fault. */
  predicate Continues(a: seq<Attempt>, i: nat)
    requires i < |a|
  {
    (a[i].Page? && ConvertAll(a[i].records).Ok? && Truthy(a[i].nextToken)) || Retried(a, i)
  }

  lemma FetchAtContinues(a: seq<Attempt>, i: nat)
    requires i < |a| && Continues(a, i)
    ensures a[i].Page? ==> FetchAt(a, i) == Glue(ConvertAll(a[i].records).value, [TokenBefore(a, i)], [], FetchAt(a, i + 1))
    ensures a[i].Raised? ==> FetchAt(a, i) == Glue([], [TokenBefore(a, i)],
                                                  [WaitMs(a[i].fault, RunBefore(a, i) + 1, a[i].jitter)], FetchAt(a, i + 1))
  {
    if a[i].Page? {
      FetchPageStep(a, i, RunBefore(a, i), TokenBefore(a, i));
    } else {
      FetchRetryStep(a, i, RunBefore(a, i), TokenBefore(a, i));
    }
  }

  lemma FetchAtStops(a: seq<Attempt>, i: nat)
    requires i < |a| && !Continues(a, i)
    ensures FetchAt(a, i).used == i + 1 && FetchAt(a, i).requests == [TokenBefore(a, i)] && FetchAt(a, i).sleeps == []
    ensures FetchAt(a, i).outcome.Fetched? ==> a[i].Page? && !Truthy(a[i].nextToken)
                                               && ConvertAll(a[i].records) == Ok(FetchAt(a, i).outcome.agents)
    ensures FetchAt(a, i).outcome.FetchFailed? && RunBefore(a, i) <= MaxRetries ==> FailedAt(a, i, FetchAt(a, i).outcome.error)
    ensures !FetchAt(a, i).outcome.OutOfAttempts?
  {
  }

  /** The requests of trace `t`, which reaches attempt `i`: one per attempt it consumes, each
      carrying the token of the page before it and made at most the fourth time for its page. */
  predicate RequestsMatch(a: seq<Attempt>, i: nat, t: Trace)
    requires i <= |a|
  {
    && i <= t.used <= |a|
    && |t.requests| == t.used - i
    && (i < |a| ==> t.used > i)
    && forall j :: i <= j < t.used ==> t.requests[j - i] == TokenBefore(a, j) && RunBefore(a, j) <= MaxRetries
  }

  lemma RequestsCons(a: seq<Attempt>, i: nat, t: Trace, rest: Trace)
    requires i < |a| && RunBefore(a, i) <= MaxRetries && RequestsMatch(a, i + 1, rest)
    requires t.used == rest.used && t.requests == [TokenBefore(a, i)] + rest.requests
    ensures RequestsMatch(a, i, t)
  {
    forall j | i < j < t.used
      ensures t.requests[j - i] == TokenBefore(a, j) && RunBefore(a, j) <= MaxRetries
    {
      assert t.requests[j - i] == rest.requests[j - (i + 1)];
    }
  }

  /** Every request carries the token of the page before it, and is at most the fourth
      attempt for its page. */
  lemma {:induction false} FetchRequests(a: seq<Attempt>, i: nat)
    requires i <= |a| && RunBefore(a, i) <= MaxRetries
    ensures RequestsMatch(a, i, FetchAt(a, i))
    decreases |a| - i
  {
    if i < |a| {
      if Continues(a, i) {
        ContinuesShape(a, i);
        assert RunBefore(a, i + 1) <= MaxRetries;
        FetchRequests(a, i + 1);
        RequestsCons(a, i, FetchAt(a, i), FetchAt(a, i + 1));
      } else {
        FetchAtStops(a, i);
      }
    }
  }

  /** The waits are exactly those of the retried faults, in order. */
  lemma {:induction false} FetchSleeps(a: seq<Attempt>, i: nat)
    requires i <= |a|
    ensures FetchAt(a, i).sleeps == WaitsBetween(a, i, FetchAt(a, i).used)
    decreases |a| - i
  {
    if i < |a| {
      if Continues(a, i) {
        ContinuesShape(a, i);
        FetchSleeps(a, i + 1);
        var rest := FetchAt(a, i + 1);
        if a[i].Page? {
          assert [] + WaitsBetween(a, i + 1, rest.used) == WaitsBetween(a, i + 1, rest.used);
        }
      } else {
        FetchAtStops(a, i);
        assert WaitsBetween(a, i + 1, i + 1) == [];
        assert !Retried(a, i);
      }
    }
  }

  /** The property `FetchPages` states about the listing from attempt `i` on. */
  ghost predicate PagesFrom(a: seq<Attempt>, i: nat)
    requires i <= |a|
  {
    var t := FetchAt(a, i);
    t.outcome.Fetched? ==>
      && t.used > i && t.used <= |a|
      && ConvertAll(RecordsBetween(a, i, t.used)) == Ok(t.outcome.agents)
      && a[t.used - 1].Page? && !Truthy(a[t.used - 1].nextToken)
      && (forall j :: i <= j < t.used - 1 && a[j].Page? ==> Truthy(a[j].nextToken))
  }

  /** What a continuing attempt adds in front of the rest of the listing. */
  lemma ContinuesShape(a: seq<Attempt>, i: nat)
    requires i < |a| && Continues(a, i)
    ensures var t, rest := FetchAt(a, i), FetchAt(a, i + 1);
      && t.used == rest.used
      && (t.outcome.Fetched? <==> rest.outcome.Fetched?)
      && (t.outcome.Fetched? && a[i].Page? ==>
            t.outcome.agents == ConvertAll(a[i].records).value + rest.outcome.agents)
      && (t.outcome.Fetched? && a[i].Raised? ==> t.outcome.agents == rest.outcome.agents)
      && t.requests == [TokenBefore(a, i)] + rest.requests
      && (a[i].Page? ==> t.sleeps == rest.sleeps)
      && (a[i].Raised? ==> t.sleeps == [WaitMs(a[i].fault, RunBefore(a, i) + 1, a[i].jitter)] + rest.sleeps)
      && (!t.outcome.Fetched? ==> t.outcome == rest.outcome)
  {
    FetchAtContinues(a, i);
    var rest := FetchAt(a, i + 1);
    if a[i].Raised? && rest.outcome.Fetched? {
      assert [] + rest.outcome.agents == rest.outcome.agents;
    }
    if a[i].Page? {
      assert [] + rest.sleeps == rest.sleeps;
    }
  }

  lemma FetchPagesStep(a: seq<Attempt>, i: nat)
    requires i < |a| && Continues(a, i) && PagesFrom(a, i + 1)
    ensures PagesFrom(a, i)
  {
    var t, rest := FetchAt(a, i), FetchAt(a, i + 1);
    ContinuesShape(a, i);
    if t.outcome.Fetched? {
      var recs := if a[i].Page? then a[i].records else [];
      var tail := RecordsBetween(a, i + 1, rest.used);
      assert RecordsBetween(a, i, t.used) == recs + tail;
      assert rest.outcome.Fetched?;
      assert ConvertAll(tail) == Ok(rest.outcome.agents);
      assert ConvertAll(recs + tail) == Ok(t.outcome.agents) by {
        if a[i].Page? {
          assert recs == a[i].records && ConvertAll(recs).Ok?;
          MapAllAppend(Convert, recs, tail);
        } else {
          assert recs + tail == tail;
        }
      }
      forall j | i < j < t.used - 1 && a[j].Page?
        ensures Truthy(a[j].nextToken)
      {
        assert i + 1 <= j < rest.used - 1;
      }
    }
  }

  lemma FetchPagesStop(a: seq<Attempt>, i: nat)
    requires i < |a| && !Continues(a, i)
    ensures PagesFrom(a, i)
  {
    FetchAtStops(a, i);
    var t := FetchAt(a, i);
    if t.outcome.Fetched? {
      assert RecordsBetween(a, i, i + 1) == a[i].records + [];
      assert a[i].records + [] == a[i].records;
    }
  }

  /** A successful listing returns the records of every page fetched, converted and
      concatenated in request order; it stops at the first page whose token is absent or
      empty, and every earlier page had a non-empty token. */
  lemma {:induction false} FetchPages(a: seq<Attempt>, i: nat)
    requires i <= |a|
    ensures PagesFrom(a, i)
    decreases |a| - i
  {
    if i < |a| {
      if Continues(a, i) {
        FetchPages(a, i + 1);
        FetchPagesStep(a, i);
      } else {
        FetchPagesStop(a, i);
      }
    }
  }

  /** How trace `t`, which reaches attempt `i`, ends when it does not list the agents: out of
      attempts only when every attempt is used, and a failure only through the last attempt
      it consumed. */
  predicate FailureMatch(a: seq<Attempt>, i: nat, t: Trace)
    requires i <= |a|
  {
    && t.used <= |a|
    && (t.outcome.OutOfAttempts? ==> t.used == |a|)
    && (t.outcome.FetchFailed? ==> t.used > i && FailedAt(a, t.used - 1, t.outcome.error))
  }

  lemma FailureCons(a: seq<Attempt>, i: nat, t: Trace, rest: Trace)
    requires i < |a| && FailureMatch(a, i + 1, rest)
    requires t.used == rest.used && (t.outcome.Fetched? <==> rest.outcome.Fetched?)
    requires !t.outcome.Fetched? ==> t.outcome == rest.outcome
    ensures FailureMatch(a, i, t)
  {
  }

  /** Every failure is caused by the last attempt consumed: a non-retryable client error, a
      transient fault on the fourth attempt for a page, or a record that does not convert. */
  lemma {:induction false} FetchFailureCause(a: seq<Attempt>, i: nat)
    requires i <= |a| && RunBefore(a, i) <= MaxRetries
    ensures FailureMatch(a, i, FetchAt(a, i))
    decreases |a| - i
  {
    if i < |a| {
      if Continues(a, i) {
        ContinuesShape(a, i);
        assert RunBefore(a, i + 1) <= MaxRetries;
        FetchFailureCause(a, i + 1);
        FailureCons(a, i, FetchAt(a, i), FetchAt(a, i + 1));
      } else {
        FetchAtStops(a, i);
      }
    }
  }

  /** Attempt `k` raises error `e` when made in the state the loop reaches it in. */
  predicate FailedAt(a: seq<Attempt>, k: nat, e: FetchError)
    requires k < |a|
  {
    match e
    case NotRetryable(ce) => a[k].Raised? && a[k].fault == Client(ce) && !RetryableCode(ce.code.GetOr(""))
    case Exhausted(f) => a[k].Raised? && a[k].fault == f && Transient(f) && RunBefore(a, k) == MaxRetries
    case BadRecord(ce) => a[k].Page? && ConvertAll(a[k].records) == Err(ce)
  }
}

=== FILE: runtime_records.dfy ===
/** Agent runtime records: the validated `AgentRuntime` value and its construction from one
    entry of a `list_agent_runtimes` page (agentcore-chat/src/agentcore_chat/agent_runtime_service.py). */
module RuntimeRecords {
  import opened Wrappers
  import opened PyStr

  /** The lifecycle states a runtime may report. */
  datatype Status = Ready | Creating | CreateFailed | Updating | UpdateFailed | Deleting

  function StatusName(s: Status): (r: string)
    ensures |r| > 0
  {
    match s
    case Ready => "READY"
    case Creating => "CREATING"
    case CreateFailed => "CREATE_FAILED"
    case Updating => "UPDATING"
    case UpdateFailed => "UPDATE_FAILED"
    case Deleting => "DELETING"
  }

  /** Membership test against the set of valid statuses, by exact string equality. */
  function ParseStatus(t: string): (r: Option<Status>)
    ensures r.Some? ==> StatusName(r.value) == t
  {
    if t == "READY" then Some(Ready)
    else if t == "CREATING" then Some(Creating)
    else if t == "CREATE_FAILED" then Some(CreateFailed)
    else if t == "UPDATING" then Some(Updating)
    else if t == "UPDATE_FAILED" then Some(UpdateFailed)
    else if t == "DELETING" then Some(Deleting)
    else None
  }

  /** Every status name is recognised as that status, so the two functions are inverse. */
  lemma ParseStatusName(s: Status)
    ensures ParseStatus(StatusName(s)) == Some(s)
  {
  }

  /** A runtime that passed validation. `lastUpdated` is the parsed timestamp, kept opaque. */
  datatype AgentRuntime = AgentRuntime(
    arn: string,
    name: string,
    id: string,
    version: string,
    description: Option<string>,
    status: Status,
    lastUpdated: string)

  /** The invariant construction establishes. */
  predicate Valid(a: AgentRuntime) {
    |a.arn| > 0 && |a.name| > 0 && |a.id| > 0 && |a.version| > 0
  }

  /** What parsing `lastUpdatedAt` produced: a timestamp, a `ValueError` (a malformed ISO
      string), or another exception (an out-of-range epoch value). */
  datatype StampParse = Stamp(value: string) | StampValueError(detail: string) | StampCrash(detail: string)

  /** One entry of a page. A missing or null field is the empty string, as `.get(k, "")`
      makes it falsy either way. */
  datatype RawRecord = RawRecord(
    arn: string,
    name: string,
    id: string,
    version: string,
    description: Option<string>,
    status: string,
    lastUpdated: StampParse)

  /** The `ValueError`s construction raises. */
  datatype RecordError =
    | EmptyArn | EmptyName | EmptyId | EmptyVersion | EmptyStatus
    | InvalidStatus(status: string)

  /** Python prints the set of valid statuses in hash order, which changes from run to run;
      the model fixes one order. */
  const ValidStatusesText: string :=
    "{'READY', 'CREATING', 'CREATE_FAILED', 'UPDATING', 'UPDATE_FAILED', 'DELETING'}"

  function RecordErrorText(e: RecordError): string {
    match e
    case EmptyArn => "AgentRuntime ARN cannot be empty"
    case EmptyName => "AgentRuntime name cannot be empty"
    case EmptyId => "AgentRuntime ID cannot be empty"
    case EmptyVersion => "AgentRuntime version cannot be empty"
    case EmptyStatus => "AgentRuntime status cannot be empty"
    case InvalidStatus(s) => "Invalid status '" + s + "'. Must be one of: " + ValidStatusesText
  }

  /** `AgentRuntime(...)` with its `__post_init__` checks, in their order. */
  function Construct(arn: string, name: string, id: string, version: string,
                     description: Option<string>, status: string, lastUpdated: string)
    : (r: Result<AgentRuntime, RecordError>)
    ensures r.Ok? ==> Valid(r.value) && StatusName(r.value.status) == status
    ensures r.Ok? ==> r.value.arn == arn && r.value.name == name && r.value.id == id
                      && r.value.version == version && r.value.description == description
  {
    if |arn| == 0 then Err(EmptyArn)
    else if |name| == 0 then Err(EmptyName)
    else if |id| == 0 then Err(EmptyId)
    else if |version| == 0 then Err(EmptyVersion)
    else if |status| == 0 then Err(EmptyStatus)
    else match ParseStatus(status)
      case None => Err(InvalidStatus(status))
      case Some(s) => Ok(AgentRuntime(arn, name, id, version, description, s, lastUpdated))
  }

  predicate IsStatusName(t: string) {
    exists s :: StatusName(s) == t
  }

  /** Construction succeeds exactly when the five fields are non-empty and the status is one
      of the six names; the first failing check names the error. */
  lemma ConstructSucceedsIff(arn: string, name: string, id: string, version: string,
                             description: Option<string>, status: string, lastUpdated: string)
    ensures Construct(arn, name, id, version, description, status, lastUpdated).Ok?
        <==> |arn| > 0 && |name| > 0 && |id| > 0 && |version| > 0 && IsStatusName(status)
    ensures |arn| == 0 ==> Construct(arn, name, id, version, description, status, lastUpdated) == Err(EmptyArn)
    ensures |arn| > 0 && |name| > 0 && |id| > 0 && |version| > 0 && |status| > 0 && !IsStatusName(status)
        ==> Construct(arn, name, id, version, description, status, lastUpdated) == Err(InvalidStatus(status))
  {
    if IsStatusName(status) {
      var s :| StatusName(s) == status;
      ParseStatusName(s);
    }
  }

  /** Failures of `_convert_api_response_to_agent_runtime`: a malformed timestamp or a
      failed construction (the `ValueError`s it re-raises as an `AgentRuntimeError`), or any
      other exception, which escapes unchanged. */
  datatype ConvertError = BadTimestamp(detail: string) | BadField(field: RecordError) | ConvertCrash(detail: string)

  const InvalidDataPrefix: string := "Invalid agent runtime data from AWS API: "

  /** The text of the raised error: the re-raised `ValueError`s carry the fixed prefix. */
  function ConvertErrorText(e: ConvertError): (r: string)
    ensures !e.ConvertCrash? ==> StartsWith(r, InvalidDataPrefix)
    ensures e.ConvertCrash? ==> r == e.detail
  {
    match e
    case BadTimestamp(d) =>
      PrefixStartsWith(InvalidDataPrefix, d);
      InvalidDataPrefix + d
    case BadField(f) =>
      PrefixStartsWith(InvalidDataPrefix, RecordErrorText(f));
      InvalidDataPrefix + RecordErrorText(f)
    case ConvertCrash(d) => d
  }

  /** Timestamp first, then construction. */
  function Convert(raw: RawRecord): (r: Result<AgentRuntime, ConvertError>)
    ensures r.Ok? ==> Valid(r.value) && r.value.name == raw.name && r.value.id == raw.id
                      && r.value.version == raw.version && StatusName(r.value.status) == raw.status
    ensures raw.lastUpdated.StampValueError? ==> r == Err(BadTimestamp(raw.lastUpdated.detail))
    ensures raw.lastUpdated.StampCrash? ==> r == Err(ConvertCrash(raw.lastUpdated.detail))
    ensures r.Err? && raw.lastUpdated.Stamp? ==>
      r.error.BadField?
      && Construct(raw.arn, raw.name, raw.id, raw.version, raw.description, raw.status, raw.lastUpdated.value)
         == Err(r.error.field)
  {
    match raw.lastUpdated
    case StampValueError(d) => Err(BadTimestamp(d))
    case StampCrash(d) => Err(ConvertCrash(d))
    case Stamp(t) =>
      match Construct(raw.arn, raw.name, raw.id, raw.version, raw.description, raw.status, t)
      case Err(e) => Err(BadField(e))
      case Ok(a) => Ok(a)
  }

  /** Converting every record of a page in order; the first failure stops the page. */
  function ConvertAll(raws: seq<RawRecord>): Result<seq<AgentRuntime>, ConvertError> {
    MapAll(Convert, raws)
  }
}

=== FILE: runtime_service.dfy ===
/** The directory resolver of agentcore-chat/src/agentcore_chat/agent_runtime_service.py:
    protocol discovery, the HTTP filter, the listing pipeline and lookup by name. The
    `get_agent_runtime` call is an oracle from (id, version) to its reply. */
module RuntimeService {
  import opened Wrappers
  import opened PyStr
  import opened JsonValue
  import opened RuntimeRecords
  import opened RuntimeErrors
  import opened RuntimeFetch
  import StrOrder
  import Dedup
  import Seqs

  datatype Protocol = Http | Mcp

  /** `_extract_protocol_from_response`: a protocol only when the response is a dict whose
      `protocolConfiguration` is a dict whose `serverProtocol` is exactly "HTTP" or "MCP". */
  function ExtractProtocol(response: JValue): (r: Option<Protocol>)
    ensures r.Some? <==>
      && response.JObj? && "protocolConfiguration" in response.fields
      && response.fields["protocolConfiguration"].JObj?
      && "serverProtocol" in response.fields["protocolConfiguration"].fields
      && response.fields["protocolConfiguration"].fields["serverProtocol"] in {JStr("HTTP"), JStr("MCP")}
    ensures r == Some(Http) ==> response.fields["protocolConfiguration"].fields["serverProtocol"] == JStr("HTTP")
    ensures r == Some(Mcp) ==> response.fields["protocolConfiguration"].fields["serverProtocol"] == JStr("MCP")
  {
    if !response.JObj? then None
    else
      var config := if "protocolConfiguration" in response.fields then response.fields["protocolConfiguration"]
                    else JObj(map[], "{}");
      if !config.JObj? then None
      else match Get(config.fields, "serverProtocol")
        case JStr(p) => if p == "HTTP" then Some(Http) else if p == "MCP" then Some(Mcp) else None
        case _ => None
  }

  /** What `get_agent_runtime` does for one (id, version): a response, an SDK error, or any
      other exception with its text. */
  datatype DetailReply = Response(body: JValue) | DetailFault(fault: SdkError) | DetailCrash(detail: string)

  /** Why `_get_agent_runtime_details` raised its `AgentRuntimeError`; the message it carries
      is `DetailsMessage` of the cause. */
  datatype DetailsFailure = BlankId | BlankVersion | DetailsFault(fault: SdkError) | DetailsCrash(detail: string)

  const NetworkDetailsText: string :=
    "Network error while fetching agent runtime details. "
    + "Please check your internet connection and try again."

  const UnexpectedDetailsPrefix: string := "Unexpected error fetching agent runtime details: "

  /** The message of the `AgentRuntimeError` raised for `f`: connection failures get a fixed
      text, every other SDK error goes through `_handle_aws_error` with the
      `get_agent_runtime` context. */
  function DetailsMessage(f: DetailsFailure): (r: string)
    ensures f.DetailsFault? && !f.fault.Network? ==> r == AwsErrorMessage(f.fault, Some(GetAgentRuntime))
    ensures f.DetailsCrash? ==> StartsWith(r, UnexpectedDetailsPrefix + f.detail)
  {
    match f
    case BlankId => "Agent ID cannot be empty"
    case BlankVersion => "Agent version cannot be empty"
    case DetailsFault(e) =>
      if e.Network? then NetworkDetailsText else AwsErrorMessage(e, Some(GetAgentRuntime))
    case DetailsCrash(d) =>
      PrefixStartsWith(UnexpectedDetailsPrefix + d, "");
      assert UnexpectedDetailsPrefix + d + "" == UnexpectedDetailsPrefix + d;
      UnexpectedDetailsPrefix + d
  }

  /** `_get_agent_runtime_details`: the response, or why it raised. Blank ids and versions
      are refused before the call; every failure of the call is reported, none escapes. */
  function FetchDetails(id: string, version: string, details: (string, string) -> DetailReply)
    : (r: Result<JValue, DetailsFailure>)
    ensures IsBlank(id) ==> r == Err(BlankId)
    ensures !IsBlank(id) && IsBlank(version) ==> r == Err(BlankVersion)
    ensures r.Ok? <==> !IsBlank(id) && !IsBlank(version) && details(id, version).Response?
    ensures r.Ok? ==> r.value == details(id, version).body
    ensures !IsBlank(id) && !IsBlank(version) && details(id, version).DetailFault?
            ==> r == Err(DetailsFault(details(id, version).fault))
    ensures !IsBlank(id) && !IsBlank(version) && details(id, version).DetailCrash?
            ==> r == Err(DetailsCrash(details(id, version).detail))
  {
    if IsBlank(id) then Err(BlankId)
    else if IsBlank(version) then Err(BlankVersion)
    else match details(id, version)
      case Response(body) => Ok(body)
      case DetailFault(f) => Err(DetailsFault(f))
      case DetailCrash(d) => Err(DetailsCrash(d))
  }

  /** One iteration of the filter loop: the agent's protocol, or why its details could not
      be fetched. */
  function Probe(agent: AgentRuntime, details: (string, string) -> DetailReply): Result<Option<Protocol>, DetailsFailure> {
    match FetchDetails(agent.id, agent.version, details)
    case Ok(response) => Ok(ExtractProtocol(response))
    case Err(f) => Err(f)
  }

  /** A failed probe: the agent's name and the cause. */
  datatype ProbeFailure = ProbeFailure(name: string, cause: DetailsFailure)

  /** The line `fetch_errors` gets for a failed probe. */
  function ErrorLine(p: ProbeFailure): (r: string)
    ensures StartsWith(r, "Agent " + p.name + ": ")
  {
    PrefixStartsWith("Agent " + p.name + ": ", DetailsMessage(p.cause));
    "Agent " + p.name + ": " + DetailsMessage(p.cause)
  }

  function ErrorLines(failures: seq<ProbeFailure>): (r: seq<string>)
    ensures |r| == |failures| && forall k :: 0 <= k < |r| ==> r[k] == ErrorLine(failures[k])
  {
    seq(|failures|, k requires 0 <= k < |failures| => ErrorLine(failures[k]))
  }

  predicate IsHttp(agent: AgentRuntime, details: (string, string) -> DetailReply) {
    Probe(agent, details) == Ok(Some(Http))
  }

  predicate ProbeFailed(agent: AgentRuntime, details: (string, string) -> DetailReply) {
    Probe(agent, details).Err?
  }

  predicate AllFailed(agents: seq<AgentRuntime>, details: (string, string) -> DetailReply) {
    forall i :: 0 <= i < |agents| ==> ProbeFailed(agents[i], details)
  }

  /** The agents the filter keeps, in their input order. */
  function HttpAgents(agents: seq<AgentRuntime>, details: (string, string) -> DetailReply)
    : (r: seq<AgentRuntime>)
    ensures |r| <= |agents|
    ensures forall x :: x in r ==> x in agents && IsHttp(x, details)
    ensures forall i :: 0 <= i < |agents| && IsHttp(agents[i], details) ==> agents[i] in r
  {
    if |agents| == 0 then []
    else
      var init := agents[..|agents| - 1];
      var last := agents[|agents| - 1];
      assert forall i :: 0 <= i < |agents| - 1 ==> agents[i] == init[i];
      HttpAgents(init, details) + (if IsHttp(last, details) then [last] else [])
  }

  /** The failed probes, in input order. */
  function ProbeErrors(agents: seq<AgentRuntime>, details: (string, string) -> DetailReply)
    : (r: seq<ProbeFailure>)
    ensures |r| <= |agents|
    ensures |r| == |agents| <==> AllFailed(agents, details)
    ensures forall k :: 0 <= k < |r| ==> exists i :: 0 <= i < |agents| && agents[i].name == r[k].name
                                                      && Probe(agents[i], details) == Err(r[k].cause)
  {
    if |agents| == 0 then []
    else
      var init := agents[..|agents| - 1];
      var last := agents[|agents| - 1];
      var rest := ProbeErrors(init, details);
      assert forall i :: 0 <= i < |agents| - 1 ==> agents[i] == init[i];
      assert AllFailed(agents, details) <==> AllFailed(init, details) && ProbeFailed(last, details);
      rest + (match Probe(last, details) case Err(f) => [ProbeFailure(last.name, f)] case Ok(_) => [])
  }

  /** One agent gives its own failure, or nothing when its probe succeeded. */
  lemma ProbeErrorsSingle(a: AgentRuntime, details: (string, string) -> DetailReply)
    ensures Probe(a, details).Err? ==> ProbeErrors([a], details) == [ProbeFailure(a.name, Probe(a, details).error)]
    ensures Probe(a, details).Ok? ==> ProbeErrors([a], details) == []
  {
    assert [a][..0] == [];
  }

  /** The error list keeps order: it distributes over concatenation, so together with
      `ProbeErrorsSingle` it holds exactly one line per failed agent, in input order. */
  lemma {:induction false} ProbeErrorsAppend(x: seq<AgentRuntime>, y: seq<AgentRuntime>,
                                             details: (string, string) -> DetailReply)
    ensures ProbeErrors(x + y, details) == ProbeErrors(x, details) + ProbeErrors(y, details)
    decreases |y|
  {
    if |y| == 0 {
      assert x + y == x;
    } else {
      var y0 := y[..|y| - 1];
      assert (x + y)[..|x + y| - 1] == x + y0;
      ProbeErrorsAppend(x, y0, details);
    }
  }

  /** The filter preserves order: it distributes over concatenation. */
  lemma {:induction false} HttpAgentsAppend(x: seq<AgentRuntime>, y: seq<AgentRuntime>,
                                            details: (string, string) -> DetailReply)
    ensures HttpAgents(x + y, details) == HttpAgents(x, details) + HttpAgents(y, details)
    decreases |y|
  {
    if |y| == 0 {
      assert x + y == x;
    } else {
      var y0 := y[..|y| - 1];
      assert (x + y)[..|x + y| - 1] == x + y0;
      HttpAgentsAppend(x, y0, details);
    }
  }

  /** When every fetch failed, no agent qualified. */
  lemma AllFailedNoneKept(agents: seq<AgentRuntime>, details: (string, string) -> DetailReply)
    ensures AllFailed(agents, details) ==> HttpAgents(agents, details) == []
  {
    if AllFailed(agents, details) {
      assert forall x :: x in agents ==> ProbeFailed(x, details);
    }
  }

  /** The message when every probe failed: the count, then at most three error lines. */
  function AllFailedMessage(failures: seq<ProbeFailure>): string {
    "Failed to fetch protocol configuration for all " + NatToString(|failures|) + " agents. Errors: "
    + Abbreviate(ErrorLines(failures), "; ")
  }

  /** `_filter_http_protocol_agents`: the HTTP agents, or, when the input is non-empty and
      every fetch failed, the failures it raises about, one per agent. */
  function FilterHttp(agents: seq<AgentRuntime>, details: (string, string) -> DetailReply)
    : (r: Result<seq<AgentRuntime>, seq<ProbeFailure>>)
    ensures r.Err? <==> |agents| > 0 && AllFailed(agents, details)
    ensures r.Ok? ==> r.value == HttpAgents(agents, details)
    ensures r.Err? ==> r.error == ProbeErrors(agents, details) && |r.error| == |agents|
  {
    if |agents| == 0 then Ok([])
    else
      var kept := HttpAgents(agents, details);
      var errors := ProbeErrors(agents, details);
      AllFailedNoneKept(agents, details);
      if |kept| == 0 && |errors| == |agents| then Err(errors) else Ok(kept)
  }

  /** One more agent extends the kept list and the error lines by that agent's contribution. */
  lemma FilterStep(agents: seq<AgentRuntime>, i: nat, details: (string, string) -> DetailReply)
    requires i < |agents|
    ensures HttpAgents(agents[..i + 1], details)
         == HttpAgents(agents[..i], details) + (if IsHttp(agents[i], details) then [agents[i]] else [])
    ensures ProbeErrors(agents[..i + 1], details)
         == ProbeErrors(agents[..i], details)
            + (if ProbeFailed(agents[i], details) then [ProbeFailure(agents[i].name, Probe(agents[i], details).error)] else [])
  {
    assert agents[..i + 1][..i] == agents[..i];
  }

  lemma FilterHttpUnfold(agents: seq<AgentRuntime>, details: (string, string) -> DetailReply)
    requires |agents| > 0
    ensures var kept, errors := HttpAgents(agents, details), ProbeErrors(agents, details);
      FilterHttp(agents, details)
        == if |kept| == 0 && |errors| == |agents| then Err(errors) else Ok(kept)
  {
  }

  /** The body of the loop for agent `i`. */
  method FilterOne(agents: seq<AgentRuntime>, i: nat, details: (string, string) -> DetailReply,
                   kept: seq<AgentRuntime>, errors: seq<ProbeFailure>)
    returns (kept': seq<AgentRuntime>, errors': seq<ProbeFailure>)
    requires i < |agents|
    requires kept == HttpAgents(agents[..i], details) && errors == ProbeErrors(agents[..i], details)
    ensures kept' == HttpAgents(agents[..i + 1], details) && errors' == ProbeErrors(agents[..i + 1], details)
  {
    var agent := agents[i];
    var probe := Probe(agent, details);
    FilterStep(agents, i, details);
    kept', errors' := kept, errors;
    if probe.Err? {
      assert ProbeFailed(agent, details) && !IsHttp(agent, details);
      errors' := errors + [ProbeFailure(agent.name, probe.error)];
    } else if probe.value == Some(Http) {
      assert IsHttp(agent, details) && !ProbeFailed(agent, details);
      kept' := kept + [agent];
    } else {
      assert !IsHttp(agent, details) && !ProbeFailed(agent, details);
    }
  }

  /** The loop as written, accumulating the kept agents and the failed probes. */
  method FilterLoop(agents: seq<AgentRuntime>, details: (string, string) -> DetailReply)
    returns (kept: seq<AgentRuntime>, errors: seq<ProbeFailure>)
    ensures kept == HttpAgents(agents, details) && errors == ProbeErrors(agents, details)
  {
    kept, errors := [], [];
    var i := 0;
    FilterStart(agents, details);
    while i < |agents|
      invariant i <= |agents|
      invariant kept == HttpAgents(agents[..i], details)
      invariant errors == ProbeErrors(agents[..i], details)
    {
      kept, errors := FilterOne(agents, i, details, kept, errors);
      i := i + 1;
    }
    Seqs.TakeAll(agents);
  }

  lemma FilterStart(agents: seq<AgentRuntime>, details: (string, string) -> DetailReply)
    ensures HttpAgents(agents[..0], details) == [] && ProbeErrors(agents[..0], details) == []
  {
    assert agents[..0] == [];
  }

  /** `_filter_http_protocol_agents` as written: the loop, then the check that every fetch
      failed. */
  method FilterHttpProtocolAgents(agents: seq<AgentRuntime>, details: (string, string) -> DetailReply)
    returns (r: Result<seq<AgentRuntime>, seq<ProbeFailure>>)
    ensures r == FilterHttp(agents, details)
  {
    if |agents| == 0 {
      return Ok([]);
    }
    var kept, errors := FilterLoop(agents, details);
    FilterHttpUnfold(agents, details);
    if |kept| == 0 && |errors| == |agents| {
      r := Err(errors);
    } else {
      r := Ok(kept);
    }
  }

  /** `[agent for agent in all_agents if agent.status == "READY"]`. */
  function ReadyAgents(agents: seq<AgentRuntime>): (r: seq<AgentRuntime>)
    ensures |r| <= |agents|
    ensures forall x :: x in r <==> x in agents && x.status == Ready
  {
    if |agents| == 0 then []
    else
      var init := agents[..|agents| - 1];
      var last := agents[|agents| - 1];
      assert agents == init + [last];
      ReadyAgents(init) + (if last.status == Ready then [last] else [])
  }

  /** One agent is kept exactly when it is READY. */
  lemma ReadyAgentsSingle(a: AgentRuntime)
    ensures ReadyAgents([a]) == if a.status == Ready then [a] else []
  {
    assert [a][..0] == [];
  }

  /** The filter keeps input order: it distributes over concatenation, so the first three
      READY agents listed in the no-HTTP message are the first three in the registry. */
  lemma {:induction false} ReadyAgentsAppend(x: seq<AgentRuntime>, y: seq<AgentRuntime>)
    ensures ReadyAgents(x + y) == ReadyAgents(x) + ReadyAgents(y)
    decreases |y|
  {
    if |y| == 0 {
      assert x + y == x;
    } else {
      var y0 := y[..|y| - 1];
      assert (x + y)[..|x + y| - 1] == x + y0;
      ReadyAgentsAppend(x, y0);
    }
  }

  function StatusOf(a: AgentRuntime): Status { a.status }

  function Statuses(agents: seq<AgentRuntime>): (r: seq<Status>)
    ensures |r| == |agents| && forall i :: 0 <= i < |agents| ==> r[i] == agents[i].status
  {
    seq(|agents|, i requires 0 <= i < |agents| => agents[i].status)
  }

  /** The `status_counts` dict as its items: each status that occurs, in order of first
      occurrence, with the number of agents in it. */
  function StatusTally(agents: seq<AgentRuntime>): (r: seq<(Status, nat)>)
    ensures forall k :: 0 <= k < |r| ==> r[k].1 == Dedup.Count(Statuses(agents), r[k].0) && r[k].1 > 0
    ensures forall s :: (exists k :: 0 <= k < |r| && r[k].0 == s) <==> s in Statuses(agents)
    ensures forall k, l :: 0 <= k < l < |r| ==> r[k].0 != r[l].0
    ensures forall k, l :: 0 <= k < l < |r| ==>
      (r[k].0 in Statuses(agents) && r[l].0 in Statuses(agents)
       && Dedup.IndexOf(Statuses(agents), r[k].0) < Dedup.IndexOf(Statuses(agents), r[l].0))
    ensures TallyTotal(r) == |agents|
  {
    var st := Statuses(agents);
    TallyCounts(st);
    TallyCovers(st);
    TallyOrdered(st);
    TallyTotalOf(st);
    Tally(Dedup.Distinct(st), st)
  }

  /** Each key paired with its number of occurrences in `st`. */
  function Tally(keys: seq<Status>, st: seq<Status>): (t: seq<(Status, nat)>)
    ensures |t| == |keys| && forall k :: 0 <= k < |t| ==> t[k] == (keys[k], Dedup.Count(st, keys[k]))
  {
    seq(|keys|, k requires 0 <= k < |keys| => (keys[k], Dedup.Count(st, keys[k])))
  }

  lemma TallyCounts(st: seq<Status>)
    ensures var t := Tally(Dedup.Distinct(st), st);
      forall k :: 0 <= k < |t| ==> t[k].1 == Dedup.Count(st, t[k].0) && t[k].1 > 0
  {
    var keys := Dedup.Distinct(st);
    forall k | 0 <= k < |keys| ensures Dedup.Count(st, keys[k]) > 0 {
      Dedup.CountPositive(st, keys[k]);
    }
  }

  lemma TallyCovers(st: seq<Status>)
    ensures var t := Tally(Dedup.Distinct(st), st);
      forall s :: (exists k :: 0 <= k < |t| && t[k].0 == s) <==> s in st
  {
    var keys := Dedup.Distinct(st);
    var t := Tally(keys, st);
    forall s | s in keys ensures exists k :: 0 <= k < |t| && t[k].0 == s {
      var k := Dedup.IndexOf(keys, s);
      assert t[k].0 == s;
    }
  }

  /** The keys come in order of first appearance, so none repeats. */
  lemma TallyOrdered(st: seq<Status>)
    ensures var t := Tally(Dedup.Distinct(st), st);
      forall k, l :: 0 <= k < l < |t| ==>
        (t[k].0 in st && t[l].0 in st && Dedup.IndexOf(st, t[k].0) < Dedup.IndexOf(st, t[l].0))
    ensures var t := Tally(Dedup.Distinct(st), st);
      forall k, l :: 0 <= k < l < |t| ==> t[k].0 != t[l].0
  {
    var keys := Dedup.Distinct(st);
    forall k, l | 0 <= k < l < |keys|
      ensures keys[k] in st && keys[l] in st && Dedup.IndexOf(st, keys[k]) < Dedup.IndexOf(st, keys[l])
    {
      Dedup.FirstAppearanceOrder(st, k, l);
    }
  }

  lemma TallyTotalOf(st: seq<Status>)
    ensures TallyTotal(Tally(Dedup.Distinct(st), st)) == |st|
  {
    TallyTotalIsSumCounts(Dedup.Distinct(st), st);
    Dedup.SumCountsOfDistinct(st);
  }

  /** The sum of the tallies. */
  function TallyTotal(t: seq<(Status, nat)>): nat {
    if |t| == 0 then 0 else TallyTotal(t[..|t| - 1]) + t[|t| - 1].1
  }

  lemma {:induction false} TallyTotalIsSumCounts(keys: seq<Status>, st: seq<Status>)
    ensures TallyTotal(Tally(keys, st)) == Dedup.SumCounts(keys, st)
    decreases |keys|
  {
    if |keys| > 0 {
      var init := keys[..|keys| - 1];
      TallyTotalIsSumCounts(init, st);
      assert Tally(keys, st)[..|keys| - 1] == Tally(init, st);
    }
  }

  function TallyParts(t: seq<(Status, nat)>): (r: seq<string>)
    ensures |r| == |t|
  {
    seq(|t|, k requires 0 <= k < |t| => NatToString(t[k].1) + " " + StatusName(t[k].0))
  }

  const NoAgentsText: string :=
    "No agent runtimes found in your AWS account. "
    + "Please deploy agents using the Bedrock AgentCore service."

  /** The message when records exist but none is READY. */
  function NoReadyMessage(agents: seq<AgentRuntime>): string {
    "No ready agent runtimes found in your AWS account. Found " + NatToString(|agents|)
    + " total agents: " + Join(TallyParts(StatusTally(agents)), ", ")
    + ". Please wait for agents to reach 'READY' status or deploy new agents."
  }

  const NoReadyForHttpText: string :=
    "No ready agent runtimes found in your AWS account. "
    + "Please deploy agents using the Bedrock AgentCore service and wait "
    + "for them to reach 'READY' status."

  const NoHttpTail: string :=
    "but none use HTTP protocol. "
    + "\n\nThe agentcore-chat CLI only supports agents with HTTP protocol. "
    + "Your available agents may use MCP or other protocols that are not compatible. "
    + "\n\nTo resolve this issue:\n"
    + Bullet + "Deploy new agents configured with HTTP protocol\n"
    + Bullet + "Check your existing agent configurations in the AWS console\n"
    + Bullet + "Verify that your agents are using 'serverProtocol: HTTP' in their configuration"

  function Names(agents: seq<AgentRuntime>): (r: seq<string>)
    ensures |r| == |agents| && forall i :: 0 <= i < |agents| ==> r[i] == agents[i].name
  {
    seq(|agents|, i requires 0 <= i < |agents| => agents[i].name)
  }

  function NoHttpHead(count: nat): string {
    "No HTTP protocol agent runtimes found. Found " + NatToString(count) + " ready agents ("
  }

  /** Reference definition of the names listed: all of them when there are at most three,
      else the first three and how many more there are. */
  function ListedNames(ready: seq<AgentRuntime>): string {
    if |ready| <= 3 then Join(Names(ready), ", ")
    else ready[0].name + ", " + ready[1].name + ", " + ready[2].name + " (and " + NatToString(|ready| - 3) + " more)"
  }

  /** `_handle_no_http_agents_error`: the message it always raises with. With no READY agent
      it is the plain text; otherwise it gives the count, lists the names shown, and ends with
      the advice. */
  function NoHttpMessage(ready: seq<AgentRuntime>): (r: string)
    ensures |ready| == 0 ==> r == NoReadyForHttpText
    ensures |ready| > 0 ==> StartsWith(r, NoHttpHead(|ready|) + ListedNames(ready) + "), ")
    ensures |ready| > 0 ==> EndsWith(r, NoHttpTail)
    ensures |ready| > 0 ==> r == NoHttpHead(|ready|) + ListedNames(ready) + "), " + NoHttpTail
  {
    if |ready| == 0 then NoReadyForHttpText
    else
      var head := NoHttpHead(|ready|) + Abbreviate(Names(ready), ", ") + "), ";
      NoHttpNames(ready);
      PrefixStartsWith(head, NoHttpTail);
      SuffixEndsWith(head, NoHttpTail);
      head + NoHttpTail
  }

  /** The names in the message: all of them when there are at most three, else the first
      three followed by the count of the others. */
  lemma NoHttpNames(ready: seq<AgentRuntime>)
    ensures Abbreviate(Names(ready), ", ") == ListedNames(ready)
  {
    if |ready| > 3 {
      AbbreviateLong(Names(ready), ", ");
    }
  }

  /** Why `NoAgentsAvailableError` is raised: no records at all, records but none READY,
      or READY agents none of which is HTTP. */
  datatype NoAgentsReason = NoRecords | NoneReady(all: seq<AgentRuntime>) | NoneHttp(ready: seq<AgentRuntime>)

  /** The message `NoAgentsAvailableError` carries. */
  function NoAgentsMessage(reason: NoAgentsReason): (r: string)
    ensures reason.NoneHttp? && |reason.ready| > 0 ==>
      StartsWith(r, NoHttpHead(|reason.ready|) + ListedNames(reason.ready) + "), ")
    ensures reason.NoneHttp? && |reason.ready| > 0 ==> EndsWith(r, NoHttpTail)
    ensures reason.NoneHttp? && |reason.ready| > 0 ==>
      r == NoHttpHead(|reason.ready|) + ListedNames(reason.ready) + "), " + NoHttpTail
    ensures reason.NoneHttp? && |reason.ready| == 0 ==> r == NoReadyForHttpText
    ensures reason.NoRecords? ==> r == NoAgentsText
    ensures reason.NoneReady? ==> r == NoReadyMessage(reason.all)
  {
    match reason
    case NoRecords => NoAgentsText
    case NoneReady(all) => NoReadyMessage(all)
    case NoneHttp(ready) => NoHttpMessage(ready)
  }

  /** Why `list_available_agents` (or `get_agent_by_name` before it) raises
      `AgentRuntimeError`: a non-retryable client error of the listing, handled with the
      `list_agents` context; retries running out on a transient fault; a record that did not
      convert; the filter finding every probe failed; or a blank name. */
  datatype RuntimeFailure =
    | ListingAws(clientErr: ClientErr)
    | RetriesExhausted(fault: SdkError)
    | RecordUnusable(convertErr: ConvertError)
    | ProbesFailed(failures: seq<ProbeFailure>)
    | BlankName

  const UnexpectedListingPrefix: string := "Unexpected error listing agents: "

  /** The message of the `AgentRuntimeError`: the errors raised inside the `try` of
      `list_available_agents` other than SDK errors are re-wrapped by its generic clause. */
  function RuntimeFailureMessage(f: RuntimeFailure): string {
    match f
    case ListingAws(ce) => AwsErrorMessage(Client(ce), Some(ListAgents))
    case RetriesExhausted(fault) => UnexpectedListingPrefix + ExhaustedMessage(fault)
    case RecordUnusable(c) => UnexpectedListingPrefix + ConvertErrorText(c)
    case ProbesFailed(fs) => ProbesFailedMessage(fs)
    case BlankName => "Agent name cannot be empty"
  }

  /** The filter's error as `list_available_agents` re-raises it: the generic prefix, then the
      count of agents and at most three of the error lines. */
  function ProbesFailedMessage(failures: seq<ProbeFailure>): string {
    UnexpectedListingPrefix + AllFailedMessage(failures)
  }

  /** Errors `list_available_agents` raises, by cause. `AttemptsRanOut` is not a behaviour of
      the program: it marks that the oracle had no answer left for the next call. */
  datatype ListError =
    | AgentRuntimeFailure(failure: RuntimeFailure)
    | NoAgentsAvailable(reason: NoAgentsReason)
    | AttemptsRanOut

  function NameOf(a: AgentRuntime): string { a.name }

  /** How a failure of `_fetch_all_agents` leaves `list_available_agents`: a non-retryable
      client error goes through `_handle_aws_error`; the `AgentRuntimeError`s and other
      exceptions raised inside the `try` are re-wrapped by the generic clause. */
  function FetchFailure(e: FetchError): (r: ListError)
    ensures r.AgentRuntimeFailure?
    ensures e.NotRetryable? <==> r.failure.ListingAws?
    ensures e.NotRetryable? ==> r.failure.clientErr == e.clientErr
    ensures e.Exhausted? ==> r.failure == RetriesExhausted(e.fault)
    ensures e.BadRecord? ==> r.failure == RecordUnusable(e.recordErr)
  {
    match e
    case NotRetryable(ce) => AgentRuntimeFailure(ListingAws(ce))
    case Exhausted(f) => AgentRuntimeFailure(RetriesExhausted(f))
    case BadRecord(c) => AgentRuntimeFailure(RecordUnusable(c))
  }

  /** The stages after the records are fetched: READY filter, HTTP filter, sort by name. */
  function SelectAgents(all: seq<AgentRuntime>, details: (string, string) -> DetailReply)
    : (r: Result<seq<AgentRuntime>, ListError>)
  {
    var ready := ReadyAgents(all);
    if |ready| == 0 then
      Err(NoAgentsAvailable(if |all| > 0 then NoneReady(all) else NoRecords))
    else match FilterHttp(ready, details)
      case Err(fs) => Err(AgentRuntimeFailure(ProbesFailed(fs)))
      case Ok(http) =>
        if |http| == 0 then Err(NoAgentsAvailable(NoneHttp(ready)))
        else Ok(StrOrder.SortBy(http, NameOf))
  }

  /** `list_available_agents` over the listing oracle `a` and the detail oracle. */
  function ListAvailableAgents(a: seq<Attempt>, details: (string, string) -> DetailReply)
    : (r: Result<seq<AgentRuntime>, ListError>)
    ensures r.Ok? ==> |r.value| > 0
  {
    match Fetch(a, 0, 0, None).outcome
    case OutOfAttempts => Err(AttemptsRanOut)
    case FetchFailed(e) => Err(FetchFailure(e))
    case Fetched(all) => SelectAgents(all, details)
  }

  /** A listing that succeeds holds exactly the READY agents whose protocol is HTTP, each
      once per occurrence in the records, sorted by name. */
  lemma SelectAgentsSuccess(all: seq<AgentRuntime>, details: (string, string) -> DetailReply)
    requires SelectAgents(all, details).Ok?
    ensures var r := SelectAgents(all, details).value;
      && |r| > 0
      && StrOrder.SortedBy(r, NameOf)
      && multiset(r) == multiset(HttpAgents(ReadyAgents(all), details))
      && (forall x :: x in r <==> x in all && x.status == Ready && IsHttp(x, details))
  {
    var ready := ReadyAgents(all);
    var http := HttpAgents(ready, details);
    var r := StrOrder.SortBy(http, NameOf);
    forall x | x in all && x.status == Ready && IsHttp(x, details) ensures x in r {
      var i := Dedup.IndexOf(ready, x);
      assert x in http;
      assert x in multiset(http);
    }
    forall x | x in r ensures x in all && x.status == Ready && IsHttp(x, details) {
      assert x in multiset(r);
      assert x in http;
    }
  }

  /** `NoAgentsAvailableError` is raised exactly when either no record is READY, or the READY
      ones were probed, not all probes failed, and none is HTTP; the filter's own error is
      raised exactly when every probe failed. */
  lemma SelectAgentsErrors(all: seq<AgentRuntime>, details: (string, string) -> DetailReply)
    ensures var r := SelectAgents(all, details);
      && (r.Err? && r.error.NoAgentsAvailable? <==>
            ReadyAgents(all) == []
            || (!AllFailed(ReadyAgents(all), details) && HttpAgents(ReadyAgents(all), details) == []))
      && (r.Err? && r.error.AgentRuntimeFailure? <==> ReadyAgents(all) != [] && AllFailed(ReadyAgents(all), details))
      && (r.Err? && r.error.AgentRuntimeFailure? ==>
            r.error.failure == ProbesFailed(ProbeErrors(ReadyAgents(all), details)))
      && (r.Err? && r.error.NoAgentsAvailable? && ReadyAgents(all) != [] ==>
            r.error.reason == NoneHttp(ReadyAgents(all)))
  {
    var ready := ReadyAgents(all);
    if ready != [] {
      var f := FilterHttp(ready, details);
      assert f.Err? <==> AllFailed(ready, details);
    }
  }

  /** With no READY record the error says whether there were records at all; when there
      were, its message carries the per-status tally. */
  lemma SelectAgentsNoReady(all: seq<AgentRuntime>, details: (string, string) -> DetailReply)
    requires ReadyAgents(all) == []
    ensures |all| == 0 ==> SelectAgents(all, details) == Err(NoAgentsAvailable(NoRecords))
    ensures |all| > 0 ==> SelectAgents(all, details) == Err(NoAgentsAvailable(NoneReady(all)))
  {
  }

  /** A client error the retry loop does not retry is reported through `_handle_aws_error` with
      the listing context; every other failure is re-wrapped as an unexpected error. */
  lemma ListFailures(a: seq<Attempt>, details: (string, string) -> DetailReply)
    ensures var o := Fetch(a, 0, 0, None).outcome;
      var r := ListAvailableAgents(a, details);
      && (o.FetchFailed? && o.error.NotRetryable? ==>
            r == Err(AgentRuntimeFailure(ListingAws(o.error.clientErr))))
      && (o.FetchFailed? && !o.error.NotRetryable? ==>
            r.Err? && r.error.AgentRuntimeFailure?
            && (r.error.failure.RetriesExhausted? || r.error.failure.RecordUnusable?))
      && (o.Fetched? ==> r == SelectAgents(o.agents, details))
  {
  }

  /** The position of the first agent named exactly `name`, or `|agents|` when none is. */
  function FirstNamed(agents: seq<AgentRuntime>, name: string): (i: nat)
    ensures i <= |agents|
    ensures i < |agents| ==> agents[i].name == name
    ensures forall j :: 0 <= j < i ==> agents[j].name != name
  {
    if |agents| == 0 || agents[0].name == name then 0
    else
      var i := FirstNamed(agents[1..], name);
      assert forall j :: 0 < j <= i ==> agents[j] == agents[1..][j - 1];
      1 + i
  }

  /** The first agent in `agents` whose name equals `name` exactly. */
  function FindByName(agents: seq<AgentRuntime>, name: string): (r: Option<AgentRuntime>)
    ensures r.Some? ==> r.value in agents && r.value.name == name
    ensures r.Some? ==> exists i :: 0 <= i < |agents| && agents[i] == r.value
                                     && forall j :: 0 <= j < i ==> agents[j].name != name
    ensures r.None? <==> forall x :: x in agents ==> x.name != name
  {
    var i := FirstNamed(agents, name);
    if i < |agents| then Some(agents[i]) else None
  }

  /** `get_agent_by_name`: a blank name is refused; otherwise the listing's errors pass
      through unchanged and the result is the first exact, case-sensitive name match. */
  function GetAgentByName(name: string, a: seq<Attempt>, details: (string, string) -> DetailReply)
    : (r: Result<Option<AgentRuntime>, ListError>)
    ensures IsBlank(name) ==> r == Err(AgentRuntimeFailure(BlankName))
    ensures !IsBlank(name) && ListAvailableAgents(a, details).Err? ==> r == Err(ListAvailableAgents(a, details).error)
    ensures r.Ok? && r.value.Some? ==> r.value.value in ListAvailableAgents(a, details).value
                                       && r.value.value.name == name
    ensures r.Ok? && r.value.None? ==> forall x :: x in ListAvailableAgents(a, details).value ==> x.name != name
  {
    if IsBlank(name) then Err(AgentRuntimeFailure(BlankName))
    else match ListAvailableAgents(a, details)
      case Err(e) => Err(e)
      case Ok(agents) => Ok(FindByName(agents, name))
  }
}

=== FILE: seqs.dfy ===
/** Small facts about sequence concatenation and slicing, stated once so that proofs about
    long definitions can cite them instead of rediscovering them in a large context. */
module Seqs {

  lemma AppendAssoc<T>(a: seq<T>, b: seq<T>, c: seq<T>)
    ensures a + (b + c) == (a + b) + c
  {
  }

  /** The last element of a non-empty right operand, split off. */
  lemma SplitLast<T>(a: seq<T>, b: seq<T>)
    requires |b| > 0
    ensures a + b == (a + b[..|b| - 1]) + [b[|b| - 1]]
  {
  }

  /** The first element of a non-empty left operand, split off. */
  lemma SplitFirst<T>(a: seq<T>, b: seq<T>)
    requires |a| > 0
    ensures (a + b)[0] == a[0] && (a + b)[1..] == a[1..] + b
  {
  }

  /** A non-empty right operand supplies the last element. */
  lemma LastOfAppend<T>(a: seq<T>, b: seq<T>)
    ensures |b| > 0 ==> (a + b)[|a + b| - 1] == b[|b| - 1]
  {
  }

  lemma ButLast<T>(s: seq<T>, x: T)
    ensures (s + [x])[..|s|] == s
  {
  }

  lemma TakeSnoc<T>(s: seq<T>, i: nat)
    requires i < |s|
    ensures s[..i + 1] == s[..i] + [s[i]]
  {
  }

  lemma TakeAll<T>(s: seq<T>)
    ensures s[..|s|] == s
  {
  }

  lemma AppendTakeSnoc<T>(a: seq<T>, s: seq<T>, j: nat)
    requires j < |s|
    ensures a + s[..j] + [s[j]] == a + s[..j + 1]
  {
    assert s[..j + 1] == s[..j] + [s[j]];
  }
}

=== FILE: str_order.dfy ===
/** Python's ordering of `str` values (code point by code point, a proper prefix first)
    and the stable sort `list.sort(key=...)` performs with it. */
module StrOrder {

  /** Python's `a <= b` on strings. */
  predicate Le(a: string, b: string)
    decreases |a|
  {
    |a| == 0 || (|b| > 0 && (a[0] < b[0] || (a[0] == b[0] && Le(a[1..], b[1..]))))
  }

  lemma {:induction false} LeReflexive(a: string)
    ensures Le(a, a)
    decreases |a|
  {
    if |a| > 0 {
      LeReflexive(a[1..]);
    }
  }

  lemma {:induction false} LeTotal(a: string, b: string)
    ensures Le(a, b) || Le(b, a)
    decreases |a|
  {
    if |a| > 0 && |b| > 0 && a[0] == b[0] {
      LeTotal(a[1..], b[1..]);
    }
  }

  lemma {:induction false} LeTransitive(a: string, b: string, c: string)
    requires Le(a, b) && Le(b, c)
    ensures Le(a, c)
    decreases |a|
  {
    if |a| > 0 && a[0] == b[0] && b[0] == c[0] {
      LeTransitive(a[1..], b[1..], c[1..]);
    }
  }

  ghost predicate SortedBy<T>(s: seq<T>, key: T -> string) {
    forall i, j :: 0 <= i < j < |s| ==> Le(key(s[i]), key(s[j]))
  }

  /** The elements of `s` whose key is `k`, in their order in `s`. */
  function WithKey<T>(s: seq<T>, key: T -> string, k: string): seq<T> {
    if |s| == 0 then []
    else (if key(s[0]) == k then [s[0]] else []) + WithKey(s[1..], key, k)
  }

  /** Places `x` before the first element whose key is not smaller, so `x` stays ahead of equal keys. */
  function Insert<T>(x: T, s: seq<T>, key: T -> string): seq<T> {
    if |s| == 0 || Le(key(x), key(s[0])) then [x] + s
    else [s[0]] + Insert(x, s[1..], key)
  }

  /** Inserting adds `x` and keeps every other element. */
  lemma {:induction false} InsertPermutes<T>(x: T, s: seq<T>, key: T -> string)
    ensures multiset(Insert(x, s, key)) == multiset(s) + multiset{x}
    decreases |s|
  {
    if |s| > 0 && !Le(key(x), key(s[0])) {
      InsertPermutes(x, s[1..], key);
      assert s == [s[0]] + s[1..];
    }
  }

  /** The head of a sorted sequence has a key no larger than any later element's. */
  lemma HeadFirst<T>(s: seq<T>, key: T -> string, y: T)
    requires SortedBy(s, key) && |s| > 0 && y in s[1..]
    ensures Le(key(s[0]), key(y))
  {
    var m :| 0 <= m < |s[1..]| && s[1..][m] == y;
    assert s[m + 1] == y;
  }

  /** An element no larger than any other may go in front of a sorted sequence. */
  lemma ConsSorted<T>(h: T, t: seq<T>, key: T -> string)
    requires SortedBy(t, key) && forall y :: y in t ==> Le(key(h), key(y))
    ensures SortedBy([h] + t, key)
  {
    var r := [h] + t;
    forall i, j | 0 <= i < j < |r| ensures Le(key(r[i]), key(r[j])) {
      if i == 0 {
        assert r[j] == t[j - 1];
      } else {
        assert r[i] == t[i - 1] && r[j] == t[j - 1];
      }
    }
  }

  lemma {:induction false} InsertSorted<T>(x: T, s: seq<T>, key: T -> string)
    requires SortedBy(s, key)
    ensures SortedBy(Insert(x, s, key), key)
    decreases |s|
  {
    if |s| == 0 || Le(key(x), key(s[0])) {
      forall y | y in s ensures Le(key(x), key(y)) {
        if y != s[0] {
          assert y in s[1..] by {
            assert s == [s[0]] + s[1..];
          }
          HeadFirst(s, key, y);
          LeTransitive(key(x), key(s[0]), key(y));
        }
      }
      ConsSorted(x, s, key);
    } else {
      LeTotal(key(x), key(s[0]));
      assert SortedBy(s[1..], key);
      InsertSorted(x, s[1..], key);
      InsertPermutes(x, s[1..], key);
      var t := Insert(x, s[1..], key);
      forall y | y in t ensures Le(key(s[0]), key(y)) {
        assert y in multiset(t);
        if y != x {
          assert y in multiset(s[1..]);
          HeadFirst(s, key, y);
        }
      }
      ConsSorted(s[0], t, key);
    }
  }

  lemma {:induction false} InsertWithKey<T>(x: T, s: seq<T>, key: T -> string, k: string)
    requires SortedBy(s, key)
    ensures WithKey(Insert(x, s, key), key, k)
         == (if key(x) == k then [x] else []) + WithKey(s, key, k)
    decreases |s|
  {
    if |s| == 0 || Le(key(x), key(s[0])) {
      assert WithKey([x] + s, key, k) == (if key(x) == k then [x] else []) + WithKey(s, key, k) by {
        assert ([x] + s)[1..] == s;
      }
    } else {
      LeReflexive(key(x));
      assert key(x) != key(s[0]);
      assert SortedBy(s[1..], key);
      InsertWithKey(x, s[1..], key, k);
      var t := Insert(x, s[1..], key);
      var w := WithKey(s[1..], key, k);
      var head := if key(s[0]) == k then [s[0]] else [];
      var mine := if key(x) == k then [x] else [];
      assert WithKey(t, key, k) == mine + w;
      assert WithKey([s[0]] + t, key, k) == head + (mine + w) by {
        assert ([s[0]] + t)[1..] == t;
      }
      assert WithKey(s, key, k) == head + w;
      assert head + (mine + w) == mine + (head + w) by {
        if key(x) == k {
          assert head == [];
        } else {
          assert mine == [];
        }
      }
    }
  }

  /** `sorted(s, key=key)`: insertion sort, stable like Python's. */
  function SortBy<T>(s: seq<T>, key: T -> string): (r: seq<T>)
    ensures SortedBy(r, key)
    ensures multiset(r) == multiset(s)
    ensures forall k :: WithKey(r, key, k) == WithKey(s, key, k)
  {
    if |s| == 0 then []
    else
      var rest := SortBy(s[1..], key);
      InsertSorted(s[0], rest, key);
      InsertPermutes(s[0], rest, key);
      assert s == [s[0]] + s[1..];
      forall k ensures WithKey(Insert(s[0], rest, key), key, k) == WithKey(s, key, k) {
        InsertWithKey(s[0], rest, key, k);
      }
      Insert(s[0], rest, key)
  }
}

=== FILE: tool_stream.dfy ===
/** The event loop of the two tool-using agent entrypoints, `strands_agent_bedrock` in
    labs/02-tools/01-database-tools-gateway/agent.py and
    labs/02-tools/02-bring-your-own-tools/agent.py: the agent's event stream turned into the
    chunks the entrypoint yields. A tool is announced only when its name differs from the one
    remembered since the last text. The event stream, the gateway token, the tool search and
    the parameter store are supplied from outside. */
module ToolStream {
  import opened Wrappers
  import opened PyStr
  import opened JsonValue
  import opened Seqs

  // ---------------------------------------------------------------------------------------
  // Events and chunks

  /** One entry of a message's `content`: whether it has a `toolResult` key, and the text of
      its `reasoningContent`, if it has one. */
  datatype ContentItem = ContentItem(toolResult: bool, reasoning: Option<string>)

  /** The keys of an agent event the loop looks at. `toolUse` is the `current_tool_use` entry
      with the `name` it holds, if any; `content` is the message's `content` when the event
      has a `message` with that key; `data` is the text the event carries. */
  datatype Event = Event(toolUse: Option<Option<string>>, content: Option<seq<ContentItem>>, data: Option<string>)

  /** What iterating `stream_async` gives: an event, or the exception it raised (its `str()`). */
  datatype StreamItem = Ev(event: Event) | Raised(detail: string)

  /** What the entrypoint yields, by kind. */
  datatype Chunk =
    | ToolChunk(name: string)
    | ReasoningChunk(text: string)
    | DataChunk(data: string)
    | ErrorChunk(detail: string)

  const ToolPrefix: string := "\n\n\U{1F527} Using tool: "
  const ReasoningPrefix: string := "\n\n\U{1F527} Reasoning: "
  const ChunkEnd: string := "\n\n"
  const ErrorPrefix: string := "Error processing request: "

  /** `str()` of the `KeyError` that `event["current_tool_use"]["name"]` raises. */
  const MissingNameText: string := "'name'"

  /** The string yielded for a chunk; data goes out as it came. */
  function Text(c: Chunk): string {
    match c
    case ToolChunk(n) => ToolPrefix + n + ChunkEnd
    case ReasoningChunk(t) => ReasoningPrefix + t + ChunkEnd
    case DataChunk(d) => d
    case ErrorChunk(d) => ErrorPrefix + d
  }

  function Render(chunks: seq<Chunk>): (r: seq<string>)
    ensures |r| == |chunks|
    ensures forall k :: 0 <= k < |chunks| ==> r[k] == Text(chunks[k])
  {
    if |chunks| == 0 then [] else Render(chunks[..|chunks| - 1]) + [Text(chunks[|chunks| - 1])]
  }

  predicate AllReasoning(chunks: seq<Chunk>) {
    forall k :: 0 <= k < |chunks| ==> chunks[k].ReasoningChunk?
  }

  /** An entry shows its reasoning: it has no tool result and does have reasoning text. */
  predicate ShowsReasoning(item: ContentItem) {
    !item.toolResult && item.reasoning.Some?
  }

  /** Reference definition, read from the front: the reasoning text of each entry that shows
      one, in order. */
  function Reasonings(content: seq<ContentItem>): seq<Chunk> {
    if |content| == 0 then []
    else
      var shown := if ShowsReasoning(content[0]) then [ReasoningChunk(content[0].reasoning.value)] else [];
      shown + Reasonings(content[1..])
  }

  lemma {:induction false} ReasoningsSnoc(content: seq<ContentItem>, item: ContentItem)
    ensures Reasonings(content + [item])
      == Reasonings(content) + (if ShowsReasoning(item) then [ReasoningChunk(item.reasoning.value)] else [])
  {
    if |content| > 0 {
      assert (content + [item])[1..] == content[1..] + [item];
      ReasoningsSnoc(content[1..], item);
    }
  }

  /** The reasoning chunks of a message's content, as the `for` loop over it yields them:
      entries with a tool result are skipped, and so are entries with neither key. */
  function MessageChunks(content: seq<ContentItem>): (r: seq<Chunk>)
    ensures r == Reasonings(content)
    ensures AllReasoning(r) && |r| <= |content|
    ensures (forall k :: 0 <= k < |content| ==> content[k].toolResult || content[k].reasoning.None?) ==> r == []
  {
    if |content| == 0 then []
    else
      var item := content[|content| - 1];
      var prev := MessageChunks(content[..|content| - 1]);
      ReasoningsSnoc(content[..|content| - 1], item);
      assert content[..|content| - 1] + [item] == content;
      if ShowsReasoning(item) then prev + [ReasoningChunk(item.reasoning.value)] else prev
  }

  // ---------------------------------------------------------------------------------------
  // One event

  /** The event names a tool other than the remembered one. Python's `.get("name")` gives
      None for a missing name, so a nameless tool use differs from every remembered name. */
  predicate Changed(remembered: Option<string>, e: Event) {
    e.toolUse.Some? && e.toolUse.value != remembered
  }

  /** The chunks one event yields and the name remembered afterwards. */
  datatype Turn = Turn(chunks: seq<Chunk>, remembered: Option<string>)

  /** One pass of the loop body. A changed tool name is announced and remembered; otherwise the
      message content is shown. Independently of that, data is yielded last and clears the
      remembered name. A changed tool use without a name raises `KeyError` before anything is
      yielded. */
  function Step(remembered: Option<string>, e: Event): (r: Result<Turn, string>)
    ensures r.Err? <==> Changed(remembered, e) && e.toolUse.value.None?
    ensures r.Err? ==> r.error == MissingNameText
    ensures r.Ok? ==> forall k :: 0 <= k < |r.value.chunks| ==> !r.value.chunks[k].ErrorChunk?
    ensures r.Ok? ==> (Changed(remembered, e) <==> |r.value.chunks| > 0 && r.value.chunks[0].ToolChunk?)
    ensures r.Ok? && Changed(remembered, e) ==> r.value.chunks[0] == ToolChunk(e.toolUse.value.value)
    ensures r.Ok? ==> forall k :: 1 <= k < |r.value.chunks| ==> !r.value.chunks[k].ToolChunk?
    ensures r.Ok? && e.data.Some? ==> (r.value.remembered.None? && |r.value.chunks| > 0
      && r.value.chunks[|r.value.chunks| - 1] == DataChunk(e.data.value))
    ensures r.Ok? && e.data.None? ==> (r.value.remembered == if Changed(remembered, e) then e.toolUse.value else remembered)
    ensures r.Ok? && !Changed(remembered, e) && e.content.Some? ==> MessageChunks(e.content.value) <= r.value.chunks
    ensures r.Ok? && Changed(remembered, e) ==>
      r.value.chunks == [ToolChunk(e.toolUse.value.value)] + (if e.data.Some? then [DataChunk(e.data.value)] else [])
    ensures r.Ok? && !Changed(remembered, e) ==>
      r.value.chunks == (if e.content.Some? then Reasonings(e.content.value) else [])
        + (if e.data.Some? then [DataChunk(e.data.value)] else [])
  {
    if Changed(remembered, e) && e.toolUse.value.None? then Err(MissingNameText)
    else
      var first := if Changed(remembered, e) then [ToolChunk(e.toolUse.value.value)]
                   else if e.content.Some? then MessageChunks(e.content.value)
                   else [];
      var after := if Changed(remembered, e) then e.toolUse.value else remembered;
      match e.data
      case Some(d) => Ok(Turn(first + [DataChunk(d)], None))
      case None => Ok(Turn(first, after))
  }

  // ---------------------------------------------------------------------------------------
  // The stream

  /** Where the loop stands: what it has yielded, the remembered tool name, and whether an
      exception has ended it. */
  datatype Run = Run(chunks: seq<Chunk>, remembered: Option<string>, ended: bool)

  /** The `try`/`except` around the loop: events step in order, and the first exception,
      from the stream or from the loop body, yields one error chunk and ends the stream. */
  function Stream(items: seq<StreamItem>): (r: Run)
    ensures r.ended <==> |r.chunks| > 0 && r.chunks[|r.chunks| - 1].ErrorChunk?
    ensures forall k :: 0 <= k < |r.chunks| - 1 ==> !r.chunks[k].ErrorChunk?
  {
    if |items| == 0 then Run([], None, false)
    else
      var prev := Stream(items[..|items| - 1]);
      if prev.ended then prev else Advance(prev, items[|items| - 1])
  }

  /** One more item read by a loop that has not ended. */
  function Advance(prev: Run, x: StreamItem): (r: Run)
    ensures prev.chunks <= r.chunks
    ensures r.ended <==> |r.chunks| > |prev.chunks| && r.chunks[|r.chunks| - 1].ErrorChunk?
    ensures forall k :: |prev.chunks| <= k < |r.chunks| - 1 ==> !r.chunks[k].ErrorChunk?
  {
    match x
    case Raised(d) => Run(prev.chunks + [ErrorChunk(d)], prev.remembered, true)
    case Ev(e) =>
      match Step(prev.remembered, e)
      case Err(d) => Run(prev.chunks + [ErrorChunk(d)], prev.remembered, true)
      case Ok(t) => Run(prev.chunks + t.chunks, t.remembered, false)
  }

  lemma StreamSnoc(items: seq<StreamItem>, x: StreamItem)
    ensures Stream(items + [x]) == if Stream(items).ended then Stream(items) else Advance(Stream(items), x)
  {
    ButLast(items, x);
  }


  /** Nothing after the first exception is read. */
  lemma {:induction false} EndedStays(items: seq<StreamItem>, more: seq<StreamItem>)
    requires Stream(items).ended
    ensures Stream(items + more) == Stream(items)
    decreases |more|
  {
    if |more| == 0 {
      assert items + more == items;
    } else {
      var init := more[..|more| - 1];
      EndedStays(items, init);
      SplitLast(items, more);
      StreamSnoc(items + init, more[|more| - 1]);
    }
  }

  /** A stream exception yields exactly one error chunk, carrying its text, and ends the
      output there whatever follows. */
  lemma FaultEnds(a: seq<StreamItem>, d: string, b: seq<StreamItem>)
    requires !Stream(a).ended
    ensures Stream(a + [Raised(d)] + b).chunks == Stream(a).chunks + [ErrorChunk(d)]
    ensures Render(Stream(a + [Raised(d)] + b).chunks) == Render(Stream(a).chunks) + [ErrorPrefix + d]
  {
    var p, c := a + [Raised(d)], Stream(a).chunks;
    RaisedEnds(a, d);
    EndedStays(p, b);
    assert Stream(a + [Raised(d)] + b).chunks == c + [ErrorChunk(d)];
    RenderError(c, d);
  }

  lemma RenderError(chunks: seq<Chunk>, d: string)
    ensures Render(chunks + [ErrorChunk(d)]) == Render(chunks) + [ErrorPrefix + d]
  {
    RenderSnoc(chunks, ErrorChunk(d));
  }

  lemma RaisedEnds(a: seq<StreamItem>, d: string)
    requires !Stream(a).ended
    ensures Stream(a + [Raised(d)]) == Run(Stream(a).chunks + [ErrorChunk(d)], Stream(a).remembered, true)
  {
    StreamSnoc(a, Raised(d));
  }

  lemma RenderSnoc(chunks: seq<Chunk>, c: Chunk)
    ensures Render(chunks + [c]) == Render(chunks) + [Text(c)]
  {
    ButLast(chunks, c);
  }

  // ---------------------------------------------------------------------------------------
  // The remembered name, read back from the output

  /** The name of the last tool announced since the last data chunk, if any. */
  function Remembered(chunks: seq<Chunk>): Option<string> {
    if |chunks| == 0 then None
    else match chunks[|chunks| - 1]
      case ToolChunk(n) => Some(n)
      case DataChunk(_) => None
      case _ => Remembered(chunks[..|chunks| - 1])
  }

  /** No tool is announced twice in a row without a data chunk between: each announcement
      names a tool other than the one announced last since the last data chunk. */
  predicate Deduplicated(chunks: seq<Chunk>) {
    forall j :: 0 <= j < |chunks| && chunks[j].ToolChunk? ==> Remembered(chunks[..j]) != Some(chunks[j].name)
  }

  lemma Snoc(out: seq<Chunk>, c: Chunk)
    ensures Remembered(out + [c]) == match c
      case ToolChunk(n) => Some(n)
      case DataChunk(_) => None
      case _ => Remembered(out)
    ensures Deduplicated(out + [c]) <==> Deduplicated(out) && (c.ToolChunk? ==> Remembered(out) != Some(c.name))
  {
    var o := out + [c];
    assert o[..|out|] == out;
    forall j | 0 <= j < |out|
      ensures o[..j] == out[..j]
    {
    }
  }

  lemma {:induction false} ReasoningKeeps(out: seq<Chunk>, rs: seq<Chunk>)
    requires AllReasoning(rs)
    ensures Remembered(out + rs) == Remembered(out)
    ensures Deduplicated(out + rs) == Deduplicated(out)
    decreases |rs|
  {
    if |rs| == 0 {
      assert out + rs == out;
    } else {
      var init := rs[..|rs| - 1];
      ReasoningKeeps(out, init);
      SplitLast(out, rs);
      Snoc(out + init, rs[|rs| - 1]);
    }
  }

  /** One step keeps the remembered name equal to what the output says and keeps the output
      free of repeated announcements. */
  lemma StepKeeps(out: seq<Chunk>, e: Event)
    requires Deduplicated(out) && Step(Remembered(out), e).Ok?
    ensures var t := Step(Remembered(out), e).value;
      Remembered(out + t.chunks) == t.remembered && Deduplicated(out + t.chunks)
  {
    var rem := Remembered(out);
    var t := Step(rem, e).value;
    var first := if Changed(rem, e) then [ToolChunk(e.toolUse.value.value)]
                 else if e.content.Some? then MessageChunks(e.content.value)
                 else [];
    if Changed(rem, e) {
      Snoc(out, ToolChunk(e.toolUse.value.value));
    } else {
      ReasoningKeeps(out, first);
    }
    if e.data.Some? {
      assert t.chunks == first + [DataChunk(e.data.value)];
      AppendAssoc(out, first, [DataChunk(e.data.value)]);
      Snoc(out + first, DataChunk(e.data.value));
    }
  }

  /** The loop's `tool_name` is always what its own output says it is, and a tool is never
      announced again before the next data chunk unless another tool came between. */
  lemma {:induction false} StreamDeduplicated(items: seq<StreamItem>)
    ensures Stream(items).remembered == Remembered(Stream(items).chunks)
    ensures Deduplicated(Stream(items).chunks)
  {
    if |items| > 0 {
      var init := items[..|items| - 1];
      StreamDeduplicated(init);
      var prev := Stream(init);
      if !prev.ended {
        match items[|items| - 1]
        case Raised(d) =>
          Snoc(prev.chunks, ErrorChunk(d));
        case Ev(e) =>
          match Step(prev.remembered, e)
          case Err(d) =>
            Snoc(prev.chunks, ErrorChunk(d));
          case Ok(t) =>
            StepKeeps(prev.chunks, e);
      }
    }
  }

  /** Right after a data chunk nothing is remembered, so the next tool use with a name is
      announced even if it is the tool announced before the text. */
  lemma ReannouncedAfterData(items: seq<StreamItem>, d: string, name: string)
    requires !Stream(items).ended
    requires |Stream(items).chunks| > 0 && Stream(items).chunks[|Stream(items).chunks| - 1] == DataChunk(d)
    ensures Stream(items + [Ev(Event(Some(Some(name)), None, None))]).chunks
      == Stream(items).chunks + [ToolChunk(name)]
  {
    StreamDeduplicated(items);
    StreamSnoc(items, Ev(Event(Some(Some(name)), None, None)));
  }

  // ---------------------------------------------------------------------------------------
  // Data passes through

  /** The data chunks of an output, in order. */
  function Datas(chunks: seq<Chunk>): seq<string> {
    if |chunks| == 0 then []
    else Datas(chunks[..|chunks| - 1]) + (if chunks[|chunks| - 1].DataChunk? then [chunks[|chunks| - 1].data] else [])
  }

  /** The data texts the events carry, in order. */
  function EventData(items: seq<StreamItem>): seq<string> {
    if |items| == 0 then []
    else
      var last := items[|items| - 1];
      EventData(items[..|items| - 1]) + (if last.Ev? && last.event.data.Some? then [last.event.data.value] else [])
  }

  lemma {:induction false} DatasAppend(a: seq<Chunk>, b: seq<Chunk>)
    ensures Datas(a + b) == Datas(a) + Datas(b)
    decreases |b|
  {
    if |b| == 0 {
      assert a + b == a;
    } else {
      var init := b[..|b| - 1];
      DatasAppend(a, init);
      assert (a + b)[..|a + b| - 1] == a + init;
    }
  }

  lemma {:induction false} ReasoningHasNoData(rs: seq<Chunk>)
    requires AllReasoning(rs)
    ensures Datas(rs) == []
    decreases |rs|
  {
    if |rs| > 0 {
      ReasoningHasNoData(rs[..|rs| - 1]);
    }
  }

  lemma StepData(rem: Option<string>, e: Event)
    requires Step(rem, e).Ok?
    ensures Datas(Step(rem, e).value.chunks) == if e.data.Some? then [e.data.value] else []
  {
    var first := if Changed(rem, e) then [ToolChunk(e.toolUse.value.value)]
                 else if e.content.Some? then MessageChunks(e.content.value)
                 else [];
    assert Datas(first) == [] by {
      if Changed(rem, e) {
        assert first[..0] == [];
      } else {
        ReasoningHasNoData(first);
      }
    }
    if e.data.Some? {
      DatasAppend(first, [DataChunk(e.data.value)]);
    }
  }

  /** Until an exception ends it, the stream yields the data of every event once, verbatim
      and in order. */
  lemma {:induction false} DataPassesThrough(items: seq<StreamItem>)
    requires !Stream(items).ended
    ensures Datas(Stream(items).chunks) == EventData(items)
  {
    if |items| > 0 {
      var init := items[..|items| - 1];
      var prev := Stream(init);
      assert !prev.ended;
      DataPassesThrough(init);
      match items[|items| - 1]
      case Ev(e) =>
        var t := Step(prev.remembered, e).value;
        DatasAppend(prev.chunks, t.chunks);
        StepData(prev.remembered, e);
    }
  }

  // ---------------------------------------------------------------------------------------
  // The two entrypoints

  /** The database-tools agent: `toolsFound` is how many tools the semantic search returned.
      `tools_found[0]` raises before anything is yielded when there are none. */
  function DatabaseToolsAgent(toolsFound: nat, items: seq<StreamItem>): (r: Result<seq<string>, string>)
    ensures r.Err? <==> toolsFound == 0
    ensures r.Err? ==> r.error == ListIndexError
    ensures r.Ok? ==> (|r.value| == |Stream(items).chunks|
      && forall k :: 0 <= k < |r.value| ==> r.value[k] == Text(Stream(items).chunks[k]))
  {
    if toolsFound == 0 then Err(ListIndexError) else Ok(Render(Stream(items).chunks))
  }

  const DefaultId: string := "DEFAULT"
  const NoSessionText: string := "Context session_id is not set"

  /** The memory configuration: the memory id and the session and actor the payload names. */
  datatype MemoryConfig = MemoryConfig(memoryId: string, sessionId: JValue, actorId: JValue)

  /** `payload.get(key, default)`: a present key gives its value, even a null one. */
  function GetOrDefault(payload: map<string, JValue>, key: string, default: JValue): JValue {
    if key in payload then payload[key] else default
  }

  /** The memory id is the last "/"-separated segment of the memory ARN; actor and session
      default to "DEFAULT", and a session given but falsy raises. */
  function MemoryConfigOf(memArn: string, payload: map<string, JValue>): (r: Result<MemoryConfig, string>)
    ensures r.Err? <==> "session_id" in payload && !Truthy(payload["session_id"])
    ensures r.Err? ==> r.error == NoSessionText
    ensures r.Ok? ==> Truthy(r.value.sessionId)
    ensures r.Ok? && "session_id" !in payload ==> r.value.sessionId == JStr(DefaultId)
    ensures r.Ok? && "session_id" in payload ==> r.value.sessionId == payload["session_id"]
    ensures r.Ok? && "actor_id" !in payload ==> r.value.actorId == JStr(DefaultId)
    ensures r.Ok? && "actor_id" in payload ==> r.value.actorId == payload["actor_id"]
    ensures r.Ok? ==> ('/' !in r.value.memoryId && EndsWith(memArn, r.value.memoryId)
      && (|r.value.memoryId| < |memArn| ==> memArn[|memArn| - |r.value.memoryId| - 1] == '/'))
  {
    var session := GetOrDefault(payload, "session_id", JStr(DefaultId));
    if !Truthy(session) then Err(NoSessionText)
    else Ok(MemoryConfig(LastSegment(memArn, '/'), session, GetOrDefault(payload, "actor_id", JStr(DefaultId))))
  }

  /** An ARN ending in "/<id>" gives `<id>` as the memory id. */
  lemma MemoryIdOfArn(prefix: string, id: string, payload: map<string, JValue>)
    requires '/' !in id
    requires MemoryConfigOf(prefix + "/" + id, payload).Ok?
    ensures MemoryConfigOf(prefix + "/" + id, payload).value.memoryId == id
  {
    var arn := prefix + "/" + id;
    assert arn[|arn| - |id| - 1] == '/';
    assert arn[|arn| - |id|..] == id;
  }

  /** The bring-your-own-tools agent: the session check comes first, then the tool search,
      then the stream. */
  function BringYourOwnToolsAgent(memArn: string, payload: map<string, JValue>, toolsFound: nat,
                                  items: seq<StreamItem>)
    : (r: Result<(MemoryConfig, seq<string>), string>)
    ensures MemoryConfigOf(memArn, payload).Err? ==> r == Err(NoSessionText)
    ensures MemoryConfigOf(memArn, payload).Ok? && toolsFound == 0 ==> r == Err(ListIndexError)
    ensures r.Ok? ==> (r.value.0 == MemoryConfigOf(memArn, payload).value
      && Ok(r.value.1) == DatabaseToolsAgent(toolsFound, items))
  {
    match MemoryConfigOf(memArn, payload)
    case Err(e) => Err(e)
    case Ok(config) =>
      match DatabaseToolsAgent(toolsFound, items)
      case Err(e) => Err(e)
      case Ok(out) => Ok((config, out))
  }
}

=== FILE: wrappers.dfy ===
/** Option and Result, the two failure-carrying datatypes the model uses in place of
    Python's None and raised exceptions. */
module Wrappers {

  datatype Option<+T> = None | Some(value: T) {

    /** The value if present, else the given default (Python's `x if x is not None else d`). */
    function GetOr(default: T): T {
      match this
      case Some(v) => v
      case None => default
    }
  }

  /** Ok carries a returned value; Err carries the exception the source would raise. */
  datatype Result<+T, +E> = Ok(value: T) | Err(error: E)

  /** Applies `f` to each element in order and stops at the first failure, as a loop that
      raises out of its body does. */
  function MapAll<A, B, E>(f: A -> Result<B, E>, xs: seq<A>): (r: Result<seq<B>, E>)
    ensures r.Ok? ==> |r.value| == |xs|
  {
    if |xs| == 0 then Ok([])
    else match f(xs[0])
      case Err(e) => Err(e)
      case Ok(b) =>
        match MapAll(f, xs[1..])
        case Err(e) => Err(e)
        case Ok(rest) => Ok([b] + rest)
  }

  /** A mapped list holds exactly the images, in order; a failure is that of the first
      element `f` rejects. */
  lemma {:induction false} MapAllPointwise<A, B, E>(f: A -> Result<B, E>, xs: seq<A>)
    ensures MapAll(f, xs).Ok? <==> forall k :: 0 <= k < |xs| ==> f(xs[k]).Ok?
    ensures MapAll(f, xs).Ok? ==> forall k :: 0 <= k < |xs| ==> f(xs[k]) == Ok(MapAll(f, xs).value[k])
    ensures MapAll(f, xs).Err? ==>
      exists k :: 0 <= k < |xs| && f(xs[k]) == Err(MapAll(f, xs).error) && forall m :: 0 <= m < k ==> f(xs[m]).Ok?
    decreases |xs|
  {
    if |xs| > 0 {
      MapAllPointwise(f, xs[1..]);
      assert forall k :: 1 <= k < |xs| ==> xs[k] == xs[1..][k - 1];
      if f(xs[0]).Ok? && MapAll(f, xs[1..]).Err? {
        var k :| 0 <= k < |xs| - 1 && f(xs[1..][k]) == Err(MapAll(f, xs[1..]).error)
                 && forall m :: 0 <= m < k ==> f(xs[1..][m]).Ok?;
        assert f(xs[k + 1]) == Err(MapAll(f, xs).error);
        assert forall m :: 0 <= m < k + 1 ==> f(xs[m]).Ok? by {
          forall m | 0 <= m < k + 1 ensures f(xs[m]).Ok? {
            if m > 0 { assert xs[m] == xs[1..][m - 1]; }
          }
        }
      }
    }
  }

  /** Mapping distributes over concatenation. */
  lemma {:induction false} MapAllAppend<A, B, E>(f: A -> Result<B, E>, x: seq<A>, y: seq<A>)
    requires MapAll(f, x).Ok?
    ensures MapAll(f, y).Ok? ==> MapAll(f, x + y) == Ok(MapAll(f, x).value + MapAll(f, y).value)
    ensures MapAll(f, y).Err? ==> MapAll(f, x + y) == MapAll(f, y)
    decreases |x|
  {
    if |x| == 0 {
      assert x + y == y;
      assert MapAll(f, x).value == [];
      if MapAll(f, y).Ok? {
        assert [] + MapAll(f, y).value == MapAll(f, y).value;
      }
    } else {
      var xs := x[1..];
      var z := x + y;
      assert z[0] == x[0] && z[1..] == xs + y;
      MapAllAppend(f, xs, y);
      if MapAll(f, y).Ok? {
        var a, p, b := f(x[0]).value, MapAll(f, xs).value, MapAll(f, y).value;
        assert [a] + (p + b) == ([a] + p) + b;
      }
    }
  }
}
